=== FILE: README.md ===
# Durak game engine — a verified model

This project models the server-side rules engine of a multiplayer Durak card
game, `serverjs/gamelogic.js`, and the seat management of its player list,
`serverjs/Game/GamePlayers.js`.

The engine holds one match. It builds and shuffles a 36- or 52-card deck and
turns up a trump. It deals six cards to each player and finds who attacks
first. Then it runs each turn as a sequence of stages. At each stage one player
is offered a list of valid actions: attack, defend, skip or take. The engine
waits for that player's response, or for a response timer to expire, and
afterwards for every player to acknowledge what happened. A finished turn
discards the field, or hands it to the defender, and refills the hands.
Players with no cards left once the deck is empty drop out, and the game ends
when fewer than two remain. Every state change is sent to each player with the
card faces that player may not know nulled out.

The model is functional. The game is one immutable record, `GameState.Game`:
- the card table, the deck, the hands, the field slots and the discard pile;
- the roles, the stages and the turn counters;
- the published actions, the waiting list and the timer.

Every engine method is a pure function from one record to the next. The
dispatch of `continueTurn` returns a `Step`: rest and wait for responses,
resume with another pass, or end the game. Events from outside are an
`Event`: a player's answer, or the expiry of the timer. The notifications are
pure functions that compute each recipient's payload.

Modules, in the order of the program:

| Module | File | What it models |
|---|---|---|
| `Cards` | `cards.dfy` | card creation, the shuffle, the trump swap, the beating rule |
| `Field` | `field.dfy` | the field slots |
| `Stages` | `stages.dfy` | the turn stages and the skip counter |
| `GameState` | `game.dfy` | the game record and its invariant |
| `Timer` | `timer.dfy` | `waitForResponse` and `setResponseTimer` |
| `Moves` | `moves.dfy` | card movements and card conservation |
| `Setup` | `setup.dfy` | the constructor, `reset` and `make` |
| `Dealing` | `dealing.dfy` | `deal` and `dealTillFullHand` |
| `Options` | `options.dfy` | the valid actions of `letAttack` and `letDefend` |
| `Roles` | `roles.dfy` | `findPlayerToGoFirst` and `findPlayerToGoNext` |
| `Responses` | `responses.dfy` | `recieveResponse`, `processAction` and the timer's callback |
| `Turns` | `turns.dfy` | `letAttack`, `letDefend`, `discardAndNotify`, `continueTurn` and the event loop |
| `Views` | `views.dfy` | the redacted payloads of `dealNotify`, `deckNotify` and `gameStateNotify` |
| `Seats` | `seats.dfy` | `push`, the status setters, `reconnect`, `disconnect`, `concede` and `applyNoResponseStatus` |

The central invariant is `GameState.Inv`. It has four parts:
- `Shaped`: the record is well formed.
- `Conserved`: every card lies in exactly one of the deck, a hand, a field slot or the discard pile, and its `position` names that container.
- `FieldOk`: the field discipline holds.
- `Protocol`: published actions are owed by exactly one player and can all be carried out.

A new match satisfies `Inv`. The engine in `Turns` runs three rules in their
corrected form, one for each row of "## Findings" below:
- `Turns.Receive` answers a response with `Responses.Respond`, which rejects an action that is not on offer. The code as written is `Responses.RespondAsWritten`.
- `Turns.NewTurn` chooses the next roles with `Roles.GoNext`, which passes the attack to the first remaining player after the previous attacker. The code as written is `Roles.GoNextAsWritten`.
- `Turns.FirstTurn` chooses the first roles with `Roles.GoFirstFixed`. With two seats and no trump dealt, it lets seat 0 attack seat 1 without an ally. The code as written is `Roles.GoFirst`, which reads a missing third seat there and throws.

For this engine, every event and every pass of `continueTurn` keeps `Inv`.
Two lemmas show where the engine makes the same choice as the code:
- `Turns.FirstTurnFollowsCode`: the first turn, whenever the code does not throw.
- `Turns.NewTurnFollowsCode`: every later turn in which nobody drops out.

Representation choices:
- Card ids are indices into the card table.
- Player ids are naturals.
- An action named in a response is its index in the published `validActions`. The JavaScript compares the action object by identity.
- Which players are connected is an input field, `offline`.
- The random draws of the shuffle are a parameter.

Where the written behaviour differs from what the game's rules describe:
- After a TAKE, the player after the defender attacks next, not the defender. The code records the taker as `attacker` (`serverjs/gamelogic.js:895`), and `findPlayerToGoNext` then moves one seat on. The model records the taker as the code does. The next roles then come from the corrected rotation. That rotation agrees with the code when nobody drops out, so the seat after the taker attacks in both.
- A response naming an action that is not on offer does change the game. This is the first row of "## Findings"; the engine uses the corrected behaviour.

## Model

| member | source | states |
|---|---|---|
| Cards.Beats | serverjs/gamelogic.js:938-942 | a trump beats any non-trump; only a trump or a card of the attack's suit can beat it; within a suit the higher value beats; a trump attack is beaten exactly by a higher trump |
| Cards.MakeCards | serverjs/gamelogic.js:121-149 | the card table of `make`: each card of value lowest..14 and suit 0..3 in the deck, each (value, suit) pair exactly once, 36 or 52 cards |
| Cards.SuitsOf | serverjs/gamelogic.js:138-148 | the inner loop of `make`: one card of the given value per suit, in suit order |
| Cards.CardsFrom | serverjs/gamelogic.js:131-149 | the outer loop of `make`: every value from `v` to the ace, each in every suit, no face twice |
| Cards.Shuffle | serverjs/gamelogic.js:177-188 | the Fisher-Yates shuffle returns a permutation of the deck |
| Cards.ShuffleFrom | serverjs/gamelogic.js:177-188 | every suffix of the shuffle loop keeps the deck a permutation |
| Cards.FirstNonAce | serverjs/gamelogic.js:154-164 | finds the first deck card that is not an ace, and reports none exactly when the deck holds only aces |
| Cards.SwapTrumpToBottom | serverjs/gamelogic.js:154-164 | the trump swap keeps the deck a permutation; if any non-ace exists the bottom card is one, and an all-ace deck is unchanged |
| Setup.ShuffledDeck | serverjs/gamelogic.js:131-151 | the shuffled deck is a permutation of all card ids |
| Setup.MakeTable | serverjs/gamelogic.js:113-169 | the cards keep their creation faces; the deck is a permutation of all ids; the bottom card is a non-ace marked BOTTOM whose suit is the trump suit; all other cards are in the DECK |
| Setup.TrumpTable | serverjs/gamelogic.js:154-169 | the trump swap and BOTTOM mark change only the bottom card's position and set the trump suit from it |
| Setup.Make | serverjs/gamelogic.js:113-174 | `make` installs the table, makes every player active and waits for every player; nothing else changes |
| Setup.MakeTableDeck | serverjs/gamelogic.js:121-151 | a new deck has 36 cards of values 6..14 for up to four players and 52 of values 2..14 otherwise; every (value, suit) pair appears exactly once, and the deck is a permutation of all ids |
| Setup.NewGame | serverjs/gamelogic.js:13-174 | a new match has the given players, all active and all awaited, no hands, nothing on offer, game number 1, not yet started, and the timer armed |
| Setup.TablePositions | serverjs/gamelogic.js:136-168 | every card of a new table lies in the deck, one of them marked BOTTOM |
| Setup.NewGameCardsConserved | serverjs/gamelogic.js:113-174 | every card of a new match lies in exactly one container whose name its position carries |
| Setup.NewGameInv | serverjs/gamelogic.js:13-174 | a new match satisfies the invariant: nothing on offer, no game started, game number 1, every player owing an acknowledgement |
| Setup.NewGameFacts | serverjs/gamelogic.js:54-174 | a new match has empty hands, field and discard pile, all players active and awaited, the usable field at 5 slots, and no attacker |
| Field.EmptyField | serverjs/gamelogic.js:79-88 | `reset` builds six empty field slots |
| Field.FirstUnanswered | serverjs/gamelogic.js:909-917 | `defenseSpot` is the first slot holding an attack card without a defense, and is absent exactly when every attack is answered |
| Stages.SetTurnStage | serverjs/gamelogic.js:783-786 | the new stage becomes current and the current one becomes the last one |
| Stages.SkipTransition | serverjs/gamelogic.js:556-602 | a skip never lowers the skip counter and raises it by at most two, by two exactly with an ally after REPEATING_ATTACK; it leaves the stages or moves to FOLLOWUP, SUPPORT or ATTACK |
| Stages.SkipDefault | serverjs/gamelogic.js:583-599 | the `default` case counts the skip once; after an earlier skip it leaves the stages alone, otherwise it may only hand the turn between ATTACK and SUPPORT |
| Stages.AttackTransition | serverjs/gamelogic.js:526-530 | a throw after FOLLOWUP sets the stage back to FOLLOWUP and keeps the skip count exactly; any other attack leaves the stages alone and resets the count to zero |
| Stages.TakeTransition | serverjs/gamelogic.js:605-609 | a TAKE starts FOLLOWUP with the skip counter at zero |
| Stages.DefenseRewrite | serverjs/gamelogic.js:961-983 | after a defense is offered, INITIAL_ATTACK and REPEATING_ATTACK lead to REPEATING_ATTACK, ATTACK to SUPPORT and SUPPORT to ATTACK, each recording the current stage as the last one; any other last stage leaves the stages unchanged |
| Stages.SkipAfterRepeatingAttackCountsTwice | serverjs/gamelogic.js:579-599 | with an ally, the missing `break` makes a skip after REPEATING_ATTACK count twice and pass the turn to SUPPORT |
| Stages.AllySkipAfterRepeatingSkipEndsAttacks | serverjs/gamelogic.js:556-602 | after that double count the ally's next skip leaves the stage at DEFENSE; with a `break` the outcome would be the same, so the fall-through is harmless to the stage sequence |
| Stages.SkipAlternatesOnce | serverjs/gamelogic.js:583-599 | a first skip under ATTACK or SUPPORT passes the turn to the other attacker; a second skip in a row does not |
| Stages.SkipWithoutAllyChangesNothing | serverjs/gamelogic.js:556-602 | without an ally a skip changes neither the stages nor the skip counter |
| Stages.DefenseRewriteLeadsToAttack | serverjs/gamelogic.js:961-983 | after `letDefend` offers a defense, the next stage is REPEATING_ATTACK, SUPPORT or ATTACK, and the previous stage becomes the last one |
| GameState.SetStage | serverjs/gamelogic.js:783-786 | on the game record, the new stage becomes current and the current one becomes the last one; nothing else changes |
| GameState.Reset | serverjs/gamelogic.js:54-110 | `reset` increments the game number; clears hands, cards, deck, discard pile and all three roles; builds an empty field with 5 usable slots; sets the skip counter to 0 and the turn number to 1; clears the stages, the waiting list and the offer; keeps the players |
| Timer.NewlyDisconnected | serverjs/gamelogic.js:397-414 | exactly the seated players that are offline and not yet recorded as disconnected, without repeats |
| Timer.SetResponseTimer | serverjs/gamelogic.js:392-414 | the timer is re-armed and newly offline players are recorded; the window is 30 seconds exactly when it was asked for or someone is newly offline, otherwise the requested time |
| Timer.WaitForResponse | serverjs/gamelogic.js:379-389 | the players named are appended to the waiting list and the timer is armed; no recorded disconnection is forgotten |
| Timer.EscalatesOnce | serverjs/gamelogic.js:402-411 | a player seen offline escalates the window only once; the next arming uses the plain window |
| Moves.PlayCard | serverjs/gamelogic.js:505-553 | playing a card changes only the cards, hands and field; every hand and slot stays present |
| Moves.PlayCardMoves | serverjs/gamelogic.js:505-553 | a played card records its slot and fills its attack or defense half; it leaves the player's hand exactly once; every other slot, card and hand is untouched |
| Moves.PlayCardConserves | serverjs/gamelogic.js:505-553 | playing a hand card into a free slot keeps every card in exactly one container with a matching position |
| Moves.TakeField | serverjs/gamelogic.js:861-896 | the follow-up take appends every field card, slot by slot, to the taker's hand and empties the slots |
| Moves.TakeFieldConserves | serverjs/gamelogic.js:861-896 | taking the field keeps every card in exactly one container with a matching position |
| Moves.DiscardField | serverjs/gamelogic.js:1004-1028 | every field card is appended to the discard pile and the slots are emptied |
| Moves.DiscardFieldConserves | serverjs/gamelogic.js:1004-1028 | discarding keeps every card in exactly one container with a matching position |
| Moves.HeldCardPosition | serverjs/gamelogic.js:241-243 | in a conserved game a card in a hand records that hand's player as its position |
| Moves.ContainersSeparate | serverjs/gamelogic.js:113-174 | in a conserved game no card is in two containers or twice in one |
| Dealing.Serve | serverjs/gamelogic.js:229-255 | dealing takes cards from the front of the deck, in order, for seated hands only |
| Dealing.Deal | serverjs/gamelogic.js:225-263 | `deal` changes only the deck, the hands and the card positions, and deals a prefix of the deck |
| Dealing.ServeSpec | serverjs/gamelogic.js:229-255 | the k-th card dealt is the k-th deck card and goes to the k-th requested unit; min(requested, deck size) cards are dealt; each hand grows by exactly its cards, in order |
| Dealing.ServeMultiset | serverjs/gamelogic.js:229-255 | the cards leaving the deck are exactly the cards the hands gain: the multiset of deck and hands is unchanged |
| Dealing.DealSpec | serverjs/gamelogic.js:225-263 | the same for `deal` on the game record |
| Dealing.DealConserves | serverjs/gamelogic.js:229-255 | dealing loses and duplicates no card, and every card's position stays correct |
| Dealing.DealtCardHeld | serverjs/gamelogic.js:241-243 | each dealt card is in its receiver's hand and records that player as its position |
| Dealing.UndealtCardStays | serverjs/gamelogic.js:229-255 | a card not dealt keeps its record and stays in the deck or hand it was in |
| Dealing.OpeningDeal | serverjs/gamelogic.js:1068-1077 | six rounds of one card per player give every player exactly six cards and shorten the deck by six per player |
| Dealing.FullHandRequests | serverjs/gamelogic.js:196-213 | every request is for a seated player missing cards and asks for exactly the missing number; every short hand is asked for |
| Dealing.Rotation | serverjs/gamelogic.js:196-201 | the seats visited from the start seat are all seats, each once |
| Dealing.RequestsUnits | serverjs/gamelogic.js:198-213 | each short hand requests exactly the cards it lacks, once |
| Dealing.FullHandDeal | serverjs/gamelogic.js:191-222 | with enough cards in the deck, every hand below six is filled to exactly six and no other hand changes |
| Options.FieldValues | serverjs/gamelogic.js:804-817 | `validValues` holds the values of the field cards |
| Options.AttackActions | serverjs/gamelogic.js:823-842 | the ATTACK actions are exactly the hand cards whose value is on the field (any card on an empty field), aimed at one slot |
| Options.AttackOptions | serverjs/gamelogic.js:819-842 | the options are ATTACK actions with hand cards for the first free slot, followed by at most one SKIP at the end |
| Options.AttackOptionsSpec | serverjs/gamelogic.js:804-842 | a hand card is offered exactly when Durak's throw-in rule allows it, always for the first free slot; SKIP is offered iff the stage is not INITIAL_ATTACK; no TAKE or DEFENSE is offered |
| Options.DefendActions | serverjs/gamelogic.js:933-950 | the DEFENSE actions are exactly the hand cards that beat the attack card, aimed at its slot |
| Options.DefenseOptions | serverjs/gamelogic.js:928-956 | the options end with TAKE; each one before it defends the attacked slot with a hand card that beats the attack card |
| Options.DefenseOptionsSpec | serverjs/gamelogic.js:928-956 | the defender is offered exactly the beating cards, then TAKE as the last option and only there; no SKIP or ATTACK is offered |
| Responses.Perform | serverjs/gamelogic.js:505-609 | an action changes only the cards, hands, field, stages and counters; players, deck, pile, roles and the offer stay |
| Responses.ProcessAction | serverjs/gamelogic.js:491-627 | an action keeps the players, deck, discard pile and roles; an accepted one withdraws the offer, awaits everyone and arms the timer; one not on offer stops the timer and leaves the offer |
| Responses.ProcessActionSpec | serverjs/gamelogic.js:491-627 | an action not on offer only stops the timer; an accepted one withdraws the offer and awaits everyone; SKIP and TAKE move no card; ATTACK uses one more slot and DEFENSE none |
| Responses.ProcessActionMoves | serverjs/gamelogic.js:505-553 | an accepted ATTACK or DEFENSE moves exactly its card from the hand into the named half of its slot and nothing else |
| Responses.ProcessActionInv | serverjs/gamelogic.js:491-627 | carrying out the awaited player's chosen action keeps the invariant |
| Responses.RespondAsWritten | serverjs/gamelogic.js:460-488 | as written, a response from someone not awaited, or without an action while one is required, is ignored; the turn continues only with nobody left to wait for and the timer stopped; the seating, deck and attacker stay |
| Responses.Respond | serverjs/gamelogic.js:460-488 | a response from someone not awaited, without an action while one is required, or with an action not on offer is ignored; any other is handled as written |
| Responses.RespondSpec | serverjs/gamelogic.js:460-488 | an accepted action comes from the one awaited player and leaves everyone owing an acknowledgement with nothing on offer; an acknowledgement strikes its sender off once; the turn continues only with nobody awaited, nothing on offer and the timer stopped |
| Responses.RespondInv | serverjs/gamelogic.js:460-488 | every accepted response keeps the invariant and the seating |
| Responses.ActionOutcome | serverjs/gamelogic.js:474-487 | the awaited player's action is processed and the waiting list starts again from every player |
| Responses.RespondAsWrittenKeepsStaleOptions | serverjs/gamelogic.js:460-500 | as written, a response naming an action not on offer still continues the turn with the stale options published |
| Responses.DefaultActionIndex | serverjs/gamelogic.js:428-447 | a timed-out player plays the first SKIP or TAKE on offer, otherwise the first action |
| Responses.Timeout | serverjs/gamelogic.js:416-456 | the timer's callback never ignores the expiry |
| Responses.TimeoutSpec | serverjs/gamelogic.js:416-456 | on expiry with actions on offer the default action is played and everyone is awaited; otherwise the turn continues with nobody awaited; the invariant holds either way |
| Responses.TimeoutPlays | serverjs/gamelogic.js:428-447 | on expiry the awaited player plays the default action and is struck off |
| Roles.LowestTrump | serverjs/gamelogic.js:634-655 | the search returns a value no higher than any trump in the hand, which is either the starting bound or an actual trump value |
| Roles.LowFound | serverjs/gamelogic.js:634-655 | the search finds a value at most the ace exactly when the hand holds a trump |
| Roles.MinTrumps | serverjs/gamelogic.js:634-655 | `minTCards` holds exactly the players holding a trump, each with its lowest trump value |
| Roles.LowestEntry | serverjs/gamelogic.js:658-670 | the chosen entry has the smallest value of all entries, and exists exactly when some entry does |
| Roles.NextSeat | serverjs/gamelogic.js:673-688 | the next seat wraps round to seat 0 and differs from the current one when there are two seats |
| Roles.SeatRoles | serverjs/gamelogic.js:673-688 | the next seat defends and, with more than two active players, the one after helps |
| Roles.GoFirst | serverjs/gamelogic.js:630-706 | as written: chosen by trump, the attacker and defender are seated players; the default is seats 0, 1 and 2; the missing-seat case occurs only with fewer than three seats |
| Roles.GoFirstSpec | serverjs/gamelogic.js:630-706 | the first attacker is chosen by trump exactly when a trump was dealt, and holds the lowest trump of all; without a trump and with fewer than three seats the code reads a missing seat |
| Roles.GoFirstWithoutTrumpNeedsThreeSeats | serverjs/gamelogic.js:700-705 | two players and no trump dealt reaches `players[2]`, a seat that does not exist |
| Roles.GoFirstFixed | serverjs/gamelogic.js:700-705 | without a trump seat 0 attacks seat 1, with an ally only when a third seat exists; with three or more seats it agrees with the code |
| Roles.At | serverjs/gamelogic.js:753-775 | array access yields the element in range and `undefined` outside it |
| Roles.EliminateAsWritten | serverjs/gamelogic.js:715-750 | the elimination loop as written only removes players, and keeps the attacker index at -1 or above |
| Roles.PickAsWritten | serverjs/gamelogic.js:753-775 | the picks are active players, with an ally exactly when more than two remain |
| Roles.PickAsWrittenIsNextSeat | serverjs/gamelogic.js:753-775 | the fall-backs to the front of the list are the wrap-around of the seating order |
| Roles.AttackerIndex | serverjs/gamelogic.js:712-712 | the attacker's index in the active players, or -1 exactly when the attacker is absent |
| Roles.GoNextAsWritten | serverjs/gamelogic.js:710-778 | as written, the list changes only once the deck is empty, and the game ends exactly then with fewer than two players left |
| Roles.Survivors | serverjs/gamelogic.js:715-750 | the remaining players are a subset of the active ones |
| Roles.SurvivorsMembers | serverjs/gamelogic.js:715-750 | exactly the active players with cards remain once the deck is empty, and all of them before |
| Roles.GoNext | serverjs/gamelogic.js:710-778 | the game ends iff fewer than two remain; otherwise the first remaining player after the previous attacker attacks, the next seat defends and, with more than two, the one after helps |
| Roles.GoNextRoles | serverjs/gamelogic.js:753-775 | attacker, defender and ally are distinct remaining players sitting next to each other, with an ally exactly when more than two remain |
| Roles.GoNextMovesOn | serverjs/gamelogic.js:728-739 | a previous attacker still in the game never attacks twice in a row |
| Roles.GoNextTwoDropOutsAgree | serverjs/gamelogic.js:728-739 | as written, when two players seated before the attacker drop out, the second splice puts `ai` back on the attacker and the code picks the same roles as the corrected rule |
| Roles.GoNextEarlierDropOutKeepsSuccessor | serverjs/gamelogic.js:728-739 | as written, when the attacker drops out together with a player seated before it, the next remaining seat attacks, as the corrected rule has it |
| Roles.KeepsSeatsAgree | serverjs/gamelogic.js:710-778 | when nobody drops out, the code as written keeps every active player and continues, and the corrected rule makes the same choice |
| Roles.GoNextAgreesWithoutEliminations | serverjs/gamelogic.js:710-778 | while nobody drops out the code as written and the corrected rule pick the same roles |
| Roles.GoNextRepeatsAttacker | serverjs/gamelogic.js:728-739 | as written, when exactly one player seated before the attacker drops out (in general, an odd number), the same attacker attacks again; for example with three players, B attacking and A out |
| Roles.GoNextPassesAttack | serverjs/gamelogic.js:728-739 | in that position the corrected rule passes the attack on |
| Roles.GoNextSkipsSuccessor | serverjs/gamelogic.js:728-739 | as written, when the attacker itself drops out from a middle seat and none of the players seated before it drops out with it, the next remaining seat is passed over; for example with four players, B attacking and out |
| Roles.GoNextKeepsSuccessor | serverjs/gamelogic.js:728-739 | in that position the corrected rule gives the attack to the next remaining seat |
| Turns.DealStep | serverjs/gamelogic.js:256-262 | after dealing every player is awaited, or the turn goes on when nothing was dealt; only the deck, hands, cards and waiting list change |
| Turns.StartSeat | serverjs/gamelogic.js:196-201 | `dealTillFullHand` starts from the attacker's seat, or seat 0 when there is no seated attacker |
| Turns.DealTillFullHand | serverjs/gamelogic.js:191-222 | refilling the hands changes only the deck, hands, cards and waiting list |
| Turns.Start | serverjs/gamelogic.js:1061-1079 | the first pass never ends the game; Turns.StartSpec states what it deals |
| Turns.FirstTurn | serverjs/gamelogic.js:1082-1085 | finding the first attacker never ends the game; the roles come from the corrected fallback `Roles.GoFirstFixed` (third finding); Turns.FirstTurnSpec states whom it picks |
| Turns.NewTurn | serverjs/gamelogic.js:1095-1128 | a new turn either ends the game or goes on at once, never waiting; the roles come from the corrected rotation `Roles.GoNext` (second finding) |
| Turns.FollowupThrowKeepsThrower | serverjs/gamelogic.js:526-530 | a follow-up throw returns the stage to FOLLOWUP with the skip count kept, so the next throw goes to the attacker before any skip and to the ally after one (gamelogic.js:1159-1160) |
| Turns.DefenseRewriteNextThrower | serverjs/gamelogic.js:961-981 | after a defense is offered, the attacker throws next after the opening attack, a repeated attack or the ally's support, and the ally (if any) after the attacker's ATTACK (gamelogic.js:1131-1156) |
| Turns.Thrower | serverjs/gamelogic.js:1131-1161 | the player let to attack is the attacker, or the ally, and the attacker whenever there is no ally |
| Turns.LetAttack | serverjs/gamelogic.js:789-851 | `letAttack` never ends the game; Turns.LetAttackSpec states what it offers |
| Turns.LetDefend | serverjs/gamelogic.js:854-988 | `letDefend` never ends the game; Turns.LetDefendSpec and Turns.LetDefendOffers state what it does |
| Turns.Grown | serverjs/gamelogic.js:1034-1037 | the usable field grows by at most one, stays within six, and from 5 or 6 ends at 6 or unchanged |
| Turns.DiscardAndNotify | serverjs/gamelogic.js:991-1055 | the discard never ends the game; Turns.DiscardSpec states what it moves |
| Turns.Advance | serverjs/gamelogic.js:1058-1179 | with the three corrected rules, every pass of `continueTurn` keeps the invariant and the seating, and a pass that continues leaves nothing on offer |
| Turns.Handle | serverjs/gamelogic.js:460-488 | with the three corrected rules, an event and the passes it sets off keep the invariant and the seating |
| Turns.ReceiveInv | serverjs/gamelogic.js:416-488 | every event the engine does not ignore keeps the invariant, and the turn continues only with nothing on offer and nobody awaited |
| Turns.ContinueTurnInv | serverjs/gamelogic.js:1058-1179 | with the three corrected rules, each pass keeps the invariant and the seating; one that continues leaves nothing on offer and nobody awaited; one that rests awaits somebody with the timer armed |
| Turns.LetAttackSpec | serverjs/gamelogic.js:789-851 | when the field is full or the defender has no cards outside a follow-up, nothing is offered; otherwise the player alone is awaited and offered exactly the throwable cards for the first free slot, SKIP exactly after the opening attack, and no card moves; the stage becomes DEFENSE either way |
| Turns.LetDefendSpec | serverjs/gamelogic.js:854-926 | after a follow-up the defender takes every field card, becomes the attacker of record, the stage becomes END and everyone is awaited; otherwise the turn goes straight on, with the stage END, exactly when every attack is answered |
| Turns.LetDefendOffers | serverjs/gamelogic.js:909-985 | with an unanswered attack the defender alone is awaited and offered exactly the beating cards for the first unanswered slot, TAKE last; the stage follows the `letDefend` rewrite and no card moves |
| Turns.DiscardSpec | serverjs/gamelogic.js:991-1055 | every field card goes to the discard pile marked discarded, the slots empty and the counters reset; with cards discarded the stage is END_DEAL, the usable field grows by one up to six and everyone is awaited; otherwise the stage is ENDED; the usable field stays at 5 or 6 |
| Turns.DealTillFullHandSpec | serverjs/gamelogic.js:191-222 | the turn goes on at once exactly when the deck is empty or no seated hand is short of six |
| Turns.DealTillFullHandFills | serverjs/gamelogic.js:191-222 | with enough cards every short hand ends with six cards and no other hand changes |
| Turns.StartSpec | serverjs/gamelogic.js:1061-1079 | the first pass starts the game, gives every player six cards, shortens the deck by six per player and awaits everyone |
| Turns.FirstTurnSpec | serverjs/gamelogic.js:630-706 | the game waits exactly when a trump was dealt, and then the attacker holds the lowest trump; with no trump seat 0 attacks seat 1, which with only two seats is the corrected fallback (the code throws there) |
| Turns.NewTurnSpec | serverjs/gamelogic.js:1095-1128 | the active players shrink to those with cards; the game ends iff fewer than two remain; otherwise a new INITIAL_ATTACK turn starts between two distinct remaining players, with an ally iff more than two remain; under the corrected rotation (second finding) the previous attacker does not attack again |
| Turns.FirstTurnFollowsCode | serverjs/gamelogic.js:630-706 | whenever `findPlayerToGoFirst` as written does not throw, the first turn takes its attacker, defender and ally, and waits for every player exactly when it chose by trump |
| Turns.NewTurnFollowsCode | serverjs/gamelogic.js:710-778 | when nobody drops out, the next turn keeps the active players and takes the attacker, defender and ally that `findPlayerToGoNext` as written picks |
| Turns.ContinueTurn | serverjs/gamelogic.js:1058-1179 | the first pass starts the game; a started game without an attacker gets an attacker and a defender; only a pass after an ENDED turn can end the game |
| Turns.Receive | serverjs/gamelogic.js:416-488 | an expiry is never ignored; a response from a player nobody waits for, or naming an action not on offer, is ignored |
| Views.Show | serverjs/gamelogic.js:325-373 | a listed card carries its id and position, and its true face exactly when it is visible |
| Views.DealView | serverjs/gamelogic.js:266-291 | every deal is listed in order, with the true face exactly for the recipient's own cards |
| Views.PublicDeals | serverjs/gamelogic.js:281-285 | the deal payload with every face nulled |
| Views.DealViewReveals | serverjs/gamelogic.js:281-285 | a player learns the faces of exactly the cards dealt to it, in order |
| Views.DealViewsAgree | serverjs/gamelogic.js:266-291 | apart from the faces, every player receives the same deal payload |
| Views.DealNotifyShowsNewCards | serverjs/gamelogic.js:225-291 | the faces each player is sent after a deal are exactly the cards its hand gained |
| Views.DeckView | serverjs/gamelogic.js:294-318 | the deck is listed in order, with the face shown exactly for the BOTTOM card |
| Views.NewGameDeckView | serverjs/gamelogic.js:167-173 | the deck sent at the start shows one face only, the last card's: a non-ace of the trump suit |
| Views.HandsView | serverjs/gamelogic.js:340-358 | a hand card's face is shown exactly when its position names the recipient |
| Views.FieldView | serverjs/gamelogic.js:360-373 | every field card is shown with its true face |
| Views.StateViewLists | serverjs/gamelogic.js:321-376 | `gameStateNotify` lists every card outside the discard pile exactly once: the deck, the hands, then the field |
| Views.StateViewReveals | serverjs/gamelogic.js:321-376 | the faces sent are exactly those of the cards the recipient may know (the BOTTOM card, its own hand, the field), and they are the true faces |
| Seats.Ids | serverjs/Game/GamePlayers.js:126-127 | the seated players' ids, in seat order |
| Seats.Pushed | serverjs/Game/GamePlayers.js:22-31 | a joining player gets score 0/0, `working` false, `hover` null and the game-start statuses over its own; no other status is invented |
| Seats.Push | serverjs/Game/GamePlayers.js:22-31 | `push` appends the prepared player and leaves every other seat alone |
| Seats.SetAll | serverjs/Game/GamePlayers.js:78-79 | `set(key, v)` sets the status of every seat and nothing else |
| Seats.SetFor | serverjs/Game/GamePlayers.js:80-82 | `set(key, v, players)` sets the status of the listed seats only |
| Seats.Assign | serverjs/Game/GamePlayers.js:78-111 | after a setter, each seat's status is `on` exactly when the seat is listed and `off` otherwise; nothing else changes |
| Seats.AssignActive | serverjs/Game/GamePlayers.js:78-83 | `active = players` marks the listed players active and every other player inactive |
| Seats.AssignInactive | serverjs/Game/GamePlayers.js:92-97 | `inactive = players` is the same with the values swapped |
| Seats.AssignWorking | serverjs/Game/GamePlayers.js:106-111 | `working = players` marks exactly the listed players as working |
| Seats.WithStatusMember | serverjs/Game/GamePlayers.js:75-77 | a getter returns exactly the seated players whose status has the value |
| Seats.AssignThenGet | serverjs/Game/GamePlayers.js:75-111 | after a setter, the getter returns exactly the seated listed players, and the opposite getter the seated unlisted ones |
| Seats.SetListed | serverjs/Game/GamePlayers.js:84-114 | `setActive`, `setInactive` and `setWorking` change only the listed players' one status |
| Seats.SetActiveAdds | serverjs/Game/GamePlayers.js:84-86 | `setActive` only adds: everyone active before still is, and the seated listed players have joined them |
| Seats.Reconnect | serverjs/Game/GamePlayers.js:126-135 | reconnecting a seated player clears only its `afk` mark; for anyone else nothing changes |
| Seats.ReconnectIdempotent | serverjs/Game/GamePlayers.js:126-135 | reconnecting twice is reconnecting once |
| Seats.Detached | serverjs/Game/GamePlayers.js:152-153 | a leaving player loses its game link and all its statuses and keeps the rest |
| Seats.Disconnect | serverjs/Game/GamePlayers.js:137-153 | refused exactly for a player not seated or while the match runs; otherwise that seat is removed and the player detached |
| Seats.DisconnectRemoves | serverjs/Game/GamePlayers.js:137-153 | disconnecting removes exactly the leaving player; the others stay in order, and no id is repeated |
| Seats.DisconnectUndoesPush | serverjs/Game/GamePlayers.js:22-153 | joining and then leaving before the match restores the seats |
| Seats.Stand | serverjs/Game/GamePlayers.js:182-185 | the replacement bot carries the conceder's id and statuses and a fresh score |
| Seats.Concede | serverjs/Game/GamePlayers.js:167-206 | refused exactly for a player not seated or outside a match; otherwise the bot takes the conceder's seat, every other seat keeps its index, the conceder is detached, and the bot answers at once exactly when a human remains and its `working` status is true |
| Seats.BubbleBack | serverjs/Game/GamePlayers.js:190-196 | the swap loop moves the last seat back to the vacated index, shifting the seats it passes up by one |
| Seats.NoResponse | serverjs/Game/GamePlayers.js:230-234 | the no-response mark is never cleared, and is set exactly when the match is simulated and the recipient is human |
| Seats.NoResponseIdempotent | serverjs/Game/GamePlayers.js:230-234 | applying the mark twice is applying it once |

## Left out

- Timers are not scheduled. `setTimeout` and `clearTimeout` become the `timer` field, which holds the armed window in seconds, and an `Expire` event that runs the callback's logic.
- Logging is left out: `utils.log`, `logAction` and the debug error messages. Ids are naturals, so `utils.generateId` has no counterpart.
- Sending is left out: `recieveDeals`, `recieveCards`, `recieveAction`, `recieveValidActions`, `meetOpponents`, `handleLateness` and `notify`. The payloads of `dealNotify`, `deckNotify` and `gameStateNotify` are modelled in `Views`.
- The shuffle's `Math.random` is a parameter: the sequence of draws, each within the range the loop step allows.
- The replay loop of `continueTurn` (lines 1106-1111) is left out. It resets and remakes the match up to 10 times. When `findPlayerToGoNext` reports the end, the model's pass returns `GameOver`.
- Turns.Advance: bounded by a fuel parameter. It promises the invariant only for the passes it runs, not that `continueTurn` eventually rests. Its passes use the three corrected rules, as for Turns.ContinueTurnInv.
- Turns.NewTurn: uses the corrected rotation `Roles.GoNext`, not `findPlayerToGoNext` as written. The two differ only in the turn after a player drops out: `Roles.GoNextRepeatsAttacker` and `Roles.GoNextSkipsSuccessor` show such turns. Elsewhere they agree (`Turns.NewTurnFollowsCode`).
- Turns.NewTurnSpec: its clause that the previous attacker does not attack again holds of the corrected rotation only. As written, the code breaks it when an odd number of players seated before the attacker drop out, for example exactly one.
- The turn engine (`Turns.FirstTurn`, `Turns.ContinueTurn`, `Turns.Advance`, `Turns.Handle`, `Turns.ContinueTurnInv` and the other members of `Turns` that drive a turn) is modelled for two or more seats only: each requires `|g.players| >= 2`. The code has no meaningful one-seat game. It ends the game once fewer than two players are active (`serverjs/gamelogic.js:746-748`), and with one seat and no trump it reads the missing `players[1].id` at line 702.
- Turns.FirstTurn: with two seats and no trump dealt, the code throws a TypeError at line 703, reading `players[2].id`. The model goes on with seat 0 attacking seat 1 and no ally (`Roles.GoFirstFixed`). In every other case it takes the code's roles (`Turns.FirstTurnFollowsCode`).
- Turns.FirstTurnSpec: its no-trump clause describes the corrected fallback when only two players are seated. The code throws in that case.
- Turns.Receive: answers through `Responses.Respond`, so a response naming an action that is not on offer is ignored. As written, `recieveResponse` strikes off the sender and may continue the turn (`Responses.RespondAsWrittenKeepsStaleOptions`).
- Turns.ContinueTurnInv: proved for the engine with the three corrected rules. It does not cover the code's behaviour in the three situations of "## Findings": a response with an action that is not on offer, a two-seat start with no trump, or a rotation after a player drops out.
- Turns.Handle: proved for the same corrected engine as Turns.ContinueTurnInv, with the same three exceptions.
- Roles.GoFirst reads a card's owner from the hand that holds it rather than from `card.position`. The two agree in every state satisfying the invariant.
- The player list's base class is not part of this model: `set`, `getWith`, `getWithOwn`, `setStatuses`, `humans` and `bots`. Statuses are a map from key to true, false or null, and a player is identified by its id.
- The queue handling of `disconnect` (lines 154-161) is left out, because the queue manager is not part of this model.
- `sendResponse` of the conceding bot is left out. `Seats.Concede` returns it as the flag `responds`.
- `resetTurn`, `resetGame`, `scores`, `roles`, `completeActionNotify`, `validActionsNotify`, `logTurnStart` and `logTimeout` of the player list are left out. They are status-map writes and notification glue with no rule of their own.
- Seats.Push does not set the player's `game` link, which the player manager owns.
- `serverjs/Player/Player.js` and the bot class are not part of this model. The bot that replaces a conceding player is a parameter.
- The browser client (`public/js`) is not part of this model.

## Findings

| source | as written | input that shows it | evidently intended | confidence | as-written member | corrected member |
|---|---|---|---|---|---|---|
| serverjs/gamelogic.js:460-500 | `processAction` drops an action that is not on offer and stops the timer. `recieveResponse` still strikes the player off and, with nobody left to wait for, continues the turn while the stale options stay published. | one awaited player sends an action index past the end of `validActions` | the response is rejected like a missing action, and nothing changes | not executed | Responses.RespondAsWrittenKeepsStaleOptions | Responses.Respond |
| serverjs/gamelogic.js:728-739 | when exactly one active player seated before the attacker drops out, `ai = newai - 1` leaves `ai` one seat before the attacker, so the same player attacks again. In general this happens after an odd number of such drop-outs: each further one moves the attacker onto `ai` and back off it. When the attacker itself drops out from a middle seat and none of the players seated before it drops out with it, the next remaining seat is passed over. | players [A, B, C], B attacked last, deck empty, A has no cards: B attacks again. Players [A, B, C, D], B attacked last and has no cards: D attacks and C is passed over. | the attack passes to the first remaining player after the previous attacker | not executed | Roles.GoNextRepeatsAttacker | Roles.GoNext |
| serverjs/gamelogic.js:700-705 | with no trump dealt, the ally is read from `players[2]`, which does not exist when only two players are seated | two players whose hands hold no trump | seat 0 attacks seat 1, and there is no ally | not executed | Roles.GoFirstWithoutTrumpNeedsThreeSeats | Roles.GoFirstFixed |

=== FILE: cards.dfy ===
/** Cards, their positions, the deck built at setup, the Fisher-Yates shuffle,
    the trump swap and the "beats" relation of Durak
    (serverjs/gamelogic.js, `make`, `shuffleDeck`, `letDefend`). */
module Cards {
  import opened Util

  /** Index into the game's `cards` table. */
  type CardId = nat
  type PlayerId = nat

  /** Where a card is: `'DECK'`, `'BOTTOM'` (the face-up trump card), a player
      id, a field slot `'FIELD<i>'`, or `'DISCARD_PILE'`. */
  datatype Position = Deck | Bottom | Held(owner: PlayerId) | Slot(index: nat) | DiscardPile

  datatype Card = Card(value: int, suit: int, position: Position)

  /** What a card shows: its value and suit. */
  function Face(c: Card): (int, int) {
    (c.value, c.suit)
  }

  const MaxCardValue: int := 14
  const NumOfSuits: int := 4

  /** `lowestCardValue`: 2 with more than four players, otherwise 6. */
  function LowestCardValue(numPlayers: nat): int {
    if numPlayers > 4 then 2 else 6
  }

  /** `numOfCards`: 52 with more than four players, otherwise 36. */
  function NumOfCards(numPlayers: nat): nat {
    if numPlayers > 4 then 52 else 36
  }

  /** The card table built by `make`: for each value from the lowest up to the
      ace, one card of each suit, all in the deck. */
  function MakeCards(numPlayers: nat): (cs: seq<Card>)
    ensures |cs| == NumOfCards(numPlayers)
    ensures forall i | 0 <= i < |cs| ::
      && LowestCardValue(numPlayers) <= cs[i].value <= MaxCardValue
      && 0 <= cs[i].suit < NumOfSuits
      && cs[i].position == Deck
    ensures forall i, j {:trigger Face(cs[i]), Face(cs[j])} | 0 <= i < j < |cs| :: Face(cs[i]) != Face(cs[j])
    ensures forall v, s | LowestCardValue(numPlayers) <= v <= MaxCardValue && 0 <= s < NumOfSuits ::
      Card(v, s, Deck) in cs
    ensures cs[0].value == LowestCardValue(numPlayers)
  {
    CardsFrom(LowestCardValue(numPlayers))
  }

  /** The inner loop of `make`: the cards of value `v`, suit by suit. */
  function SuitsOf(v: int): (cs: seq<Card>)
    ensures |cs| == NumOfSuits
    ensures forall s | 0 <= s < NumOfSuits :: cs[s] == Card(v, s, Deck)
  {
    seq(NumOfSuits, s => Card(v, s, Deck))
  }

  /** The outer loop of `make` from value `v` on: every value up to the ace,
      each in every suit, in increasing order of value. */
  function CardsFrom(v: int): (cs: seq<Card>)
    requires v <= MaxCardValue + 1
    ensures |cs| == (MaxCardValue + 1 - v) * NumOfSuits
    ensures forall i | 0 <= i < |cs| ::
      v <= cs[i].value <= MaxCardValue && 0 <= cs[i].suit < NumOfSuits && cs[i].position == Deck
    ensures forall i, j {:trigger Face(cs[i]), Face(cs[j])} | 0 <= i < j < |cs| :: Face(cs[i]) != Face(cs[j])
    ensures forall w, s | v <= w <= MaxCardValue && 0 <= s < NumOfSuits :: Card(w, s, Deck) in cs
    ensures v <= MaxCardValue ==> cs[0].value == v
    decreases MaxCardValue + 1 - v
  {
    if v > MaxCardValue then []
    else
      var head, rest := SuitsOf(v), CardsFrom(v + 1);
      var cs := head + rest;
      assert forall i | NumOfSuits <= i < |cs| :: cs[i] == rest[i - NumOfSuits];
      assert forall s | 0 <= s < NumOfSuits :: cs[s] == Card(v, s, Deck);
      forall w, s | v <= w <= MaxCardValue && 0 <= s < NumOfSuits
        ensures Card(w, s, Deck) in cs
      {
        if w == v {
          assert cs[s] == Card(w, s, Deck);
        } else {
          assert Card(w, s, Deck) in rest;
        }
      }
      cs
  }

  /** Durak's defence rule: a trump beats any non-trump, and a card beats a
      card of its own suit with a strictly lower value. */
  function Beats(card: Card, attackCard: Card, trumpSuit: int): (b: bool)
    ensures card.suit == trumpSuit && attackCard.suit != trumpSuit ==> b
    ensures b ==> card.suit == trumpSuit || card.suit == attackCard.suit
    ensures card.suit == attackCard.suit ==> (b <==> card.value > attackCard.value)
    ensures attackCard.suit == trumpSuit ==> (b <==> card.suit == trumpSuit && card.value > attackCard.value)
  {
    || (card.suit == trumpSuit && attackCard.suit != trumpSuit)
    || (card.suit == attackCard.suit && card.value > attackCard.value)
  }

  /** All listed card ids index the card table. */
  ghost predicate IdsInRange(cards: seq<Card>, ids: seq<CardId>) {
    forall i | 0 <= i < |ids| :: ids[i] < |cards|
  }

  /** `Math.floor(Math.random() * ci)` for every step of the shuffle loop:
      step `k` runs with `ci == |deck| - k`. */
  ghost predicate ValidDraws(draws: seq<nat>, n: nat) {
    |draws| == n && forall k | 0 <= k < n :: draws[k] < n - k
  }

  /** `shuffleDeck`: Fisher-Yates from the back, the random index of each step
      supplied by `draws`. The result is a permutation of the deck. */
  function Shuffle(deck: seq<CardId>, draws: seq<nat>): (r: seq<CardId>)
    requires ValidDraws(draws, |deck|)
    ensures |r| == |deck|
    ensures multiset(r) == multiset(deck)
  {
    ShuffleFrom(deck, draws, |deck|)
  }

  function ShuffleFrom(deck: seq<CardId>, draws: seq<nat>, ci: nat): (r: seq<CardId>)
    requires ci <= |deck|
    requires ValidDraws(draws, |deck|)
    ensures |r| == |deck|
    ensures multiset(r) == multiset(deck)
    decreases ci
  {
    if ci == 0 then deck
    else
      var randomIndex := draws[|deck| - ci];
      ShuffleFrom(Swap(deck, ci - 1, randomIndex), draws, ci - 1)
  }

  /** The first deck index holding a card that is not an ace. */
  function FirstNonAce(cards: seq<Card>, deck: seq<CardId>): (r: Option<nat>)
    requires forall i | 0 <= i < |deck| :: deck[i] < |cards|
    ensures r.Some? ==> r.value < |deck| && cards[deck[r.value]].value != MaxCardValue
    ensures r.Some? ==> forall i | 0 <= i < r.value :: cards[deck[i]].value == MaxCardValue
    ensures r.None? <==> forall i | 0 <= i < |deck| :: cards[deck[i]].value == MaxCardValue
  {
    if |deck| == 0 then None
    else if cards[deck[0]].value != MaxCardValue then Some(0)
    else
      match FirstNonAce(cards, deck[1..])
      case None => None
      case Some(k) => Some(k + 1)
  }

  /** The trump swap of `make`: the first non-ace changes places with the card
      at the bottom of the deck; a deck of aces only is left as it is. */
  function SwapTrumpToBottom(cards: seq<Card>, deck: seq<CardId>): (r: seq<CardId>)
    requires forall i | 0 <= i < |deck| :: deck[i] < |cards|
    ensures multiset(r) == multiset(deck)
    ensures |r| == |deck|
    ensures forall i | 0 <= i < |r| :: r[i] < |cards|
    ensures (exists i | 0 <= i < |deck| :: cards[deck[i]].value != MaxCardValue) ==>
      cards[r[|r| - 1]].value != MaxCardValue
    ensures (forall i | 0 <= i < |deck| :: cards[deck[i]].value == MaxCardValue) ==> r == deck
  {
    match FirstNonAce(cards, deck)
    case None => deck
    case Some(ci) => Swap(deck, |deck| - 1, ci)
  }
}

=== FILE: dealing.dfy ===
/** Dealing (serverjs/gamelogic.js `deal`, `dealTillFullHand` and the opening
    deal of `continueTurn`): a list of requests "n cards to player p" is
    served from the front of the deck, request by request, until the deck
    runs out. */
module Dealing {
  import opened Util
  import opened Cards
  import opened Field
  import opened GameState
  import opened Moves

  /** `dealInfo`: `numOfCards` cards requested for player `pid`. */
  datatype DealRequest = DealRequest(pid: PlayerId, numOfCards: nat)

  /** `dealFullInfo`: card `cid` went to player `pid`. */
  datatype Dealt = Dealt(pid: PlayerId, cid: CardId)

  /** The deck, the hands and `dealsOut` once the requests are served. */
  datatype Served = Served(deck: seq<CardId>, hands: map<PlayerId, seq<CardId>>, outs: seq<Dealt>)

  function Min(a: nat, b: nat): nat {
    if a <= b then a else b
  }

  /** The two loops of `deal` on the deck and the hands: for each request in
      turn, up to `numOfCards` cards leave the front of the deck for the end
      of the player's hand; once the deck is empty the rest get nothing. */
  function Serve(deck: seq<CardId>, hands: map<PlayerId, seq<CardId>>, requests: seq<DealRequest>): (r: Served)
    requires forall i | 0 <= i < |requests| :: requests[i].pid in hands
    ensures r.hands.Keys == hands.Keys
    ensures |r.outs| <= |deck| && r.deck == deck[|r.outs|..]
    ensures forall i | 0 <= i < |r.outs| :: r.outs[i].cid == deck[i] && r.outs[i].pid in hands
    decreases |requests|
  {
    if requests == [] then Served(deck, hands, [])
    else
      var rq := requests[0];
      var k := Min(rq.numOfCards, |deck|);
      var hands' := hands[rq.pid := hands[rq.pid] + deck[..k]];
      assert hands'.Keys == hands.Keys;
      var rest := Serve(deck[k..], hands', requests[1..]);
      var outs := Tag(rq.pid, deck[..k]) + rest.outs;
      assert deck[k..][|rest.outs|..] == deck[k + |rest.outs|..];
      TagPrefix(deck, k, rq.pid, rest.outs, hands);
      Served(rest.deck, rest.hands, outs)
  }

  /** The cards dealt for one request, then those dealt after it, are read
      off the deck in order. */
  lemma TagPrefix(deck: seq<CardId>, k: nat, pid: PlayerId, later: seq<Dealt>, hands: map<PlayerId, seq<CardId>>)
    requires k <= |deck| && pid in hands && |later| <= |deck| - k
    requires forall i | 0 <= i < |later| :: later[i].cid == deck[k..][i] && later[i].pid in hands
    ensures
      var outs := Tag(pid, deck[..k]) + later;
      forall i | 0 <= i < |outs| :: outs[i].cid == deck[i] && outs[i].pid in hands
  {
    var outs := Tag(pid, deck[..k]) + later;
    forall i | 0 <= i < |outs| ensures outs[i].cid == deck[i] && outs[i].pid in hands {
      if i < k {
        assert outs[i] == Dealt(pid, deck[..k][i]);
      } else {
        assert outs[i] == later[i - k] && deck[k..][i - k] == deck[i];
      }
    }
  }

  function Tag(pid: PlayerId, cids: seq<CardId>): (r: seq<Dealt>)
    ensures |r| == |cids|
    ensures forall i | 0 <= i < |cids| :: r[i] == Dealt(pid, cids[i])
  {
    seq(|cids|, i requires 0 <= i < |cids| => Dealt(pid, cids[i]))
  }

  /** `card.position = dealInfo.pid` for every card dealt. */
  function Assign(cards: seq<Card>, outs: seq<Dealt>): (r: seq<Card>)
    requires forall i | 0 <= i < |outs| :: outs[i].cid < |cards|
    ensures |r| == |cards|
    ensures forall c | 0 <= c < |cards| && c !in Cids(outs) :: r[c] == cards[c]
    decreases |outs|
  {
    if outs == [] then cards
    else
      var d := outs[0];
      assert forall c | c !in Cids(outs) :: c != d.cid && c !in Cids(outs[1..]) by {
        assert Cids(outs) == [d.cid] + Cids(outs[1..]);
      }
      Assign(cards[d.cid := cards[d.cid].(position := Held(d.pid))], outs[1..])
  }

  /** With no card dealt twice, every dealt card records its new holder. */
  lemma {:induction false} AssignDealt(cards: seq<Card>, outs: seq<Dealt>, i: nat)
    requires forall j | 0 <= j < |outs| :: outs[j].cid < |cards|
    requires NoDup(Cids(outs)) && i < |outs|
    ensures Assign(cards, outs)[outs[i].cid] == cards[outs[i].cid].(position := Held(outs[i].pid))
    decreases |outs|
  {
    var d := outs[0];
    var cards' := cards[d.cid := cards[d.cid].(position := Held(d.pid))];
    assert Cids(outs) == [d.cid] + Cids(outs[1..]);
    NoDupConcat([d.cid], Cids(outs[1..]));
    if i == 0 {
      assert d.cid !in Cids(outs[1..]);
    } else {
      AssignDealt(cards', outs[1..], i - 1);
      assert outs[i].cid != d.cid by {
        assert Cids(outs)[0] == d.cid && Cids(outs)[i] == outs[i].cid;
      }
    }
  }

  /** The deck holds card ids only. */
  ghost predicate DeckInRange(g: Game) {
    forall i | 0 <= i < |g.deck| :: g.deck[i] < |g.cards|
  }

  /** `deal(dealsIn)`, the card moves: every request in turn, stopping
      silently once the deck is empty, each dealt card recording its holder.
      Returns the `dealsOut` list. */
  function Deal(g: Game, requests: seq<DealRequest>): (res: (Game, seq<Dealt>))
    requires DeckInRange(g) && forall i | 0 <= i < |requests| :: requests[i].pid in g.hands
    ensures res.0 == g.(deck := res.0.deck, hands := res.0.hands, cards := res.0.cards)
    ensures |res.0.cards| == |g.cards| && res.0.hands.Keys == g.hands.Keys
    ensures |res.1| <= |g.deck| && res.0.deck == g.deck[|res.1|..]
  {
    var s := Serve(g.deck, g.hands, requests);
    (g.(deck := s.deck, hands := s.hands, cards := Assign(g.cards, s.outs)), s.outs)
  }

  // ---- The reference: one unit per requested card ----

  /** The players the requested cards are for, one entry per card, in order. */
  function Units(requests: seq<DealRequest>): seq<PlayerId> {
    if requests == [] then []
    else seq(requests[0].numOfCards, _ => requests[0].pid) + Units(requests[1..])
  }

  function Pids(outs: seq<Dealt>): (r: seq<PlayerId>)
    ensures |r| == |outs| && forall i | 0 <= i < |outs| :: r[i] == outs[i].pid
  {
    seq(|outs|, i requires 0 <= i < |outs| => outs[i].pid)
  }

  function Cids(outs: seq<Dealt>): (r: seq<CardId>)
    ensures |r| == |outs| && forall i | 0 <= i < |outs| :: r[i] == outs[i].cid
  {
    seq(|outs|, i requires 0 <= i < |outs| => outs[i].cid)
  }

  /** The cards of `outs` dealt to `q`, in order. */
  function DealtTo(outs: seq<Dealt>, q: PlayerId): seq<CardId> {
    if outs == [] then []
    else (if outs[0].pid == q then [outs[0].cid] else []) + DealtTo(outs[1..], q)
  }

  lemma {:induction false} DealtToAppend(a: seq<Dealt>, b: seq<Dealt>, q: PlayerId)
    ensures DealtTo(a + b, q) == DealtTo(a, q) + DealtTo(b, q)
  {
    if a == [] {
      assert a + b == b;
    } else {
      var head := if a[0].pid == q then [a[0].cid] else [];
      assert (a + b)[0] == a[0] && (a + b)[1..] == a[1..] + b;
      assert DealtTo(a + b, q) == head + DealtTo(a[1..] + b, q);
      DealtToAppend(a[1..], b, q);
      AppendAssoc(head, DealtTo(a[1..], q), DealtTo(b, q));
    }
  }

  lemma {:induction false} DealtToTag(pid: PlayerId, cids: seq<CardId>, q: PlayerId)
    ensures DealtTo(Tag(pid, cids), q) == if pid == q then cids else []
  {
    if cids != [] {
      assert Tag(pid, cids)[1..] == Tag(pid, cids[1..]);
      DealtToTag(pid, cids[1..], q);
    }
  }

  /** A card dealt to `q` is one of the entries of `outs` for `q`. */
  lemma {:induction false} DealtToSource(outs: seq<Dealt>, q: PlayerId, c: CardId) returns (i: nat)
    requires c in DealtTo(outs, q)
    ensures i < |outs| && outs[i] == Dealt(q, c)
  {
    if outs[0].pid == q && outs[0].cid == c {
      i := 0;
    } else {
      var j := DealtToSource(outs[1..], q, c);
      i := j + 1;
    }
  }

  /** Every entry of `outs` shows up among the cards of its player. */
  lemma {:induction false} DealtToHas(outs: seq<Dealt>, i: nat)
    requires i < |outs|
    ensures outs[i].cid in DealtTo(outs, outs[i].pid)
  {
    if i > 0 {
      DealtToHas(outs[1..], i - 1);
    }
  }

  /** A player gets as many cards as there are entries for it. */
  lemma {:induction false} DealtToCount(outs: seq<Dealt>, q: PlayerId)
    ensures |DealtTo(outs, q)| == multiset(Pids(outs))[q]
  {
    if outs != [] {
      DealtToCount(outs[1..], q);
      assert Pids(outs) == [outs[0].pid] + Pids(outs[1..]);
    }
  }

  /** What the loops of `deal` do, against the reference: the k-th card
      dealt is the k-th card of the deck and goes to the player of the k-th
      requested unit; as many cards are dealt as were requested or as the
      deck holds, whichever is fewer; each hand grows by exactly the cards
      dealt to it, in order. */
  lemma ServeSpec(deck: seq<CardId>, hands: map<PlayerId, seq<CardId>>, requests: seq<DealRequest>)
    requires forall i | 0 <= i < |requests| :: requests[i].pid in hands
    ensures
      var r := Serve(deck, hands, requests);
      && |r.outs| == Min(|Units(requests)|, |deck|)
      && Cids(r.outs) == deck[..|r.outs|]
      && Pids(r.outs) == Units(requests)[..|r.outs|]
      && forall q | q in hands :: r.hands[q] == hands[q] + DealtTo(r.outs, q)
  {
    ServeOrder(deck, hands, requests);
    ServeHands(deck, hands, requests);
    ServeCids(deck, hands, requests);
    ServePids(deck, hands, requests);
  }

  lemma ServeCids(deck: seq<CardId>, hands: map<PlayerId, seq<CardId>>, requests: seq<DealRequest>)
    requires forall i | 0 <= i < |requests| :: requests[i].pid in hands
    ensures
      var outs := Serve(deck, hands, requests).outs;
      Cids(outs) == deck[..|outs|]
  {
    var outs := Serve(deck, hands, requests).outs;
    CidsPrefix(outs, deck);
  }

  lemma CidsPrefix(outs: seq<Dealt>, deck: seq<CardId>)
    requires |outs| <= |deck| && forall i | 0 <= i < |outs| :: outs[i].cid == deck[i]
    ensures Cids(outs) == deck[..|outs|]
  {
    assert forall i | 0 <= i < |outs| :: Cids(outs)[i] == deck[..|outs|][i];
  }

  lemma PidsPrefix(outs: seq<Dealt>, units: seq<PlayerId>)
    requires |outs| <= |units| && forall i | 0 <= i < |outs| :: outs[i].pid == units[i]
    ensures Pids(outs) == units[..|outs|]
  {
    assert forall i | 0 <= i < |outs| :: Pids(outs)[i] == units[..|outs|][i];
  }

  lemma ServePids(deck: seq<CardId>, hands: map<PlayerId, seq<CardId>>, requests: seq<DealRequest>)
    requires forall i | 0 <= i < |requests| :: requests[i].pid in hands
    ensures
      var outs := Serve(deck, hands, requests).outs;
      |outs| <= |Units(requests)| && Pids(outs) == Units(requests)[..|outs|]
  {
    ServeOrder(deck, hands, requests);
    PidsPrefix(Serve(deck, hands, requests).outs, Units(requests));
  }

  lemma {:induction false} ServeOrder(deck: seq<CardId>, hands: map<PlayerId, seq<CardId>>, requests: seq<DealRequest>)
    requires forall i | 0 <= i < |requests| :: requests[i].pid in hands
    ensures
      var outs := Serve(deck, hands, requests).outs;
      && |outs| == Min(|Units(requests)|, |deck|)
      && (forall i | 0 <= i < |outs| :: outs[i].pid == Units(requests)[i])
    decreases |requests|
  {
    if requests != [] {
      var rq := requests[0];
      var k := Min(rq.numOfCards, |deck|);
      var hands' := hands[rq.pid := hands[rq.pid] + deck[..k]];
      var rest := Serve(deck[k..], hands', requests[1..]);
      var outs := Tag(rq.pid, deck[..k]) + rest.outs;
      assert Serve(deck, hands, requests).outs == outs;
      ServeOrder(deck[k..], hands', requests[1..]);
      var units := Units(requests);
      assert units == seq(rq.numOfCards, _ => rq.pid) + Units(requests[1..]);
      if k < rq.numOfCards {
        assert rest.outs == [];
      }
      forall i | 0 <= i < |outs| ensures outs[i].pid == units[i] {
        if i >= k {
          assert outs[i] == rest.outs[i - k];
        }
      }
    }
  }

  lemma {:induction false} ServeHands(deck: seq<CardId>, hands: map<PlayerId, seq<CardId>>, requests: seq<DealRequest>)
    requires forall i | 0 <= i < |requests| :: requests[i].pid in hands
    ensures
      var r := Serve(deck, hands, requests);
      forall q | q in hands :: r.hands[q] == hands[q] + DealtTo(r.outs, q)
    decreases |requests|
  {
    if requests != [] {
      var rq := requests[0];
      var k := Min(rq.numOfCards, |deck|);
      var hands' := hands[rq.pid := hands[rq.pid] + deck[..k]];
      var rest := Serve(deck[k..], hands', requests[1..]);
      var outs := Tag(rq.pid, deck[..k]) + rest.outs;
      assert Serve(deck, hands, requests) == Served(rest.deck, rest.hands, outs);
      ServeHands(deck[k..], hands', requests[1..]);
      forall q | q in hands ensures rest.hands[q] == hands[q] + DealtTo(outs, q) {
        DealtToAppend(Tag(rq.pid, deck[..k]), rest.outs, q);
        DealtToTag(rq.pid, deck[..k], q);
        var mine := if rq.pid == q then deck[..k] else [];
        assert hands'[q] == hands[q] + mine;
        AppendAssoc(hands[q], mine, DealtTo(rest.outs, q));
      }
    }
  }

  lemma AppendAssoc<T>(a: seq<T>, b: seq<T>, c: seq<T>)
    ensures (a + b) + c == a + (b + c)
  {
  }

  /** The cards leave the deck and enter the hands, none lost or doubled. */
  lemma {:induction false} ServeMultiset(deck: seq<CardId>, hands: map<PlayerId, seq<CardId>>,
                                         requests: seq<DealRequest>, ps: seq<PlayerId>)
    requires NoDup(ps)
    requires forall i | 0 <= i < |requests| :: requests[i].pid in hands && requests[i].pid in ps
    ensures
      var r := Serve(deck, hands, requests);
      multiset(r.deck) + multiset(HandCards(ps, r.hands)) == multiset(deck) + multiset(HandCards(ps, hands))
    decreases |requests|
  {
    if requests != [] {
      var rq := requests[0];
      var k := Min(rq.numOfCards, |deck|);
      var hands' := hands[rq.pid := hands[rq.pid] + deck[..k]];
      var rest := Serve(deck[k..], hands', requests[1..]);
      assert Serve(deck, hands, requests).deck == rest.deck;
      assert Serve(deck, hands, requests).hands == rest.hands;
      ServeMultiset(deck[k..], hands', requests[1..], ps);
      ServeStepMultiset(deck, hands, ps, rq.pid, k);
    }
  }

  /** One request served: the `k` cards leaving the deck are the ones the
      hands gain. */
  lemma ServeStepMultiset(deck: seq<CardId>, hands: map<PlayerId, seq<CardId>>, ps: seq<PlayerId>, pid: PlayerId, k: nat)
    requires NoDup(ps) && pid in ps && pid in hands && k <= |deck|
    ensures multiset(deck[k..]) + multiset(HandCards(ps, hands[pid := hands[pid] + deck[..k]]))
         == multiset(deck) + multiset(HandCards(ps, hands))
  {
    var h := hands[pid] + deck[..k];
    HandCardsUpdate(ps, hands, pid, h);
    assert HandOf(hands, pid) == hands[pid];
    assert multiset(h) == multiset(hands[pid]) + multiset(deck[..k]);
    assert deck == deck[..k] + deck[k..];
    assert multiset(deck) == multiset(deck[..k]) + multiset(deck[k..]);
    Rebalance(multiset(deck[..k]), multiset(deck[k..]), multiset(HandCards(ps, hands)),
              multiset(HandCards(ps, hands[pid := h])), multiset(hands[pid]));
  }

  /** `deal` on the game: the record, the `dealsOut` list and the hands, as
      `Serve` describes them. */
  lemma DealSpec(g: Game, requests: seq<DealRequest>)
    requires DeckInRange(g) && forall i | 0 <= i < |requests| :: requests[i].pid in g.hands
    ensures
      var (r, outs) := Deal(g, requests);
      && |outs| == Min(|Units(requests)|, |g.deck|)
      && Cids(outs) == g.deck[..|outs|]
      && Pids(outs) == Units(requests)[..|outs|]
      && forall q | q in g.hands :: r.hands[q] == g.hands[q] + DealtTo(outs, q)
  {
    ServeSpec(g.deck, g.hands, requests);
  }

  // ---- Conservation ----

  /** `deal` moves cards without losing or duplicating any, and every dealt
      card records the player it went to. */
  lemma DealConserves(g: Game, requests: seq<DealRequest>)
    requires Shaped(g) && Conserved(g)
    requires forall i | 0 <= i < |requests| :: requests[i].pid in g.hands
    ensures DeckInRange(g)
    ensures Shaped(Deal(g, requests).0) && Conserved(Deal(g, requests).0)
  {
    DealShaped(g, requests);
    DealMultiset(g, requests);
    ContainersSeparate(g);
    DealPositions(g, requests);
  }

  lemma DealShaped(g: Game, requests: seq<DealRequest>)
    requires Shaped(g)
    requires forall i | 0 <= i < |requests| :: requests[i].pid in g.hands
    ensures DeckInRange(g)
    ensures Shaped(Deal(g, requests).0)
  {
    var r := Deal(g, requests).0;
    DealtHandsInRange(g, requests);
    RefillInRange(g, r);
    ShapedRefill(g, r);
  }

  /** Every card a hand holds after dealing indexes the card table. */
  lemma DealtHandsInRange(g: Game, requests: seq<DealRequest>)
    requires DeckInRange(g)
    requires forall p, i | p in g.hands && 0 <= i < |g.hands[p]| :: g.hands[p][i] < |g.cards|
    requires forall i | 0 <= i < |requests| :: requests[i].pid in g.hands
    ensures var r := Deal(g, requests).0;
      forall q, i | q in r.hands && 0 <= i < |r.hands[q]| :: r.hands[q][i] < |r.cards|
  {
    var (r, outs) := Deal(g, requests);
    ServeHands(g.deck, g.hands, requests);
    forall q, i | q in r.hands && 0 <= i < |r.hands[q]| ensures r.hands[q][i] < |r.cards| {
      var h := g.hands[q];
      if i >= |h| {
        assert r.hands[q][i] in DealtTo(outs, q);
        var j := DealtToSource(outs, q, r.hands[q][i]);
      }
    }
  }

  /** Moving cards between the deck and the hands keeps every id in range
      when the new deck and hands are. */
  lemma RefillInRange(g: Game, r: Game)
    requires CardsInRange(g)
    requires r == g.(deck := r.deck, hands := r.hands, cards := r.cards) && |r.cards| == |g.cards|
    requires forall i | 0 <= i < |r.deck| :: r.deck[i] < |r.cards|
    requires forall q, i | q in r.hands && 0 <= i < |r.hands[q]| :: r.hands[q][i] < |r.cards|
    ensures CardsInRange(r)
  {
    forall i | 0 <= i < |r.validActions| ensures ActionInRange(r, r.validActions[i]) {
      assert ActionInRange(g, g.validActions[i]);
    }
  }

  lemma DealMultiset(g: Game, requests: seq<DealRequest>)
    requires DeckInRange(g) && NoDup(g.players)
    requires forall i | 0 <= i < |requests| :: requests[i].pid in g.hands && requests[i].pid in g.players
    ensures multiset(AllCards(Deal(g, requests).0)) == multiset(AllCards(g))
  {
    var r := Deal(g, requests).0;
    ServeMultiset(g.deck, g.hands, requests, g.players);
    assert r.players == g.players && r.field == g.field && r.discardPile == g.discardPile;
  }

  lemma DealPositions(g: Game, requests: seq<DealRequest>)
    requires DeckInRange(g) && PositionsAgree(g) && NoDup(g.deck)
    requires forall i | 0 <= i < |requests| :: requests[i].pid in g.hands
    ensures PositionsAgree(Deal(g, requests).0)
  {
    var r := Deal(g, requests).0;
    forall d | 0 <= d < |r.cards| ensures LocatedAt(r, d) {
      assert LocatedAt(g, d);
      var outs := Deal(g, requests).1;
      if d in Cids(outs) {
        var i :| 0 <= i < |outs| && Cids(outs)[i] == d;
        DealtCardHeld(g, requests, i);
      } else {
        UndealtCardStays(g, requests, d);
      }
    }
  }

  /** A dealt card is in its new holder's hand and records that holder. */
  lemma DealtCardHeld(g: Game, requests: seq<DealRequest>, i: nat)
    requires DeckInRange(g) && NoDup(g.deck)
    requires forall j | 0 <= j < |requests| :: requests[j].pid in g.hands
    requires i < |Deal(g, requests).1|
    ensures
      var (r, outs) := Deal(g, requests);
      && outs[i].pid in r.hands && outs[i].cid in r.hands[outs[i].pid]
      && outs[i].cid < |r.cards| && r.cards[outs[i].cid].position == Held(outs[i].pid)
  {
    var s := Serve(g.deck, g.hands, requests);
    var outs := s.outs;
    ServeSpec(g.deck, g.hands, requests);
    assert NoDup(Cids(outs)) by {
      assert Cids(outs) == g.deck[..|outs|];
    }
    AssignDealt(g.cards, outs, i);
    DealtToHas(outs, i);
  }

  /** A card not dealt keeps its record and stays where it was. */
  lemma UndealtCardStays(g: Game, requests: seq<DealRequest>, d: CardId)
    requires DeckInRange(g)
    requires forall j | 0 <= j < |requests| :: requests[j].pid in g.hands
    requires d < |g.cards| && d !in Cids(Deal(g, requests).1)
    ensures
      var r := Deal(g, requests).0;
      && r.cards[d] == g.cards[d]
      && (d in g.deck ==> d in r.deck)
      && forall q | q in g.hands && d in g.hands[q] :: d in r.hands[q]
  {
    var s := Serve(g.deck, g.hands, requests);
    ServeSpec(g.deck, g.hands, requests);
    assert g.deck == g.deck[..|s.outs|] + s.deck;
  }

  // ---- The requests continueTurn and dealTillFullHand build ----

  /** One round of the opening deal: one card per player, in seat order. */
  function OneRound(players: seq<PlayerId>): (r: seq<DealRequest>)
    ensures |r| == |players|
    ensures forall i | 0 <= i < |players| :: r[i] == DealRequest(players[i], 1)
  {
    seq(|players|, i requires 0 <= i < |players| => DealRequest(players[i], 1))
  }

  /** `k` rounds of the opening deal. */
  function Rounds(players: seq<PlayerId>, k: nat): seq<DealRequest> {
    if k == 0 then [] else Rounds(players, k - 1) + OneRound(players)
  }

  /** The opening deal of `continueTurn`: `normalHandSize` rounds. */
  function OpeningRequests(players: seq<PlayerId>): seq<DealRequest> {
    Rounds(players, NormalHandSize)
  }

  /** The seating written out `k` times. */
  function Repeat(ps: seq<PlayerId>, k: nat): (r: seq<PlayerId>)
    ensures |r| == k * |ps|
    ensures forall q :: multiset(r)[q] == k * multiset(ps)[q]
  {
    if k == 0 then [] else Repeat(ps, k - 1) + ps
  }

  lemma {:induction false} UnitsAppend(a: seq<DealRequest>, b: seq<DealRequest>)
    ensures Units(a + b) == Units(a) + Units(b)
  {
    if a == [] {
      assert a + b == b;
    } else {
      assert (a + b)[1..] == a[1..] + b;
      UnitsAppend(a[1..], b);
    }
  }

  lemma {:induction false} UnitsOneRound(players: seq<PlayerId>)
    ensures Units(OneRound(players)) == players
  {
    if players != [] {
      assert OneRound(players)[1..] == OneRound(players[1..]);
      UnitsOneRound(players[1..]);
    }
  }

  /** The opening deal asks for the seating, `k` times over. */
  lemma {:induction false} UnitsRounds(players: seq<PlayerId>, k: nat)
    ensures Units(Rounds(players, k)) == Repeat(players, k)
  {
    if k > 0 {
      UnitsRounds(players, k - 1);
      UnitsAppend(Rounds(players, k - 1), OneRound(players));
      UnitsOneRound(players);
    }
  }

  lemma {:induction false} RoundsPids(players: seq<PlayerId>, k: nat, i: nat)
    requires i < |Rounds(players, k)|
    ensures Rounds(players, k)[i].pid in players
  {
    var prev := Rounds(players, k - 1);
    if i < |prev| {
      RoundsPids(players, k - 1, i);
    } else {
      assert Rounds(players, k)[i] == OneRound(players)[i - |prev|];
    }
  }

  /** The opening deal with enough cards in the deck: six cards to every
      player and the deck shorter by six cards per player; with two players
      and 36 cards, 24 stay in the deck. */
  lemma OpeningDeal(g: Game)
    requires DeckInRange(g) && NoDup(g.players)
    requires forall p | p in g.players :: p in g.hands && g.hands[p] == []
    requires |g.deck| >= NormalHandSize * |g.players|
    ensures forall i | 0 <= i < |OpeningRequests(g.players)| :: OpeningRequests(g.players)[i].pid in g.hands
    ensures
      var (r, outs) := Deal(g, OpeningRequests(g.players));
      && |r.deck| == |g.deck| - NormalHandSize * |g.players|
      && forall p | p in g.players :: |r.hands[p]| == NormalHandSize
  {
    var players := g.players;
    var requests := OpeningRequests(players);
    UnitsRounds(players, NormalHandSize);
    forall i | 0 <= i < |requests| ensures requests[i].pid in g.hands {
      RoundsPids(players, NormalHandSize, i);
    }
    DealSpec(g, requests);
    var (r, outs) := Deal(g, requests);
    assert Pids(outs) == Repeat(players, NormalHandSize);
    forall p | p in players ensures |r.hands[p]| == NormalHandSize {
      DealtToCount(outs, p);
      NoDupMultiplicity(players, p);
      assert r.hands[p] == [] + DealtTo(outs, p);
    }
  }

  /** The requests of `dealTillFullHand`: seat by seat starting at the
      attacker (at seat 0 when there is none), every hand below
      `normalHandSize` asks for the missing cards. */
  function FullHandRequests(players: seq<PlayerId>, hands: map<PlayerId, seq<CardId>>, start: nat): (r: seq<DealRequest>)
    requires forall p | p in players :: p in hands
    ensures forall i | 0 <= i < |r| ::
      && r[i].pid in players
      && r[i].numOfCards == NormalHandSize - |hands[r[i].pid]| > 0
    ensures forall p | p in players && |hands[p]| < NormalHandSize :: exists i | 0 <= i < |r| :: r[i].pid == p
  {
    Requests(Rotation(players, start), hands)
  }

  /** The seats visited from `start`, wrapping round to seat 0. */
  function Rotation(players: seq<PlayerId>, start: nat): (order: seq<PlayerId>)
    ensures multiset(order) == multiset(players)
    ensures forall p :: p in order <==> p in players
  {
    if start < |players| then
      assert players == players[..start] + players[start..];
      players[start..] + players[..start]
    else players
  }

  function Requests(order: seq<PlayerId>, hands: map<PlayerId, seq<CardId>>): (r: seq<DealRequest>)
    requires forall p | p in order :: p in hands
    ensures forall i | 0 <= i < |r| ::
      && r[i].pid in order
      && r[i].numOfCards == NormalHandSize - |hands[r[i].pid]| > 0
    ensures forall p | p in order && |hands[p]| < NormalHandSize :: exists i | 0 <= i < |r| :: r[i].pid == p
  {
    if order == [] then []
    else
      var rest := Requests(order[1..], hands);
      var p := order[0];
      if |hands[p]| < NormalHandSize then
        var r := [DealRequest(p, NormalHandSize - |hands[p]|)] + rest;
        assert forall i | 0 <= i < |rest| :: r[i + 1] == rest[i];
        assert forall q | q in order && |hands[q]| < NormalHandSize :: exists i | 0 <= i < |r| :: r[i].pid == q by {
          forall q | q in order && |hands[q]| < NormalHandSize ensures exists i | 0 <= i < |r| :: r[i].pid == q {
            if q == p {
              assert r[0].pid == q;
            } else {
              assert q in order[1..];
              var i :| 0 <= i < |rest| && rest[i].pid == q;
              assert r[i + 1].pid == q;
            }
          }
        }
        r
      else rest
  }

  /** Each short hand asks for exactly the cards it is missing, once. */
  lemma {:induction false} RequestsUnits(order: seq<PlayerId>, hands: map<PlayerId, seq<CardId>>, q: PlayerId)
    requires forall p | p in order :: p in hands
    requires NoDup(order)
    ensures multiset(Units(Requests(order, hands)))[q] ==
      if q in order && |hands[q]| < NormalHandSize then NormalHandSize - |hands[q]| else 0
  {
    if order != [] {
      var p := order[0];
      assert NoDup(order[1..]);
      assert p !in order[1..];
      assert q in order <==> q == p || q in order[1..];
      RequestsUnits(order[1..], hands, q);
      if |hands[p]| < NormalHandSize {
        var rq := DealRequest(p, NormalHandSize - |hands[p]|);
        var rest := Requests(order[1..], hands);
        assert Requests(order, hands) == [rq] + rest;
        assert ([rq] + rest)[1..] == rest;
        assert Units([rq] + rest) == seq(rq.numOfCards, _ => p) + Units(rest);
        ConstantMultiset(p, rq.numOfCards, q);
      } else {
        assert Requests(order, hands) == Requests(order[1..], hands);
      }
    }
  }

  lemma {:induction false} ConstantMultiset(p: PlayerId, n: nat, q: PlayerId)
    ensures multiset(seq(n, _ => p))[q] == if p == q then n else 0
  {
    if n > 0 {
      assert seq(n, _ => p) == seq(n - 1, _ => p) + [p];
      ConstantMultiset(p, n - 1, q);
    }
  }

  /** `dealTillFullHand` with enough cards in the deck: every hand below
      six is filled up to exactly six, and every other hand is left alone. */
  lemma FullHandDeal(g: Game, start: nat)
    requires DeckInRange(g) && NoDup(g.players)
    requires forall p | p in g.players :: p in g.hands
    requires |g.deck| >= |Units(FullHandRequests(g.players, g.hands, start))|
    ensures
      var (r, outs) := Deal(g, FullHandRequests(g.players, g.hands, start));
      forall p | p in g.players ::
        |r.hands[p]| == if |g.hands[p]| < NormalHandSize then NormalHandSize else |g.hands[p]|
  {
    var requests := FullHandRequests(g.players, g.hands, start);
    var order := Rotation(g.players, start);
    PermutationKeepsNoDup(order, g.players);
    DealSpec(g, requests);
    var (r, outs) := Deal(g, requests);
    assert Pids(outs) == Units(requests);
    forall p | p in g.players
      ensures |r.hands[p]| == if |g.hands[p]| < NormalHandSize then NormalHandSize else |g.hands[p]|
    {
      DealtToCount(outs, p);
      RequestsUnits(order, g.hands, p);
    }
  }
}

=== FILE: field.dfy ===
/** The field: `fieldSize` slots `'FIELD0'` .. `'FIELD5'`, each holding an
    attack card and the card that answered it (serverjs/gamelogic.js, `reset`,
    `letAttack`, `letDefend`, `discardAndNotify`). Slot ids are indices. */
module Field {
  import opened Util
  import opened Cards

  const FieldSize: nat := 6

  datatype FieldSpot = FieldSpot(attack: Option<CardId>, defense: Option<CardId>)

  const EmptySpot: FieldSpot := FieldSpot(None, None)

  /** The field `reset` builds and `discardAndNotify` leaves behind. */
  function EmptyField(): (f: seq<FieldSpot>)
    ensures |f| == FieldSize
    ensures forall s | 0 <= s < |f| :: f[s] == EmptySpot
  {
    seq(FieldSize, _ => EmptySpot)
  }

  /** The cards of one slot, attack first. */
  function SpotCards(spot: FieldSpot): seq<CardId> {
    (if spot.attack.Some? then [spot.attack.value] else [])
    + (if spot.defense.Some? then [spot.defense.value] else [])
  }

  /** Every card on the field, slot by slot, attack before defense: the order
      in which `letDefend` hands them over and `discardAndNotify` discards them. */
  function FieldCards(f: seq<FieldSpot>): seq<CardId> {
    if f == [] then [] else SpotCards(f[0]) + FieldCards(f[1..])
  }

  /** The first slot with an attack card and no defense card (`defenseSpot`). */
  function FirstUnanswered(f: seq<FieldSpot>): (r: Option<nat>)
    ensures r.Some? ==> r.value < |f| && f[r.value].attack.Some? && f[r.value].defense.None?
    ensures r.Some? ==> forall s | 0 <= s < r.value :: !(f[s].attack.Some? && f[s].defense.None?)
    ensures r.None? <==> forall s | 0 <= s < |f| :: !(f[s].attack.Some? && f[s].defense.None?)
  {
    if f == [] then None
    else if f[0].attack.Some? && f[0].defense.None? then Some(0)
    else
      match FirstUnanswered(f[1..])
      case None => None
      case Some(k) => Some(k + 1)
  }

  lemma {:induction false} FieldCardsMember(f: seq<FieldSpot>, s: nat, c: CardId)
    requires s < |f| && c in SpotCards(f[s])
    ensures c in FieldCards(f)
  {
    if s > 0 {
      FieldCardsMember(f[1..], s - 1, c);
    }
  }

  lemma {:induction false} FieldCardsSource(f: seq<FieldSpot>, c: CardId) returns (s: nat)
    requires c in FieldCards(f)
    ensures s < |f| && c in SpotCards(f[s])
  {
    if c in SpotCards(f[0]) {
      s := 0;
    } else {
      var k := FieldCardsSource(f[1..], c);
      s := k + 1;
    }
  }

  lemma {:induction false} FieldCardsAppend(a: seq<FieldSpot>, b: seq<FieldSpot>)
    ensures FieldCards(a + b) == FieldCards(a) + FieldCards(b)
  {
    if a != [] {
      assert (a + b)[1..] == a[1..] + b;
      FieldCardsAppend(a[1..], b);
    } else {
      assert a + b == b;
    }
  }

  /** The field's cards around one slot. */
  lemma FieldCardsSplit(f: seq<FieldSpot>, s: nat)
    requires s < |f|
    ensures FieldCards(f) == FieldCards(f[..s]) + SpotCards(f[s]) + FieldCards(f[s + 1..])
  {
    var rest := f[s..];
    assert f == f[..s] + rest;
    FieldCardsAppend(f[..s], rest);
    assert rest[0] == f[s] && rest[1..] == f[s + 1..];
    assert FieldCards(rest) == SpotCards(f[s]) + FieldCards(f[s + 1..]);
  }

  /** Replacing one slot swaps its cards in the field's multiset. */
  lemma FieldCardsUpdate(f: seq<FieldSpot>, s: nat, spot: FieldSpot)
    requires s < |f|
    ensures multiset(FieldCards(f[s := spot])) + multiset(SpotCards(f[s]))
         == multiset(FieldCards(f)) + multiset(SpotCards(spot))
  {
    var g := f[s := spot];
    FieldCardsSplit(f, s);
    FieldCardsSplit(g, s);
    assert g[..s] == f[..s] && g[s + 1..] == f[s + 1..];
  }

  lemma {:induction false} EmptyFieldCards(f: seq<FieldSpot>)
    requires forall s | 0 <= s < |f| :: f[s] == EmptySpot
    ensures FieldCards(f) == []
  {
    if f != [] {
      EmptyFieldCards(f[1..]);
    }
  }
}

=== FILE: game.dfy ===
/** The state of one `Game` of serverjs/gamelogic.js as an immutable record,
    the actions the engine publishes, and the invariants every reachable state
    keeps: its shape, card conservation, the field discipline and the
    response protocol. */
module GameState {
  import opened Util
  import opened Cards
  import opened Field
  import opened Stages

  const NormalHandSize: nat := 6
  /** `zeroDiscardFieldSize`: attack slots usable before the first discard. */
  const ZeroDiscardFieldSize: nat := FieldSize - 1
  /** The only response window `waitForResponse` is called with, in seconds. */
  const ResponseSeconds: nat := 1
  /** The window granted when a player has just been seen disconnected. */
  const ReconnectSeconds: nat := 30

  /** An entry of `validActions`: `{type: 'ATTACK', cid, position}`,
      `{type: 'DEFENSE', cid, position}`, `{type: 'SKIP'}`, `{type: 'TAKE'}`. */
  datatype Action =
    | AttackWith(cid: CardId, slot: nat)
    | DefendWith(cid: CardId, slot: nat)
    | Skip
    | Take

  datatype Game = Game(
    players: seq<PlayerId>,              // this.players, in seat order
    offline: set<PlayerId>,              // players whose `connected` is false (input)
    disconnectedPlayers: seq<PlayerId>,
    gameNumber: nat,
    gameStarted: bool,
    cards: seq<Card>,                    // this.cards, indexed by card id
    trumpSuit: int,
    deck: seq<CardId>,                   // front = next card dealt, last = BOTTOM
    discardPile: seq<CardId>,
    field: seq<FieldSpot>,
    fieldUsedSpots: nat,
    fullField: nat,
    skipCounter: nat,
    hands: map<PlayerId, seq<CardId>>,
    playersActing: seq<PlayerId>,        // players a response is awaited from
    validActions: seq<Action>,
    turnNumber: nat,
    stages: TurnStages,
    attacker: Option<PlayerId>,
    defender: Option<PlayerId>,
    ally: Option<PlayerId>,
    activePlayers: seq<PlayerId>,        // players still in the game
    timer: Option<nat>                   // the armed response timer, in seconds
  )

  /** `this.hands[p]`, empty when the player has none yet. */
  function HandOf(hands: map<PlayerId, seq<CardId>>, p: PlayerId): seq<CardId> {
    if p in hands then hands[p] else []
  }

  /** All hands, in seat order. */
  function HandCards(ps: seq<PlayerId>, hands: map<PlayerId, seq<CardId>>): seq<CardId> {
    if ps == [] then [] else HandOf(hands, ps[0]) + HandCards(ps[1..], hands)
  }

  /** deck ++ hands ++ field ++ discard pile. */
  function AllCards(g: Game): seq<CardId> {
    g.deck + HandCards(g.players, g.hands) + FieldCards(g.field) + g.discardPile
  }

  /** A card's recorded `position` names a container that holds it. */
  ghost predicate LocatedAt(g: Game, c: CardId)
    requires c < |g.cards|
  {
    match g.cards[c].position
    case Deck => c in g.deck
    case Bottom => c in g.deck
    case Held(p) => p in g.hands && c in g.hands[p]
    case Slot(i) => i < |g.field| && (g.field[i].attack == Some(c) || g.field[i].defense == Some(c))
    case DiscardPile => c in g.discardPile
  }

  ghost predicate PositionsAgree(g: Game) {
    forall c | 0 <= c < |g.cards| :: LocatedAt(g, c)
  }

  /** Card conservation: the containers together hold every card exactly once,
      and every card's `position` agrees with the container holding it. */
  ghost predicate Conserved(g: Game) {
    && multiset(AllCards(g)) == multiset(Range(|g.cards|))
    && PositionsAgree(g)
  }

  ghost predicate ActionInRange(g: Game, a: Action) {
    match a
    case AttackWith(cid, slot) => cid < |g.cards| && slot < |g.field|
    case DefendWith(cid, slot) => cid < |g.cards| && slot < |g.field|
    case _ => true
  }

  ghost predicate CardsInRange(g: Game) {
    && (forall i | 0 <= i < |g.deck| :: g.deck[i] < |g.cards|)
    && (forall p, i | p in g.hands && 0 <= i < |g.hands[p]| :: g.hands[p][i] < |g.cards|)
    && (forall s | 0 <= s < |g.field| :: forall c | c in SpotCards(g.field[s]) :: c < |g.cards|)
    && (forall i | 0 <= i < |g.discardPile| :: g.discardPile[i] < |g.cards|)
    && OffersInRange(g)
  }

  /** Every published action names an existing card and slot. */
  ghost predicate OffersInRange(g: Game) {
    forall i | 0 <= i < |g.validActions| :: ActionInRange(g, g.validActions[i])
  }

  ghost predicate RolesShaped(g: Game) {
    && (g.attacker.Some? ==>
          && g.gameStarted
          && g.attacker.value in g.players
          && g.defender.Some? && g.defender.value in g.players)
    && (g.ally.Some? ==> g.ally.value in g.players)
  }

  /** The structural facts every state of the engine has; the engine's code
      relies on them without checking (a missing hand or slot would throw). */
  ghost predicate Shaped(g: Game) {
    && |g.field| == FieldSize
    && g.fullField <= FieldSize
    && NoDup(g.players)
    && (forall p | p in g.hands :: p in g.players)
    && (g.gameStarted ==> forall p | p in g.players :: p in g.hands)
    && (!g.gameStarted ==> g.hands == map[])
    && (forall p | p in g.activePlayers :: p in g.players)
    && NoDup(g.activePlayers)
    && (forall p | p in g.playersActing :: p in g.players)
    && RolesShaped(g)
    && CardsInRange(g)
  }

  /** Attack cards sit in the slots below `fieldUsedSpots`, and a slot holds a
      defense card only above an attack card. */
  ghost predicate FieldOk(g: Game) {
    forall s | 0 <= s < |g.field| ::
      && (s >= g.fieldUsedSpots ==> g.field[s] == EmptySpot)
      && (g.field[s].defense.Some? ==> g.field[s].attack.Some?)
  }

  /** An action `processAction` can carry out for player `p` without losing
      or duplicating a card. */
  ghost predicate Applicable(g: Game, p: PlayerId, a: Action) {
    match a
    case AttackWith(cid, slot) =>
      && p in g.hands && cid in g.hands[p]
      && slot == g.fieldUsedSpots && slot < |g.field| && g.field[slot] == EmptySpot
    case DefendWith(cid, slot) =>
      && p in g.hands && cid in g.hands[p]
      && slot < |g.field| && g.field[slot].attack.Some? && g.field[slot].defense.None?
    case _ => true
  }

  /** Published actions are owed by exactly one player and are all applicable
      for that player. */
  ghost predicate Protocol(g: Game) {
    g.validActions != [] ==>
      && |g.playersActing| == 1 && g.playersActing[0] in g.hands
      && forall i | 0 <= i < |g.validActions| :: Applicable(g, g.playersActing[0], g.validActions[i])
  }

  /** The invariant of every state the engine rests in between events. */
  ghost predicate Inv(g: Game) {
    Shaped(g) && Conserved(g) && FieldOk(g) && Protocol(g)
  }

  /** `continueTurn` is only entered with nobody owing a response and no
      actions on offer. */
  ghost predicate Idle(g: Game) {
    g.playersActing == [] && g.validActions == []
  }

  /** `setTurnStage` on the game. */
  function SetStage(g: Game, stage: Stage): (r: Game)
    ensures r.stages == SetTurnStage(g.stages, stage)
    ensures r == g.(stages := r.stages)
  {
    g.(stages := SetTurnStage(g.stages, stage))
  }

  /** `reset`: every per-match field back to its initial value. */
  function Reset(g: Game): (r: Game)
    ensures r.gameNumber == g.gameNumber + 1
    ensures !r.gameStarted && r.hands == map[] && r.cards == [] && r.deck == []
    ensures |r.field| == FieldSize && FieldCards(r.field) == []
    ensures r.fullField == ZeroDiscardFieldSize && r.fieldUsedSpots == 0
    ensures r.attacker.None? && r.defender.None? && r.ally.None? && r.stages == TurnStages(None, None)
    ensures r.discardPile == [] && r.skipCounter == 0 && r.turnNumber == 1
    ensures Idle(r)
    ensures r.players == g.players && r.activePlayers == g.activePlayers
  {
    EmptyFieldCards(EmptyField());
    g.(gameNumber := g.gameNumber + 1, gameStarted := false, cards := [], deck := [],
       discardPile := [], field := EmptyField(), fieldUsedSpots := 0,
       fullField := ZeroDiscardFieldSize, skipCounter := 0, hands := map[],
       playersActing := [], validActions := [], turnNumber := 1,
       stages := TurnStages(None, None), attacker := None, defender := None, ally := None)
  }

  // ---- Frames ----

  /** Conservation only looks at the card table and the card containers. */
  lemma ConservedFrame(g: Game, r: Game)
    requires r.cards == g.cards && r.deck == g.deck && r.players == g.players && r.hands == g.hands
    requires r.field == g.field && r.discardPile == g.discardPile
    ensures Conserved(r) <==> Conserved(g)
  {
    assert AllCards(r) == AllCards(g);
    forall c | 0 <= c < |g.cards| ensures LocatedAt(r, c) <==> LocatedAt(g, c) {
    }
  }

  /** Re-queueing players and withdrawing the options keeps the shape. */
  lemma ShapedFrame(g: Game, r: Game)
    requires Shaped(g)
    requires r == g.(playersActing := r.playersActing, validActions := [], timer := r.timer,
                     disconnectedPlayers := r.disconnectedPlayers, stages := r.stages,
                     skipCounter := r.skipCounter, fieldUsedSpots := r.fieldUsedSpots)
    requires forall p | p in r.playersActing :: p in g.players
    ensures Shaped(r)
  {
    assert CardsInRange(r);
  }

  /** Moving cards between the deck and the hands keeps the shape as long
      as every id still indexes the card table. */
  lemma ShapedRefill(g: Game, r: Game)
    requires Shaped(g)
    requires r == g.(deck := r.deck, hands := r.hands, cards := r.cards)
    requires r.hands.Keys == g.hands.Keys && |r.cards| == |g.cards|
    requires CardsInRange(r)
    ensures Shaped(r)
  {
  }
}

=== FILE: moves.dfy ===
/** Three of the ways a card changes container in serverjs/gamelogic.js —
    played to a field slot (`processAction` ATTACK / DEFENSE), taken from the
    field by the defender (`letDefend` after a follow-up) and discarded
    (`discardAndNotify`) — each with its proof that cards are conserved and
    positions kept in step. Dealing is module Dealing. */
module Moves {
  import opened Util
  import opened Cards
  import opened Field
  import opened GameState

  // ---- The hands as one sequence ----

  lemma {:induction false} HandCardsFrame(ps: seq<PlayerId>, hands: map<PlayerId, seq<CardId>>, p: PlayerId, h: seq<CardId>)
    requires p !in ps
    ensures HandCards(ps, hands[p := h]) == HandCards(ps, hands)
  {
    if ps != [] {
      HandCardsFrame(ps[1..], hands, p, h);
    }
  }

  /** Replacing one player's hand swaps its cards in the multiset of all hands. */
  lemma {:induction false} HandCardsUpdate(ps: seq<PlayerId>, hands: map<PlayerId, seq<CardId>>, p: PlayerId, h: seq<CardId>)
    requires NoDup(ps) && p in ps
    ensures multiset(HandCards(ps, hands[p := h])) + multiset(HandOf(hands, p))
         == multiset(HandCards(ps, hands)) + multiset(h)
  {
    assert NoDup(ps[1..]);
    if ps[0] == p {
      assert p !in ps[1..];
      HandCardsFrame(ps[1..], hands, p, h);
    } else {
      HandCardsUpdate(ps[1..], hands, p, h);
      var hands' := hands[p := h];
      assert HandOf(hands', ps[0]) == HandOf(hands, ps[0]);
      assert HandCards(ps, hands') == HandOf(hands, ps[0]) + HandCards(ps[1..], hands');
      Extend(multiset(HandOf(hands, ps[0])), multiset(HandCards(ps[1..], hands')),
             multiset(HandCards(ps[1..], hands)), multiset(HandOf(hands, p)), multiset(h));
    }
  }

  lemma {:induction false} HandCardsMember(ps: seq<PlayerId>, hands: map<PlayerId, seq<CardId>>, p: PlayerId, c: CardId)
    requires p in ps && c in HandOf(hands, p)
    ensures c in HandCards(ps, hands)
  {
    if ps[0] != p {
      HandCardsMember(ps[1..], hands, p, c);
    }
  }

  lemma {:induction false} HandCardsSource(ps: seq<PlayerId>, hands: map<PlayerId, seq<CardId>>, c: CardId) returns (p: PlayerId)
    requires c in HandCards(ps, hands)
    ensures p in ps && c in HandOf(hands, p)
  {
    if c in HandOf(hands, ps[0]) {
      p := ps[0];
    } else {
      p := HandCardsSource(ps[1..], hands, c);
    }
  }

  /** In a repeat-free collection of hands, two seats never share a card. */
  lemma {:induction false} HandCardsSeparate(ps: seq<PlayerId>, hands: map<PlayerId, seq<CardId>>, p: PlayerId, q: PlayerId, c: CardId)
    requires NoDup(ps) && NoDup(HandCards(ps, hands))
    requires p in ps && q in ps && c in HandOf(hands, p) && c in HandOf(hands, q)
    ensures p == q
  {
    NoDupConcat(HandOf(hands, ps[0]), HandCards(ps[1..], hands));
    assert NoDup(ps[1..]);
    if ps[0] == p && ps[0] != q {
      HandCardsMember(ps[1..], hands, q, c);
    } else if ps[0] == q && ps[0] != p {
      HandCardsMember(ps[1..], hands, p, c);
    } else if ps[0] != p && ps[0] != q {
      HandCardsSeparate(ps[1..], hands, p, q, c);
    }
  }

  lemma {:induction false} HandCardsNoDupHand(ps: seq<PlayerId>, hands: map<PlayerId, seq<CardId>>, p: PlayerId)
    requires NoDup(HandCards(ps, hands)) && p in ps
    ensures NoDup(HandOf(hands, p))
  {
    NoDupConcat(HandOf(hands, ps[0]), HandCards(ps[1..], hands));
    if ps[0] != p {
      HandCardsNoDupHand(ps[1..], hands, p);
    }
  }

  // ---- Containers of a conserved game ----

  /** Every card of a conserved game lies in exactly one container. */
  lemma ContainersSeparate(g: Game)
    requires Conserved(g)
    ensures NoDup(AllCards(g))
    ensures NoDup(g.deck) && NoDup(HandCards(g.players, g.hands))
    ensures NoDup(FieldCards(g.field)) && NoDup(g.discardPile)
    ensures Disjoint(g.deck, HandCards(g.players, g.hands))
    ensures Disjoint(g.deck, FieldCards(g.field))
    ensures Disjoint(g.deck, g.discardPile)
    ensures Disjoint(HandCards(g.players, g.hands), FieldCards(g.field))
    ensures Disjoint(HandCards(g.players, g.hands), g.discardPile)
    ensures Disjoint(FieldCards(g.field), g.discardPile)
  {
    RangeNoDup(|g.cards|);
    PermutationKeepsNoDup(AllCards(g), Range(|g.cards|));
    var d, h, f, p := g.deck, HandCards(g.players, g.hands), FieldCards(g.field), g.discardPile;
    NoDupConcat(d + h + f, p);
    NoDupConcat(d + h, f);
    NoDupConcat(d, h);
  }

  /** The converse of `LocatedAt`: a card in a hand records that hand. */
  lemma HeldCardPosition(g: Game, p: PlayerId, c: CardId)
    requires Shaped(g) && Conserved(g)
    requires p in g.hands && c in g.hands[p]
    ensures c < |g.cards| && g.cards[c].position == Held(p)
  {
    ContainersSeparate(g);
    HandCardsMember(g.players, g.hands, p, c);
    assert c in HandCards(g.players, g.hands);
    assert LocatedAt(g, c);
    match g.cards[c].position
    case Held(q) =>
      HandCardsSeparate(g.players, g.hands, p, q, c);
    case Slot(i) =>
      FieldCardsMember(g.field, i, c);
    case _ =>
  }

  /** A card in the deck records DECK or BOTTOM. */
  lemma DeckCardPosition(g: Game, c: CardId)
    requires Shaped(g) && Conserved(g) && c in g.deck
    ensures c < |g.cards| && g.cards[c].position in {Deck, Bottom}
  {
    ContainersSeparate(g);
    assert LocatedAt(g, c);
    match g.cards[c].position
    case Held(q) =>
      HandCardsMember(g.players, g.hands, q, c);
    case Slot(i) =>
      FieldCardsMember(g.field, i, c);
    case _ =>
  }

  /** A card on the field records the slot it lies in. */
  lemma FieldCardPosition(g: Game, s: nat, c: CardId)
    requires Shaped(g) && Conserved(g) && s < |g.field| && c in SpotCards(g.field[s])
    ensures c < |g.cards| && g.cards[c].position == Slot(s)
  {
    ContainersSeparate(g);
    FieldCardsMember(g.field, s, c);
    assert c in FieldCards(g.field);
    assert LocatedAt(g, c);
    match g.cards[c].position
    case Held(q) =>
      HandCardsMember(g.players, g.hands, q, c);
    case Slot(i) =>
      if i != s {
        SlotsSeparate(g.field, i, s, c);
      }
    case _ =>
  }

  lemma {:induction false} SlotsSeparate(f: seq<FieldSpot>, i: nat, j: nat, c: CardId)
    requires NoDup(FieldCards(f)) && i < |f| && j < |f|
    requires c in SpotCards(f[i]) && c in SpotCards(f[j])
    ensures i == j
  {
    NoDupConcat(SpotCards(f[0]), FieldCards(f[1..]));
    if i == 0 && j != 0 {
      FieldCardsMember(f[1..], j - 1, c);
    } else if j == 0 && i != 0 {
      FieldCardsMember(f[1..], i - 1, c);
    } else if i != 0 && j != 0 {
      SlotsSeparate(f[1..], i - 1, j - 1, c);
    }
  }

  // ---- Setting positions ----

  /** Give every listed card the same new position. */
  function Relocate(cards: seq<Card>, ids: seq<CardId>, pos: Position): (r: seq<Card>)
    requires forall i | 0 <= i < |ids| :: ids[i] < |cards|
    ensures |r| == |cards|
    ensures forall c | 0 <= c < |cards| ::
      r[c] == (if c in ids then cards[c].(position := pos) else cards[c])
    decreases |ids|
  {
    if ids == [] then cards
    else Relocate(cards[ids[0] := cards[ids[0]].(position := pos)], ids[1..], pos)
  }

  /** Every slot emptied, as `letDefend` and `discardAndNotify` leave it. */
  function ClearField(f: seq<FieldSpot>): (r: seq<FieldSpot>)
    ensures |r| == |f| && FieldCards(r) == []
    ensures forall s | 0 <= s < |r| :: r[s] == EmptySpot
  {
    var r := seq(|f|, _ => EmptySpot);
    EmptyFieldCards(r);
    r
  }

  // ---- hand -> field ----

  /** The card-moving part of `processAction` ATTACK (`asDefense == false`) or
      DEFENSE: the card records the slot, leaves the hand via
      `splice(indexOf(cid), 1)` and fills the slot's attack or defense. */
  function PlayCard(g: Game, p: PlayerId, cid: CardId, slot: nat, asDefense: bool): (r: Game)
    requires p in g.hands && cid < |g.cards| && slot < |g.field|
    ensures r == g.(cards := r.cards, hands := r.hands, field := r.field)
    ensures |r.cards| == |g.cards| && |r.field| == |g.field|
    ensures r.hands.Keys == g.hands.Keys
  {
    var ci := IndexOf(g.hands[p], cid);
    var spot := if asDefense then g.field[slot].(defense := Some(cid))
                else g.field[slot].(attack := Some(cid));
    g.(cards := g.cards[cid := g.cards[cid].(position := Slot(slot))],
       hands := g.hands[p := SpliceOne(g.hands[p], ci)],
       field := g.field[slot := spot])
  }

  /** Playing a card moves exactly that card: into its slot, out of the
      player's hand, with every other slot, card and hand left alone. */
  lemma PlayCardMoves(g: Game, p: PlayerId, cid: CardId, slot: nat, asDefense: bool)
    requires p in g.hands && cid < |g.cards| && slot < |g.field|
    ensures
      var r := PlayCard(g, p, cid, slot, asDefense);
      && r.cards[cid].position == Slot(slot)
      && (!asDefense ==> r.field[slot].attack == Some(cid) && r.field[slot].defense == g.field[slot].defense)
      && (asDefense ==> r.field[slot].defense == Some(cid) && r.field[slot].attack == g.field[slot].attack)
      && (forall s | 0 <= s < |g.field| && s != slot :: r.field[s] == g.field[s])
      && (forall c | 0 <= c < |g.cards| && c != cid :: r.cards[c] == g.cards[c])
      && (forall q | q in g.hands && q != p :: r.hands[q] == g.hands[q])
      && (cid in g.hands[p] ==> multiset(r.hands[p]) == multiset(g.hands[p]) - multiset{cid})
  {
    var hand := g.hands[p];
    if cid in hand {
      SpliceOneMultiset(hand, IndexOf(hand, cid));
    }
  }

  lemma SpliceKeepsOthers<T>(s: seq<T>, i: nat, x: T)
    requires i < |s| && x in s && x != s[i]
    ensures x in SpliceOne(s, i)
  {
    var k :| 0 <= k < |s| && s[k] == x;
    if k < i { assert SpliceOne(s, i)[k] == x; } else { assert SpliceOne(s, i)[k - 1] == x; }
  }

  /** Playing a card from a hand into a free slot (an empty slot for an attack,
      a slot with an unanswered attack for a defense) keeps the state's shape
      and conserves the cards. */
  lemma PlayCardConserves(g: Game, p: PlayerId, cid: CardId, slot: nat, asDefense: bool)
    requires Shaped(g) && Conserved(g)
    requires p in g.hands && cid in g.hands[p] && slot < |g.field|
    requires asDefense ==> g.field[slot].attack.Some? && g.field[slot].defense.None?
    requires !asDefense ==> g.field[slot] == EmptySpot
    ensures cid < |g.cards|
    ensures Shaped(PlayCard(g, p, cid, slot, asDefense))
    ensures Conserved(PlayCard(g, p, cid, slot, asDefense))
  {
    HeldCardPosition(g, p, cid);
    PlayCardMultiset(g, p, cid, slot, asDefense);
    PlayCardPositions(g, p, cid, slot, asDefense);
    PlayCardShaped(g, p, cid, slot, asDefense);
  }

  lemma PlayCardShaped(g: Game, p: PlayerId, cid: CardId, slot: nat, asDefense: bool)
    requires Shaped(g) && p in g.hands && cid < |g.cards| && slot < |g.field|
    ensures Shaped(PlayCard(g, p, cid, slot, asDefense))
  {
    var r := PlayCard(g, p, cid, slot, asDefense);
    var ci := IndexOf(g.hands[p], cid);
    forall q, i | q in r.hands && 0 <= i < |r.hands[q]| ensures r.hands[q][i] < |r.cards| {
      if q == p {
        if ci == -1 {
          assert r.hands[q][i] == g.hands[q][i];
        } else if i < ci {
          assert r.hands[q][i] == g.hands[q][i];
        } else {
          assert r.hands[q][i] == g.hands[q][i + 1];
        }
      }
    }
    forall s | 0 <= s < |r.field| ensures forall c | c in SpotCards(r.field[s]) :: c < |r.cards| {
      if s != slot {
        assert r.field[s] == g.field[s];
      } else {
        var before, after := g.field[s], r.field[s];
        assert after.attack == before.attack || after.attack == Some(cid);
        assert after.defense == before.defense || after.defense == Some(cid);
        forall c | c in SpotCards(after) ensures c < |r.cards| {
          if c != cid { assert c in SpotCards(before); }
        }
      }
    }
    forall i | 0 <= i < |r.validActions| ensures ActionInRange(r, r.validActions[i]) {
      assert ActionInRange(g, g.validActions[i]);
    }
    assert CardsInRange(r);
  }

  lemma PlayCardMultiset(g: Game, p: PlayerId, cid: CardId, slot: nat, asDefense: bool)
    requires NoDup(g.players) && p in g.players
    requires p in g.hands && cid in g.hands[p] && cid < |g.cards| && slot < |g.field|
    requires asDefense ==> g.field[slot].defense.None?
    requires !asDefense ==> g.field[slot].attack.None?
    ensures multiset(AllCards(PlayCard(g, p, cid, slot, asDefense))) == multiset(AllCards(g))
  {
    var r := PlayCard(g, p, cid, slot, asDefense);
    var hand := g.hands[p];
    assert r.players == g.players && r.hands == g.hands[p := SpliceOne(hand, IndexOf(hand, cid))];
    HandRemoveMultiset(g.players, g.hands, p, cid);
    var spot := r.field[slot];
    assert r.field == g.field[slot := spot];
    assert multiset(SpotCards(spot)) == multiset(SpotCards(g.field[slot])) + multiset{cid};
    SpotFillMultiset(g.field, slot, spot, cid);
    MovedCardKept(g, r, cid);
  }

  /** A card that leaves the hands for the field keeps the multiset of all
      cards. */
  lemma MovedCardKept(g: Game, r: Game, cid: CardId)
    requires r.deck == g.deck && r.discardPile == g.discardPile
    requires multiset(HandCards(r.players, r.hands)) + multiset{cid} == multiset(HandCards(g.players, g.hands))
    requires multiset(FieldCards(r.field)) == multiset(FieldCards(g.field)) + multiset{cid}
    ensures multiset(AllCards(r)) == multiset(AllCards(g))
  {
    var hc, hc' := multiset(HandCards(g.players, g.hands)), multiset(HandCards(r.players, r.hands));
    var fc, fc' := multiset(FieldCards(g.field)), multiset(FieldCards(r.field));
    assert multiset(AllCards(r)) == multiset(r.deck) + hc' + fc' + multiset(r.discardPile);
    assert multiset(AllCards(g)) == multiset(g.deck) + hc + fc + multiset(g.discardPile);
  }

  /** `splice(indexOf(cid), 1)` on a hand holding `cid` takes exactly that card
      out of the hands. */
  lemma HandRemoveMultiset(ps: seq<PlayerId>, hands: map<PlayerId, seq<CardId>>, p: PlayerId, cid: CardId)
    requires NoDup(ps) && p in ps && p in hands && cid in hands[p]
    ensures
      var h := SpliceOne(hands[p], IndexOf(hands[p], cid));
      multiset(HandCards(ps, hands[p := h])) + multiset{cid} == multiset(HandCards(ps, hands))
  {
    var hand := hands[p];
    var h := SpliceOne(hand, IndexOf(hand, cid));
    SpliceOneMultiset(hand, IndexOf(hand, cid));
    HandCardsUpdate(ps, hands, p, h);
    assert HandOf(hands, p) == hand;
    TakeOut(multiset(HandCards(ps, hands[p := h])), multiset(HandCards(ps, hands)), multiset(hand), cid);
  }

  /** Filling an empty half of one slot adds exactly that card to the field. */
  lemma SpotFillMultiset(f: seq<FieldSpot>, slot: nat, spot: FieldSpot, cid: CardId)
    requires slot < |f|
    requires multiset(SpotCards(spot)) == multiset(SpotCards(f[slot])) + multiset{cid}
    ensures multiset(FieldCards(f[slot := spot])) == multiset(FieldCards(f)) + multiset{cid}
  {
    FieldCardsUpdate(f, slot, spot);
    var fc, fc' := multiset(FieldCards(f)), multiset(FieldCards(f[slot := spot]));
    assert fc' + multiset(SpotCards(f[slot])) == (fc + multiset{cid}) + multiset(SpotCards(f[slot]));
    MultisetCancel(fc', fc + multiset{cid}, multiset(SpotCards(f[slot])));
  }

  lemma PlayCardPositions(g: Game, p: PlayerId, cid: CardId, slot: nat, asDefense: bool)
    requires PositionsAgree(g)
    requires p in g.hands && cid in g.hands[p] && cid < |g.cards| && slot < |g.field|
    requires asDefense ==> g.field[slot].attack.Some? && g.field[slot].defense.None?
    requires !asDefense ==> g.field[slot] == EmptySpot
    ensures PositionsAgree(PlayCard(g, p, cid, slot, asDefense))
  {
    var r := PlayCard(g, p, cid, slot, asDefense);
    var hand := g.hands[p];
    var ci := IndexOf(hand, cid);
    forall d | 0 <= d < |r.cards| ensures LocatedAt(r, d) {
      assert LocatedAt(g, d);
      if d != cid {
        match g.cards[d].position
        case Held(q) =>
          if q == p { SpliceKeepsOthers(hand, ci, d); }
        case _ =>
      }
    }
  }

  // ---- field -> hand ----

  /** Field cards are card ids when every slot's cards are. */
  lemma FieldCardsInRange(f: seq<FieldSpot>, n: nat)
    requires forall s | 0 <= s < |f| :: forall c | c in SpotCards(f[s]) :: c < n
    ensures forall i | 0 <= i < |FieldCards(f)| :: FieldCards(f)[i] < n
  {
    forall i | 0 <= i < |FieldCards(f)| ensures FieldCards(f)[i] < n {
      var s := FieldCardsSource(f, FieldCards(f)[i]);
    }
  }

  /** The follow-up take of `letDefend`: every field card, slot by slot and
      attack before defense, goes to the end of `p`'s hand; the slots are
      emptied. */
  function TakeField(g: Game, p: PlayerId): (r: Game)
    requires p in g.hands
    requires forall s | 0 <= s < |g.field| :: forall c | c in SpotCards(g.field[s]) :: c < |g.cards|
    ensures r == g.(cards := r.cards, hands := r.hands, field := r.field)
    ensures r.hands == g.hands[p := g.hands[p] + FieldCards(g.field)]
    ensures |r.cards| == |g.cards| && |r.field| == |g.field| && FieldCards(r.field) == []
    ensures forall s | 0 <= s < |r.field| :: r.field[s] == EmptySpot
  {
    var fc := FieldCards(g.field);
    FieldCardsInRange(g.field, |g.cards|);
    g.(cards := Relocate(g.cards, fc, Held(p)), hands := g.hands[p := g.hands[p] + fc],
       field := ClearField(g.field))
  }

  /** Taking the field keeps the state's shape and conserves the cards. */
  lemma TakeFieldConserves(g: Game, p: PlayerId)
    requires Shaped(g) && Conserved(g) && p in g.hands
    ensures Shaped(TakeField(g, p)) && Conserved(TakeField(g, p))
  {
    TakeFieldMultiset(g, p);
    TakeFieldPositions(g, p);
    TakeFieldShaped(g, p);
  }

  lemma TakeFieldShaped(g: Game, p: PlayerId)
    requires Shaped(g) && p in g.hands
    ensures Shaped(TakeField(g, p))
  {
    var r := TakeField(g, p);
    FieldCardsInRange(g.field, |g.cards|);
    forall i | 0 <= i < |r.validActions| ensures ActionInRange(r, r.validActions[i]) {
      assert ActionInRange(g, g.validActions[i]);
    }
    assert CardsInRange(r);
  }

  lemma TakeFieldMultiset(g: Game, p: PlayerId)
    requires NoDup(g.players) && p in g.players && p in g.hands
    requires forall s | 0 <= s < |g.field| :: forall c | c in SpotCards(g.field[s]) :: c < |g.cards|
    ensures multiset(AllCards(TakeField(g, p))) == multiset(AllCards(g))
  {
    var r := TakeField(g, p);
    var hand, fc := g.hands[p], FieldCards(g.field);
    assert r.players == g.players;
    HandCardsUpdate(g.players, g.hands, p, hand + fc);
    assert HandOf(g.hands, p) == hand;
    Absorb(multiset(HandCards(r.players, r.hands)), multiset(HandCards(g.players, g.hands)), multiset(hand), multiset(fc));
    FieldToHandsKept(g, r);
  }

  /** The field's cards moving into the hands keep the multiset of all cards. */
  lemma FieldToHandsKept(g: Game, r: Game)
    requires r.deck == g.deck && r.discardPile == g.discardPile && FieldCards(r.field) == []
    requires multiset(HandCards(r.players, r.hands))
          == multiset(HandCards(g.players, g.hands)) + multiset(FieldCards(g.field))
    ensures multiset(AllCards(r)) == multiset(AllCards(g))
  {
    var hc, hc' := multiset(HandCards(g.players, g.hands)), multiset(HandCards(r.players, r.hands));
    assert multiset(AllCards(r)) == multiset(r.deck) + hc' + multiset(r.discardPile);
    assert multiset(AllCards(g)) == multiset(g.deck) + hc + multiset(FieldCards(g.field)) + multiset(g.discardPile);
  }

  lemma TakeFieldPositions(g: Game, p: PlayerId)
    requires PositionsAgree(g) && p in g.hands
    requires forall s | 0 <= s < |g.field| :: forall c | c in SpotCards(g.field[s]) :: c < |g.cards|
    ensures PositionsAgree(TakeField(g, p))
  {
    var r := TakeField(g, p);
    var fc := FieldCards(g.field);
    forall d | 0 <= d < |r.cards| ensures LocatedAt(r, d) {
      assert LocatedAt(g, d);
      if d in fc {
        assert d in g.hands[p] + fc;
      } else {
        match g.cards[d].position
        case Held(q) =>
          if q == p { assert d in g.hands[p] + fc; }
        case Slot(i) =>
          FieldCardsMember(g.field, i, d);
        case _ =>
      }
    }
  }

  // ---- field -> discard pile ----

  /** The card-moving part of `discardAndNotify`. */
  function DiscardField(g: Game): (r: Game)
    requires forall s | 0 <= s < |g.field| :: forall c | c in SpotCards(g.field[s]) :: c < |g.cards|
    ensures r == g.(cards := r.cards, discardPile := r.discardPile, field := r.field)
    ensures r.discardPile == g.discardPile + FieldCards(g.field)
    ensures |r.cards| == |g.cards| && |r.field| == |g.field| && FieldCards(r.field) == []
    ensures forall s | 0 <= s < |r.field| :: r.field[s] == EmptySpot
  {
    var fc := FieldCards(g.field);
    FieldCardsInRange(g.field, |g.cards|);
    g.(cards := Relocate(g.cards, fc, DiscardPile), discardPile := g.discardPile + fc,
       field := ClearField(g.field))
  }

  /** Discarding the field keeps the state's shape and conserves the cards. */
  lemma DiscardFieldConserves(g: Game)
    requires Shaped(g) && Conserved(g)
    ensures Shaped(DiscardField(g)) && Conserved(DiscardField(g))
  {
    DiscardFieldShaped(g);
    DiscardFieldMultiset(g);
    DiscardFieldPositions(g);
  }

  lemma DiscardFieldShaped(g: Game)
    requires Shaped(g)
    ensures Shaped(DiscardField(g))
  {
    var r := DiscardField(g);
    FieldCardsInRange(g.field, |g.cards|);
    forall i | 0 <= i < |r.validActions| ensures ActionInRange(r, r.validActions[i]) {
      assert ActionInRange(g, g.validActions[i]);
    }
    assert CardsInRange(r);
  }

  lemma DiscardFieldMultiset(g: Game)
    requires forall s | 0 <= s < |g.field| :: forall c | c in SpotCards(g.field[s]) :: c < |g.cards|
    ensures multiset(AllCards(DiscardField(g))) == multiset(AllCards(g))
  {
    var r := DiscardField(g);
    var hc := HandCards(g.players, g.hands);
    var fc := FieldCards(g.field);
    assert AllCards(r) == g.deck + hc + [] + (g.discardPile + fc);
    DiscardBalance(g.deck, hc, fc, g.discardPile);
  }

  /** Moving the field's cards to the end of the discard pile. */
  lemma DiscardBalance(deck: seq<CardId>, hc: seq<CardId>, fc: seq<CardId>, pile: seq<CardId>)
    ensures multiset(deck + hc + [] + (pile + fc)) == multiset(deck + hc + fc + pile)
  {
    var m := multiset(deck) + multiset(hc);
    assert multiset(deck + hc + [] + (pile + fc)) == m + (multiset(pile) + multiset(fc));
    assert multiset(deck + hc + fc + pile) == m + multiset(fc) + multiset(pile);
  }

  lemma DiscardFieldPositions(g: Game)
    requires PositionsAgree(g)
    requires forall s | 0 <= s < |g.field| :: forall c | c in SpotCards(g.field[s]) :: c < |g.cards|
    ensures PositionsAgree(DiscardField(g))
  {
    var r := DiscardField(g);
    var fc := FieldCards(g.field);
    forall d | 0 <= d < |r.cards| ensures LocatedAt(r, d) {
      assert LocatedAt(g, d);
      if d !in fc {
        match g.cards[d].position
        case Slot(i) =>
          FieldCardsMember(g.field, i, d);
        case _ =>
      }
    }
  }
}

=== FILE: options.dfy ===
/** The options `letAttack` and `letDefend` (serverjs/gamelogic.js) publish as
    `validActions`: which hand cards may be thrown in, which may answer the
    first unanswered attack, and when SKIP and TAKE are offered. */
module Options {
  import opened Util
  import opened Cards
  import opened Field
  import opened Stages
  import opened GameState

  /** `validValues`: the values of the cards on the field, slot by slot. */
  function FieldValues(cards: seq<Card>, onField: seq<CardId>): (values: seq<int>)
    requires IdsInRange(cards, onField)
    ensures |values| == |onField|
    ensures forall i | 0 <= i < |onField| :: values[i] == cards[onField[i]].value
  {
    seq(|onField|, i requires 0 <= i < |onField| => cards[onField[i]].value)
  }

  /** The ATTACK actions of `letAttack`: every hand card, in hand order, whose
      value is on the field (any card while the field is empty), aimed at
      `slot`. */
  function AttackActions(cards: seq<Card>, hand: seq<CardId>, values: seq<int>, slot: nat): (acts: seq<Action>)
    requires IdsInRange(cards, hand)
    ensures |acts| <= |hand|
    ensures forall i | 0 <= i < |acts| :: acts[i].AttackWith? && acts[i].slot == slot && acts[i].cid in hand
    ensures forall i | 0 <= i < |acts| :: values == [] || cards[acts[i].cid].value in values
    ensures forall cid | cid in hand && (values == [] || cards[cid].value in values) ::
      AttackWith(cid, slot) in acts
  {
    if hand == [] then []
    else
      var rest := AttackActions(cards, hand[1..], values, slot);
      assert forall cid | cid in hand[1..] :: cid in hand;
      if values == [] || cards[hand[0]].value in values then [AttackWith(hand[0], slot)] + rest
      else rest
  }

  /** The options `letAttack` offers the player `pid`: the matching cards for
      the first free slot, then SKIP unless this is the opening attack of the
      turn. */
  function AttackOptions(g: Game, pid: PlayerId): (acts: seq<Action>)
    requires pid in g.hands && IdsInRange(g.cards, g.hands[pid])
    requires IdsInRange(g.cards, FieldCards(g.field))
    ensures |acts| <= |g.hands[pid]| + 1
    ensures forall i | 0 <= i < |acts| ::
      || (acts[i].AttackWith? && acts[i].slot == g.fieldUsedSpots && acts[i].cid in g.hands[pid])
      || (acts[i] == Skip && i == |acts| - 1)
  {
    var values := FieldValues(g.cards, FieldCards(g.field));
    AttackActions(g.cards, g.hands[pid], values, g.fieldUsedSpots)
      + (if g.stages.turnStage != Some(InitialAttack) then [Skip] else [])
  }

  /** Durak's throw-in rule, stated independently of `validValues`: any card
      opens the attack, later cards must match the value of a card already on
      the field. */
  ghost predicate MayThrow(g: Game, cid: CardId)
    requires cid < |g.cards| && IdsInRange(g.cards, FieldCards(g.field))
  {
    var onField := FieldCards(g.field);
    onField == [] || exists i | 0 <= i < |onField| :: g.cards[onField[i]].value == g.cards[cid].value
  }

  /** Exactly the throwable cards of the hand are offered, for the first free
      slot; SKIP is offered iff the stage is not INITIAL_ATTACK; TAKE and
      DEFENSE never are. */
  lemma AttackOptionsSpec(g: Game, pid: PlayerId)
    requires pid in g.hands && IdsInRange(g.cards, g.hands[pid])
    requires IdsInRange(g.cards, FieldCards(g.field))
    ensures forall cid | cid in g.hands[pid] ::
      AttackWith(cid, g.fieldUsedSpots) in AttackOptions(g, pid) <==> MayThrow(g, cid)
    ensures forall a | a in AttackOptions(g, pid) && a.AttackWith? ::
      a.slot == g.fieldUsedSpots && a.cid in g.hands[pid]
    ensures Skip in AttackOptions(g, pid) <==> g.stages.turnStage != Some(InitialAttack)
    ensures forall a | a in AttackOptions(g, pid) :: !a.DefendWith? && a != Take
  {
    var hand := g.hands[pid];
    var onField := FieldCards(g.field);
    var values := FieldValues(g.cards, onField);
    var acts := AttackActions(g.cards, hand, values, g.fieldUsedSpots);
    var opts := AttackOptions(g, pid);
    assert forall i | 0 <= i < |acts| :: opts[i] == acts[i];
    assert forall a | a in opts :: a in acts || a == Skip;
    forall cid | cid in hand
      ensures AttackWith(cid, g.fieldUsedSpots) in opts <==> MayThrow(g, cid)
    {
      var v := g.cards[cid].value;
      if MayThrow(g, cid) && onField != [] {
        var i :| 0 <= i < |onField| && g.cards[onField[i]].value == v;
        assert values[i] == v;
      }
      if AttackWith(cid, g.fieldUsedSpots) in opts {
        assert AttackWith(cid, g.fieldUsedSpots) in acts;
        if onField != [] {
          var i :| 0 <= i < |values| && values[i] == v;
        }
      }
    }
  }

  /** The DEFENSE actions of `letDefend`: every hand card, in hand order, that
      beats the attack card `attack`, aimed at `slot`. */
  function DefendActions(cards: seq<Card>, hand: seq<CardId>, attack: Card, trumpSuit: int, slot: nat): (acts: seq<Action>)
    requires IdsInRange(cards, hand)
    ensures |acts| <= |hand|
    ensures forall i | 0 <= i < |acts| ::
      && acts[i].DefendWith? && acts[i].slot == slot && acts[i].cid in hand
      && Beats(cards[acts[i].cid], attack, trumpSuit)
    ensures forall cid | cid in hand && Beats(cards[cid], attack, trumpSuit) :: DefendWith(cid, slot) in acts
  {
    if hand == [] then []
    else
      var rest := DefendActions(cards, hand[1..], attack, trumpSuit, slot);
      assert forall cid | cid in hand[1..] :: cid in hand;
      if Beats(cards[hand[0]], attack, trumpSuit) then [DefendWith(hand[0], slot)] + rest
      else rest
  }

  /** The options `letDefend` offers the defender against the first
      unanswered attack card, in slot `slot`: the cards that beat it, then
      TAKE. */
  function DefenseOptions(g: Game, pid: PlayerId, slot: nat): (acts: seq<Action>)
    requires pid in g.hands && IdsInRange(g.cards, g.hands[pid])
    requires slot < |g.field| && g.field[slot].attack.Some? && g.field[slot].attack.value < |g.cards|
    ensures 1 <= |acts| <= |g.hands[pid]| + 1 && acts[|acts| - 1] == Take
    ensures forall i | 0 <= i < |acts| - 1 ::
      && acts[i].DefendWith? && acts[i].slot == slot && acts[i].cid in g.hands[pid]
      && Beats(g.cards[acts[i].cid], g.cards[g.field[slot].attack.value], g.trumpSuit)
  {
    DefendActions(g.cards, g.hands[pid], g.cards[g.field[slot].attack.value], g.trumpSuit, slot) + [Take]
  }

  /** The defender is offered exactly the hand cards that beat the attack
      card, all aimed at its slot, and TAKE as the last option and only
      there; SKIP is never offered. */
  lemma DefenseOptionsSpec(g: Game, pid: PlayerId, slot: nat)
    requires pid in g.hands && IdsInRange(g.cards, g.hands[pid])
    requires slot < |g.field| && g.field[slot].attack.Some? && g.field[slot].attack.value < |g.cards|
    ensures
      var opts := DefenseOptions(g, pid, slot);
      var attack := g.cards[g.field[slot].attack.value];
      && |opts| >= 1 && opts[|opts| - 1] == Take
      && (forall i | 0 <= i < |opts| - 1 :: opts[i] != Take)
      && (forall cid | cid in g.hands[pid] :: DefendWith(cid, slot) in opts <==> Beats(g.cards[cid], attack, g.trumpSuit))
      && (forall a | a in opts && a.DefendWith? :: a.slot == slot && a.cid in g.hands[pid])
      && Skip !in opts && forall a | a in opts :: !a.AttackWith?
  {
    var attack := g.cards[g.field[slot].attack.value];
    var acts := DefendActions(g.cards, g.hands[pid], attack, g.trumpSuit, slot);
    var opts := DefenseOptions(g, pid, slot);
    assert forall i | 0 <= i < |acts| :: opts[i] == acts[i];
    assert forall a | a in opts :: a in acts || a == Take;
  }
}

=== FILE: responses.dfy ===
/** The response protocol of serverjs/gamelogic.js: `processAction` carries
    out one published action, `recieveResponse` accepts a player's answer,
    and the callback of `setResponseTimer` answers for a player who took too
    long. A response names its action by index into `validActions`; an index
    outside the list is an action that is not on offer. What happens after
    the last awaited response is `continueTurn`, module Turns. */
module Responses {
  import opened Util
  import opened Cards
  import opened Field
  import opened Stages
  import opened GameState
  import opened Timer
  import opened Moves

  // ---- processAction ----

  /** The game-changing part of `processAction` for one action of player `p`. */
  function Perform(g: Game, p: PlayerId, a: Action): (r: Game)
    requires p in g.hands && ActionInRange(g, a)
    ensures r.players == g.players && r.deck == g.deck && r.discardPile == g.discardPile
    ensures r.validActions == g.validActions && r.playersActing == g.playersActing && r.timer == g.timer
    ensures r.activePlayers == g.activePlayers && r.gameStarted == g.gameStarted && r.fullField == g.fullField
    ensures r.attacker == g.attacker && r.defender == g.defender && r.ally == g.ally
    ensures r.hands.Keys == g.hands.Keys && |r.cards| == |g.cards| && |r.field| == |g.field|
  {
    match a
    case AttackWith(cid, slot) =>
      var moved := PlayCard(g, p, cid, slot, false);
      var t := AttackTransition(g.stages, g.skipCounter);
      moved.(fieldUsedSpots := g.fieldUsedSpots + 1, stages := t.stages, skipCounter := t.skipCounter)
    case DefendWith(cid, slot) =>
      PlayCard(g, p, cid, slot, true)
    case Skip =>
      var t := SkipTransition(g.stages, g.skipCounter, g.ally.Some?);
      g.(stages := t.stages, skipCounter := t.skipCounter)
    case Take =>
      var t := TakeTransition(g.stages);
      g.(stages := t.stages, skipCounter := t.skipCounter)
  }

  /** `processAction(player, validActions[i])`: an action that is not on offer
      only stops the timer; one that is is carried out, the options are
      withdrawn and every player is asked to acknowledge it. */
  function ProcessAction(g: Game, p: PlayerId, i: nat): (r: Game)
    requires OffersInRange(g) && (g.validActions != [] ==> p in g.hands)
    ensures r.players == g.players && r.activePlayers == g.activePlayers
    ensures r.deck == g.deck && r.discardPile == g.discardPile
    ensures r.attacker == g.attacker && r.defender == g.defender && r.ally == g.ally
    ensures i < |g.validActions| ==> r.validActions == [] && r.playersActing == g.playersActing + g.players && r.timer.Some?
    ensures i >= |g.validActions| ==> r.timer.None? && r.validActions == g.validActions
  {
    if i >= |g.validActions| then g.(timer := None)
    else
      assert ActionInRange(g, g.validActions[i]);
      WaitForResponse(Perform(g, p, g.validActions[i]).(validActions := []), g.players)
  }

  /** What an action does: an attack or defense card leaves the player's hand
      for its slot and nothing else moves; an attack fills the next slot; a
      SKIP or TAKE moves no card. Afterwards nothing is on offer and every
      player owes an acknowledgement; an action that is not on offer changes
      nothing but the timer. */
  lemma ProcessActionSpec(g: Game, p: PlayerId, i: nat)
    requires OffersInRange(g) && (g.validActions != [] ==> p in g.hands)
    ensures
      var r := ProcessAction(g, p, i);
      && (i >= |g.validActions| ==> r == g.(timer := None))
      && (i < |g.validActions| ==>
            && r.validActions == [] && r.playersActing == g.playersActing + g.players && r.timer.Some?
            && r.deck == g.deck && r.discardPile == g.discardPile
            && (g.validActions[i].Skip? || g.validActions[i].Take? ==>
                  r.cards == g.cards && r.hands == g.hands && r.field == g.field
                  && r.fieldUsedSpots == g.fieldUsedSpots)
            && (g.validActions[i].AttackWith? ==> r.fieldUsedSpots == g.fieldUsedSpots + 1)
            && (g.validActions[i].DefendWith? ==> r.fieldUsedSpots == g.fieldUsedSpots))
  {
    if i < |g.validActions| {
      assert ActionInRange(g, g.validActions[i]);
    }
  }

  /** A card action moves exactly its card: out of the player's hand, into
      its slot, with every other slot, card and hand left as they were. */
  lemma ProcessActionMoves(g: Game, p: PlayerId, i: nat)
    requires OffersInRange(g) && (g.validActions != [] ==> p in g.hands)
    ensures
      var r := ProcessAction(g, p, i);
      i < |g.validActions| && (g.validActions[i].AttackWith? || g.validActions[i].DefendWith?) ==>
        var a := g.validActions[i];
        var slot := a.slot;
        && r.cards[a.cid].position == Slot(slot)
        && (a.AttackWith? ==> r.field[slot].attack == Some(a.cid) && r.field[slot].defense == g.field[slot].defense)
        && (a.DefendWith? ==> r.field[slot].defense == Some(a.cid) && r.field[slot].attack == g.field[slot].attack)
        && (forall s | 0 <= s < |g.field| && s != slot :: r.field[s] == g.field[s])
        && (forall c | 0 <= c < |g.cards| && c != a.cid :: r.cards[c] == g.cards[c])
        && (forall q | q in g.hands && q != p :: r.hands[q] == g.hands[q])
        && (a.cid in g.hands[p] ==> multiset(r.hands[p]) == multiset(g.hands[p]) - multiset{a.cid})
  {
    if i < |g.validActions| {
      var a := g.validActions[i];
      assert ActionInRange(g, a);
      if a.AttackWith? || a.DefendWith? {
        PlayCardMoves(g, p, a.cid, a.slot, a.DefendWith?);
      }
    }
  }

  /** Carrying out the action the awaited player chose, and striking that
      player off the waiting list it was queued on again, keeps the
      invariant. */
  lemma ProcessActionInv(g: Game, i: nat)
    requires Inv(g) && i < |g.validActions|
    ensures Inv(ProcessAction(g, g.playersActing[0], i).(playersActing := g.players))
  {
    var p := g.playersActing[0];
    var a := g.validActions[i];
    assert Applicable(g, p, a) && ActionInRange(g, a);
    PerformedInv(g, p, a);
  }

  /** The state `processAction` leaves after a published action, with the
      waiting list reset to the seats, keeps the invariant. */
  lemma PerformedInv(g: Game, p: PlayerId, a: Action)
    requires Shaped(g) && Conserved(g) && FieldOk(g) && p in g.hands && Applicable(g, p, a)
    ensures Inv(WaitForResponse(Perform(g, p, a).(validActions := []), g.players).(playersActing := g.players))
  {
    PerformInv(g, p, a);
    var acted := Perform(g, p, a).(validActions := []);
    ConservedFrame(Perform(g, p, a), acted);
    WaitKeepsInv(acted, g.players);
    var queued := WaitForResponse(acted, g.players);
    RequeueInv(queued, queued.(playersActing := g.players));
  }

  /** Queueing seated players keeps the invariant while nothing is on offer. */
  lemma WaitKeepsInv(g: Game, ps: seq<PlayerId>)
    requires Shaped(g) && Conserved(g) && FieldOk(g) && g.validActions == []
    requires forall q | q in ps :: q in g.players
    ensures Inv(WaitForResponse(g, ps))
  {
    var r := WaitForResponse(g, ps);
    ShapedFrame(g, r);
    ConservedFrame(g, r);
  }

  lemma PerformInv(g: Game, p: PlayerId, a: Action)
    requires Shaped(g) && Conserved(g) && FieldOk(g) && p in g.hands && Applicable(g, p, a)
    ensures ActionInRange(g, a)
    ensures Shaped(Perform(g, p, a).(validActions := []))
    ensures Conserved(Perform(g, p, a)) && FieldOk(Perform(g, p, a))
  {
    match a
    case AttackWith(cid, slot) => PlayInv(g, p, cid, slot, false);
    case DefendWith(cid, slot) => PlayInv(g, p, cid, slot, true);
    case Skip =>
      var r := Perform(g, p, a);
      ShapedFrame(g, r.(validActions := []));
      ConservedFrame(g, r);
    case Take =>
      var r := Perform(g, p, a);
      ShapedFrame(g, r.(validActions := []));
      ConservedFrame(g, r);
  }

  lemma PlayInv(g: Game, p: PlayerId, cid: CardId, slot: nat, asDefense: bool)
    requires Shaped(g) && Conserved(g) && FieldOk(g) && p in g.hands && cid in g.hands[p] && slot < |g.field|
    requires asDefense ==> g.field[slot].attack.Some? && g.field[slot].defense.None?
    requires !asDefense ==> slot == g.fieldUsedSpots && g.field[slot] == EmptySpot
    ensures
      var a := if asDefense then DefendWith(cid, slot) else AttackWith(cid, slot);
      && ActionInRange(g, a)
      && Shaped(Perform(g, p, a).(validActions := []))
      && Conserved(Perform(g, p, a)) && FieldOk(Perform(g, p, a))
  {
    HeldCardPosition(g, p, cid);
    PlayCardConserves(g, p, cid, slot, asDefense);
    var a := if asDefense then DefendWith(cid, slot) else AttackWith(cid, slot);
    var moved := PlayCard(g, p, cid, slot, asDefense);
    var r := Perform(g, p, a);
    assert r == moved.(fieldUsedSpots := r.fieldUsedSpots, stages := r.stages, skipCounter := r.skipCounter);
    ShapedFrame(moved, r.(validActions := []));
    ConservedFrame(moved, r);
    PlayFieldOk(g, cid, slot, asDefense, moved.field, r.fieldUsedSpots);
  }

  /** Filling the next free slot with an attack, or an unanswered slot with a
      defense, keeps the field discipline. */
  lemma PlayFieldOk(g: Game, cid: CardId, slot: nat, asDefense: bool, field: seq<FieldSpot>, used: nat)
    requires FieldOk(g) && slot < |g.field|
    requires asDefense ==> g.field[slot].attack.Some? && g.field[slot].defense.None? && used == g.fieldUsedSpots
    requires !asDefense ==> slot == g.fieldUsedSpots && g.field[slot] == EmptySpot && used == g.fieldUsedSpots + 1
    requires field == g.field[slot := if asDefense then g.field[slot].(defense := Some(cid))
                                      else g.field[slot].(attack := Some(cid))]
    ensures forall s | 0 <= s < |field| ::
      && (s >= used ==> field[s] == EmptySpot)
      && (field[s].defense.Some? ==> field[s].attack.Some?)
  {
  }

  // ---- recieveResponse ----

  /** The outcome of an event: the engine ignores it, waits for further
      responses, or goes on with `continueTurn` on the new state. */
  datatype Outcome = Ignored | Awaiting(g: Game) | Proceed(g: Game)

  /** `recieveResponse(player, action)` as written. A response from a player
      nobody waits for, or one without an action while actions are on offer,
      is ignored. Otherwise the action (if any) goes through `processAction`,
      the player is struck off the waiting list by its old index, and once
      the list is empty the timer stops and the turn continues. */
  function RespondAsWritten(g: Game, p: PlayerId, action: Option<nat>): (o: Outcome)
    requires OffersInRange(g) && (g.validActions != [] && p in g.playersActing ==> p in g.hands)
    ensures p !in g.playersActing ==> o.Ignored?
    ensures g.validActions != [] && action.None? ==> o.Ignored?
    ensures o.Proceed? ==> o.g.playersActing == [] && o.g.timer.None?
    ensures o.Awaiting? ==> o.g.playersActing != []
    ensures !o.Ignored? ==> o.g.players == g.players && o.g.deck == g.deck && o.g.attacker == g.attacker
  {
    var pi := IndexOf(g.playersActing, p);
    if pi == -1 then Ignored
    else if g.validActions != [] && action.None? then Ignored
    else
      var acted := if action.Some? then ProcessAction(g, p, action.value) else g;
      assert g.playersActing <= acted.playersActing;
      var left := acted.(playersActing := SpliceOne(acted.playersActing, pi));
      if left.playersActing == [] then Proceed(left.(timer := None)) else Awaiting(left)
  }

  /** `recieveResponse` with an action that is not on offer rejected like a
      missing one: the state is left as it was, the timer still running. */
  function Respond(g: Game, p: PlayerId, action: Option<nat>): (o: Outcome)
    requires OffersInRange(g) && (g.validActions != [] && p in g.playersActing ==> p in g.hands)
    ensures action.Some? && action.value >= |g.validActions| ==> o.Ignored?
    ensures p !in g.playersActing ==> o.Ignored?
    ensures g.validActions != [] && action.None? ==> o.Ignored?
    ensures !o.Ignored? ==> o == RespondAsWritten(g, p, action)
  {
    if action.Some? && action.value >= |g.validActions| then Ignored
    else RespondAsWritten(g, p, action)
  }

  /** A response to an action on offer comes from the one awaited player; it
      leaves everybody owing an acknowledgement, the player itself struck off
      once. An acknowledgement strikes the player off; the last one stops the
      timer and hands over to `continueTurn` with nothing on offer. */
  lemma RespondSpec(g: Game, p: PlayerId, action: Option<nat>)
    requires OffersInRange(g) && Protocol(g)
    ensures
      var o := Respond(g, p, action);
      && (o.Proceed? ==> Idle(o.g) && o.g.timer.None?)
      && (action.Some? && o.Awaiting? ==>
            p == g.playersActing[0] && o.g.playersActing == g.players && o.g.validActions == [])
      && (action.None? && !o.Ignored? ==>
            g.validActions == [] && multiset(o.g.playersActing) == multiset(g.playersActing) - multiset{p})
  {
    var o := Respond(g, p, action);
    var pi := IndexOf(g.playersActing, p);
    if !o.Ignored? {
      if action.Some? {
        assert |g.playersActing| == 1 && pi == 0;
        var acted := ProcessAction(g, p, action.value);
        assert acted.playersActing == g.playersActing + g.players;
        assert SpliceOne(acted.playersActing, 0) == g.players;
      } else {
        SpliceOneMultiset(g.playersActing, pi);
      }
    }
  }

  /** Every outcome of an accepted response keeps the invariant. */
  lemma RespondInv(g: Game, p: PlayerId, action: Option<nat>)
    requires Inv(g)
    ensures
      var o := Respond(g, p, action);
      !o.Ignored? ==> Inv(o.g) && o.g.players == g.players
  {
    var o := Respond(g, p, action);
    if !o.Ignored? {
      if action.Some? {
        ActionInv(g, p, action.value);
      } else {
        AcknowledgeInv(g, p);
      }
    }
  }

  /** An accepted action keeps the invariant. */
  lemma ActionInv(g: Game, p: PlayerId, i: nat)
    requires Inv(g) && i < |g.validActions| && p in g.playersActing
    ensures
      var o := Respond(g, p, Some(i));
      !o.Ignored? && Inv(o.g) && o.g.players == g.players
  {
    ProcessActionInv(g, i);
    ActionOutcome(g, p, i);
  }

  /** The one awaited player's accepted action is processed and the player
      struck off. */
  lemma ActionOutcome(g: Game, p: PlayerId, i: nat)
    requires Inv(g) && i < |g.validActions| && p in g.playersActing
    ensures Respond(g, p, Some(i)) == Awaiting(ProcessAction(g, g.playersActing[0], i).(playersActing := g.players))
  {
    assert g.playersActing == [p];
    ActionAwaits(g, p, i);
  }

  /** What an accepted action leads to: the processed state, the player
      struck off by its old index. */
  lemma ActionAwaits(g: Game, p: PlayerId, i: nat)
    requires OffersInRange(g) && p in g.hands && i < |g.validActions| && g.playersActing == [p] && g.players != []
    ensures Respond(g, p, Some(i)) == Awaiting(ProcessAction(g, p, i).(playersActing := g.players))
  {
    var acted := ProcessAction(g, p, i);
    assert IndexOf(g.playersActing, p) == 0;
    assert acted.playersActing == [p] + g.players;
    assert SpliceOne(acted.playersActing, 0) == g.players;
  }

  /** An accepted acknowledgement keeps the invariant. */
  lemma AcknowledgeInv(g: Game, p: PlayerId)
    requires Inv(g) && g.validActions == [] && p in g.playersActing
    ensures
      var o := Respond(g, p, None);
      !o.Ignored? && Inv(o.g) && o.g.players == g.players
  {
    var pi := IndexOf(g.playersActing, p);
    var left := g.(playersActing := SpliceOne(g.playersActing, pi));
    assert forall q | q in left.playersActing :: q in g.playersActing;
    RequeueInv(g, left);
    RequeueInv(left, left.(timer := None));
  }

  /** Changing the waiting list or stopping the timer with nothing on offer
      keeps the invariant. */
  lemma RequeueInv(g: Game, r: Game)
    requires Inv(g)
    requires r == g.(playersActing := r.playersActing, timer := r.timer)
    requires forall q | q in r.playersActing :: q in g.playersActing
    requires g.validActions == []
    ensures Inv(r)
  {
    ConservedFrame(g, r);
    assert CardsInRange(r);
  }

  /** With the timer already stopped and nothing left to wait for, the code
      as written also hands over to `continueTurn` when the action sent is
      not on offer, leaving that player's options published. */
  lemma RespondAsWrittenKeepsStaleOptions(g: Game, p: PlayerId, i: nat)
    requires OffersInRange(g) && g.validActions != [] && p in g.hands
    requires g.playersActing == [p] && i >= |g.validActions|
    ensures
      var o := RespondAsWritten(g, p, Some(i));
      o.Proceed? && !Idle(o.g) && o.g.validActions == g.validActions
  {
    assert SpliceOne([p], 0) == [];
  }

  // ---- The timer ----

  /** The default answer of a timed-out player: the first SKIP or TAKE on
      offer, otherwise the first action. */
  function DefaultActionIndex(acts: seq<Action>): (i: nat)
    requires acts != []
    ensures i < |acts|
    ensures (exists j | 0 <= j < |acts| :: acts[j] == Skip || acts[j] == Take) ==>
      (acts[i] == Skip || acts[i] == Take) && forall j | 0 <= j < i :: acts[j] != Skip && acts[j] != Take
    ensures (forall j | 0 <= j < |acts| :: acts[j] != Skip && acts[j] != Take) ==> i == 0
  {
    FirstPass(acts, 0)
  }

  /** The search of `DefaultActionIndex` from index `k`. */
  function FirstPass(acts: seq<Action>, k: nat): (i: nat)
    requires k <= |acts| && acts != []
    ensures i < |acts|
    ensures (exists j | k <= j < |acts| :: acts[j] == Skip || acts[j] == Take) ==>
      k <= i && (acts[i] == Skip || acts[i] == Take) && forall j | k <= j < i :: acts[j] != Skip && acts[j] != Take
    ensures (forall j | k <= j < |acts| :: acts[j] != Skip && acts[j] != Take) ==> i == 0
    decreases |acts| - k
  {
    if k == |acts| then 0
    else if acts[k] == Skip || acts[k] == Take then k
    else FirstPass(acts, k + 1)
  }

  /** The timer's callback. With actions on offer, the first awaited player
      is made to play the default one and is struck off the waiting list
      (after `processAction` queued every player); otherwise the waiting
      list and options are cleared and the turn continues. */
  function Timeout(g: Game): (o: Outcome)
    requires OffersInRange(g) && (g.validActions != [] ==> g.playersActing != [] && g.playersActing[0] in g.hands)
    ensures !o.Ignored?
  {
    if g.validActions != [] then
      var acted := ProcessAction(g, g.playersActing[0], DefaultActionIndex(g.validActions));
      assert acted.playersActing == g.playersActing + g.players;
      Awaiting(acted.(playersActing := acted.playersActing[1..]))
    else Proceed(g.(playersActing := [], validActions := []))
  }

  /** A time-out with actions on offer plays SKIP or TAKE when offered, and
      leaves every player owing an acknowledgement; without actions on offer
      it hands over to `continueTurn` with nobody awaited. Either way the
      invariant is kept. */
  lemma TimeoutSpec(g: Game)
    requires Inv(g)
    ensures
      var o := Timeout(g);
      && Inv(o.g) && o.g.players == g.players
      && (o.Proceed? <==> g.validActions == [])
      && (o.Proceed? ==> Idle(o.g))
      && (o.Awaiting? ==> o.g.playersActing == g.players && o.g.validActions == [] && o.g.timer.Some?)
  {
    var o := Timeout(g);
    if g.validActions != [] {
      ProcessActionInv(g, DefaultActionIndex(g.validActions));
      TimeoutPlays(g);
    } else {
      RequeueInv(g, o.g);
    }
  }
  /** With actions on offer, the timeout plays the default one for the
      awaited player and strikes that player off. */
  lemma TimeoutPlays(g: Game)
    requires OffersInRange(g) && g.validActions != [] && |g.playersActing| == 1 && g.playersActing[0] in g.hands
    ensures
      var acted := ProcessAction(g, g.playersActing[0], DefaultActionIndex(g.validActions));
      Timeout(g) == Awaiting(acted.(playersActing := g.players))
  {
    var acted := ProcessAction(g, g.playersActing[0], DefaultActionIndex(g.validActions));
    assert acted.playersActing == g.playersActing + g.players;
    assert acted.playersActing[1..] == g.players;
  }

}

=== FILE: roles.dfy ===
/** Who plays the next turn (serverjs/gamelogic.js `findPlayerToGoFirst` and
    `findPlayerToGoNext`): the holder of the lowest trump opens the match;
    later turns pass along the seats of the players still in the game, and a
    player whose hand is empty once the deck is exhausted leaves the game. */
module Roles {
  import opened Util
  import opened Cards

  /** `attacker`, `defender` and `ally` of a turn. */
  datatype Roles = Roles(attacker: PlayerId, defender: PlayerId, ally: Option<PlayerId>)

  // ---- The opening turn ----

  /** An entry of `minTCards`: the lowest trump value in player `pid`'s hand. */
  datatype MinTrump = MinTrump(pid: PlayerId, value: int)

  /** Every seated player has a hand whose ids index the card table. */
  ghost predicate HandsInRange(players: seq<PlayerId>, hands: map<PlayerId, seq<CardId>>, cards: seq<Card>) {
    forall p | p in players :: p in hands && IdsInRange(cards, hands[p])
  }

  /** Some card of `hand` is a trump. */
  ghost predicate HoldsTrump(cards: seq<Card>, hand: seq<CardId>, trumpSuit: int)
    requires IdsInRange(cards, hand)
  {
    exists i | 0 <= i < |hand| :: cards[hand[i]].suit == trumpSuit
  }

  /** The inner loop of `findPlayerToGoFirst` for one hand: the lowest trump
      value, taking a card only when it is strictly lower than `best` so far;
      `best` itself when no trump is lower. */
  function LowestTrump(cards: seq<Card>, hand: seq<CardId>, trumpSuit: int, best: int): (r: int)
    requires IdsInRange(cards, hand)
    ensures r <= best
    ensures forall i | 0 <= i < |hand| && cards[hand[i]].suit == trumpSuit :: r <= cards[hand[i]].value
    ensures r == best || exists i | 0 <= i < |hand| :: cards[hand[i]].suit == trumpSuit && cards[hand[i]].value == r
  {
    if hand == [] then best
    else
      var card := cards[hand[0]];
      var best' := if card.suit == trumpSuit && card.value < best then card.value else best;
      var r := LowestTrump(cards, hand[1..], trumpSuit, best');
      assert forall i | 1 <= i < |hand| :: hand[1..][i - 1] == hand[i];
      r
  }

  /** The hand's lowest trump value, starting the search from
      `maxCardValue + 1`. */
  function Low(cards: seq<Card>, hand: seq<CardId>, trumpSuit: int): int
    requires IdsInRange(cards, hand)
  {
    LowestTrump(cards, hand, trumpSuit, MaxCardValue + 1)
  }

  /** When no card is above the ace, the search finds a value at most
      `maxCardValue` exactly when the hand holds a trump. */
  lemma LowFound(cards: seq<Card>, hand: seq<CardId>, trumpSuit: int)
    requires IdsInRange(cards, hand)
    requires forall c | 0 <= c < |cards| :: cards[c].value <= MaxCardValue
    ensures Low(cards, hand, trumpSuit) <= MaxCardValue <==> HoldsTrump(cards, hand, trumpSuit)
  {
    if HoldsTrump(cards, hand, trumpSuit) {
      var i :| 0 <= i < |hand| && cards[hand[i]].suit == trumpSuit;
      assert Low(cards, hand, trumpSuit) <= cards[hand[i]].value;
    }
  }

  /** `minTCards`: one entry per player whose search found a trump, in seat
      order. */
  function MinTrumps(players: seq<PlayerId>, hands: map<PlayerId, seq<CardId>>, cards: seq<Card>, trumpSuit: int): (ms: seq<MinTrump>)
    requires HandsInRange(players, hands, cards)
    ensures |ms| <= |players|
    ensures forall i | 0 <= i < |ms| ::
      ms[i].pid in players && ms[i].value == Low(cards, hands[ms[i].pid], trumpSuit) && ms[i].value <= MaxCardValue
    ensures forall p | p in players && Low(cards, hands[p], trumpSuit) <= MaxCardValue ::
      MinTrump(p, Low(cards, hands[p], trumpSuit)) in ms
  {
    if players == [] then []
    else
      var p := players[0];
      var v := Low(cards, hands[p], trumpSuit);
      var rest := MinTrumps(players[1..], hands, cards, trumpSuit);
      assert forall q | q in players :: q == p || q in players[1..];
      if v <= MaxCardValue then [MinTrump(p, v)] + rest else rest
  }

  /** The second loop of `findPlayerToGoFirst`: the first entry with the
      smallest value, replacing the running minimum only when strictly lower,
      which starts out as `maxCardValue + 1` with no player. */
  function LowestEntry(ms: seq<MinTrump>, best: Option<MinTrump>): (r: Option<MinTrump>)
    ensures r.Some? <==> best.Some? || exists i | 0 <= i < |ms| :: ms[i].value <= MaxCardValue
    ensures r.Some? ==> r == best || r.value in ms
    ensures best.Some? ==> r.Some? && r.value.value <= best.value.value
    ensures r.Some? ==> forall i | 0 <= i < |ms| :: r.value.value <= ms[i].value || ms[i].value > MaxCardValue
  {
    if ms == [] then best
    else
      var bestValue := if best.Some? then best.value.value else MaxCardValue + 1;
      var best' := if ms[0].value < bestValue then Some(ms[0]) else best;
      var r := LowestEntry(ms[1..], best');
      assert forall i | 1 <= i < |ms| :: ms[1..][i - 1] == ms[i];
      r
  }

  /** What `findPlayerToGoFirst` decides. */
  datatype FirstTurn =
    | ByTrump(roles: Roles, shown: seq<MinTrump>)  // announced, then await every player
    | ByDefault(roles: Roles)                      // nobody holds a trump: seats 0, 1, 2
    | NoThirdSeat                                  // nobody holds a trump and `players[2]` is missing

  /** The seat after seat `i` of `n`, wrapping round to seat 0. */
  function NextSeat(i: nat, n: nat): (j: nat)
    requires i < n
    ensures j < n && (n >= 2 ==> j != i)
  {
    if i + 1 < n then i + 1 else 0
  }

  /** The roles around the seat `pi`: the next seat defends, the one after
      helps when more than two players are active, each wrapping round to
      seat 0. */
  function SeatRoles(players: seq<PlayerId>, pi: nat, activeCount: nat, ally: Option<PlayerId>): (r: Roles)
    requires pi < |players| && (activeCount > 2 ==> |players| > 2)
    ensures r.attacker == players[pi] && r.defender == players[NextSeat(pi, |players|)]
    ensures activeCount > 2 ==> r.ally == Some(players[NextSeat(NextSeat(pi, |players|), |players|)])
    ensures activeCount <= 2 ==> r.ally == ally
  {
    var n := |players|;
    var defender := if pi + 1 < n then players[pi + 1] else players[0];
    var ally' :=
      if activeCount > 2 then
        Some(if pi + 2 < n then players[pi + 2] else if pi + 1 < n then players[0] else players[1])
      else ally;
    Roles(players[pi], defender, ally')
  }

  /** `findPlayerToGoFirst` as written. */
  function GoFirst(players: seq<PlayerId>, activeCount: nat, hands: map<PlayerId, seq<CardId>>,
                   cards: seq<Card>, trumpSuit: int, ally: Option<PlayerId>): (r: FirstTurn)
    requires HandsInRange(players, hands, cards)
    requires activeCount > 2 ==> |players| > 2
    ensures r.NoThirdSeat? ==> |players| < 3
    ensures r.ByDefault? ==> |players| >= 3 && r.roles == Roles(players[0], players[1], Some(players[2]))
    ensures r.ByTrump? ==> r.shown != [] && r.roles.attacker in players && r.roles.defender in players
  {
    var ms := MinTrumps(players, hands, cards, trumpSuit);
    if ms != [] then
      assert ms[0].value <= MaxCardValue;
      var m := LowestEntry(ms, None).value;
      assert m.pid in players;
      var pi := IndexOf(players, m.pid);
      ByTrump(SeatRoles(players, pi, activeCount, ally), ms)
    else if |players| < 3 then NoThirdSeat
    else ByDefault(Roles(players[0], players[1], Some(players[2])))
  }

  /** Some seated player holds a trump. */
  ghost predicate TrumpDealt(players: seq<PlayerId>, hands: map<PlayerId, seq<CardId>>, cards: seq<Card>, trumpSuit: int)
    requires HandsInRange(players, hands, cards)
  {
    exists p | p in players :: HoldsTrump(cards, hands[p], trumpSuit)
  }

  /** The opening attacker holds a trump and no player's lowest trump is
      lower than its lowest; without any trump dealt seats 0, 1 and 2 play,
      which needs a third seat. */
  lemma GoFirstSpec(players: seq<PlayerId>, activeCount: nat, hands: map<PlayerId, seq<CardId>>,
                    cards: seq<Card>, trumpSuit: int, ally: Option<PlayerId>)
    requires HandsInRange(players, hands, cards)
    requires activeCount > 2 ==> |players| > 2
    requires forall c | 0 <= c < |cards| :: cards[c].value <= MaxCardValue
    ensures
      var r := GoFirst(players, activeCount, hands, cards, trumpSuit, ally);
      && (r.ByTrump? <==> TrumpDealt(players, hands, cards, trumpSuit))
      && (r.NoThirdSeat? <==> !TrumpDealt(players, hands, cards, trumpSuit) && |players| < 3)
      && (r.ByTrump? ==>
            var a := r.roles.attacker;
            && a in players && HoldsTrump(cards, hands[a], trumpSuit)
            && forall p | p in players && HoldsTrump(cards, hands[p], trumpSuit) ::
                 Low(cards, hands[a], trumpSuit) <= Low(cards, hands[p], trumpSuit))
  {
    var ms := MinTrumps(players, hands, cards, trumpSuit);
    if TrumpDealt(players, hands, cards, trumpSuit) {
      var p :| p in players && HoldsTrump(cards, hands[p], trumpSuit);
      LowFound(cards, hands[p], trumpSuit);
      assert MinTrump(p, Low(cards, hands[p], trumpSuit)) in ms;
    }
    if ms != [] {
      var m := LowestEntry(ms, None).value;
      var a := m.pid;
      LowFound(cards, hands[a], trumpSuit);
      forall p | p in players && HoldsTrump(cards, hands[p], trumpSuit)
        ensures m.value <= Low(cards, hands[p], trumpSuit)
      {
        LowFound(cards, hands[p], trumpSuit);
        assert MinTrump(p, Low(cards, hands[p], trumpSuit)) in ms;
      }
    }
  }

  /** With two players and no trump dealt, `findPlayerToGoFirst` reads
      `players[2].id` of a seat that does not exist. */
  lemma GoFirstWithoutTrumpNeedsThreeSeats()
    ensures GoFirst([7, 8], 2, map[7 := [0], 8 := [1]], [Card(6, 0, Held(7)), Card(7, 0, Held(8))], 1, None).NoThirdSeat?
  {
    assert MinTrumps([7, 8], map[7 := [0], 8 := [1]], [Card(6, 0, Held(7)), Card(7, 0, Held(8))], 1) == [];
  }

  /** The intended default without a trump: seat 0 attacks, seat 1 defends,
      and seat 2 helps only when there is one. */
  function GoFirstFixed(players: seq<PlayerId>, activeCount: nat, hands: map<PlayerId, seq<CardId>>,
                        cards: seq<Card>, trumpSuit: int, ally: Option<PlayerId>): (r: FirstTurn)
    requires |players| >= 2
    requires HandsInRange(players, hands, cards)
    requires activeCount > 2 ==> |players| > 2
    ensures !r.NoThirdSeat?
    ensures r.ByDefault? ==> r.roles.attacker == players[0] && r.roles.defender == players[1]
    ensures r.ByDefault? ==> (r.roles.ally.Some? <==> |players| > 2)
    ensures |players| > 2 ==> r == GoFirst(players, activeCount, hands, cards, trumpSuit, ally)
    ensures r.roles.attacker in players && r.roles.defender in players
    ensures r.roles.ally.Some? ==> r.roles.ally.value in players || r.roles.ally == ally
  {
    match GoFirst(players, activeCount, hands, cards, trumpSuit, ally)
    case NoThirdSeat => ByDefault(Roles(players[0], players[1], None))
    case other => other
  }

  // ---- Later turns ----

  /** JavaScript's `a[i]` on an array of ids: the id, or `undefined` (`None`)
      when the index is out of range. */
  function At(a: seq<PlayerId>, i: int): (r: Option<PlayerId>)
    ensures r.Some? <==> 0 <= i < |a|
    ensures r.Some? ==> r.value == a[i]
  {
    if 0 <= i < |a| then Some(a[i]) else None
  }

  /** The elimination loop of `findPlayerToGoNext` as written: seats `pi-1`
      down to 0 of `activePlayers`; an empty hand is spliced out and the
      attacker's index `ai` is adjusted with `ai = newai - 1`, or moved to the
      end when the attacker itself was last in the list. */
  function EliminateAsWritten(active: seq<PlayerId>, hands: map<PlayerId, seq<CardId>>, attacker: Option<PlayerId>,
                              ai: int, pi: nat): (r: (seq<PlayerId>, int))
    requires pi <= |active| && forall p | p in active :: p in hands
    ensures forall p | p in r.0 :: p in active
    ensures |r.0| <= |active|
    ensures ai >= -1 ==> r.1 >= -1
    decreases pi
  {
    if pi == 0 then (active, ai)
    else
      var i := pi - 1;
      if |hands[active[i]]| == 0 then
        var active' := active[..i] + active[i + 1..];
        var newai := if attacker.Some? then IndexOf(active', attacker.value) else -1;
        var ai' :=
          if At(active', ai) != attacker then
            if newai != -1 then newai - 1
            else if At(active', ai).None? then |active'| - 1
            else ai
          else ai;
        var r := EliminateAsWritten(active', hands, attacker, ai', i);
        assert forall p | p in active' :: p in active;
        r
      else EliminateAsWritten(active, hands, attacker, ai, i)
  }

  /** What `findPlayerToGoNext` returns: `false` with the players left, or
      `true` with the new roles. */
  datatype NextTurn =
    | GameEnds(active: seq<PlayerId>)
    | Continues(active: seq<PlayerId>, roles: Roles)
    | Unseated(active: seq<PlayerId>)  // fewer than two seats with cards still in the deck: the picks read past the list

  /** The role picks of `findPlayerToGoNext` from index `ai`: the three seats
      after it, each falling back to the front of the list. */
  function PickAsWritten(active: seq<PlayerId>, ai: int): (r: Roles)
    requires |active| >= 2 && ai >= -1
    ensures r.attacker in active && r.defender in active
    ensures r.ally.Some? <==> |active| > 2
    ensures r.ally.Some? ==> r.ally.value in active
  {
    var attacker := At(active, ai + 1);
    var defender := At(active, ai + 2);
    var ally := At(active, ai + 3);
    Roles(
      attacker.GetOr(active[0]),
      if defender.Some? then defender.value else if attacker.Some? then active[0] else active[1],
      if |active| > 2 then
        Some(if ally.Some? then ally.value else if defender.Some? then active[0]
             else if attacker.Some? then active[1] else active[2])
      else None)
  }

  /** `activePlayers.indexOf(attacker)`, -1 without an attacker. */
  function AttackerIndex(active: seq<PlayerId>, attacker: Option<PlayerId>): (ai: int)
    ensures -1 <= ai < |active|
    ensures ai >= 0 <==> attacker.Some? && attacker.value in active
    ensures ai >= 0 ==> active[ai] == attacker.value
  {
    if attacker.Some? then IndexOf(active, attacker.value) else -1
  }

  /** `findPlayerToGoNext` as written. */
  function GoNextAsWritten(active: seq<PlayerId>, hands: map<PlayerId, seq<CardId>>, deckEmpty: bool,
                           attacker: Option<PlayerId>): (r: NextTurn)
    requires forall p | p in active :: p in hands
    ensures !deckEmpty ==> r.active == active
    ensures r.GameEnds? <==> deckEmpty && |r.active| < 2
  {
    var ai := AttackerIndex(active, attacker);
    var left := if deckEmpty then EliminateAsWritten(active, hands, attacker, ai, |active|) else (active, ai);
    if |left.0| < 2 then (if deckEmpty then GameEnds(left.0) else Unseated(left.0))
    else Continues(left.0, PickAsWritten(left.0, left.1))
  }

  // ---- The intended rule ----

  /** The players still in the game: with the deck exhausted, those whose
      hand is not empty, in seat order. */
  function Survivors(active: seq<PlayerId>, hands: map<PlayerId, seq<CardId>>, deckEmpty: bool): (s: seq<PlayerId>)
    requires forall p | p in active :: p in hands
    ensures forall p | p in s :: p in active
    ensures |s| <= |active|
  {
    if !deckEmpty || active == [] then active
    else
      var rest := Survivors(active[1..], hands, deckEmpty);
      assert forall p | p in active :: p == active[0] || p in active[1..];
      if |hands[active[0]]| > 0 then [active[0]] + rest else rest
  }

  /** Exactly the active players with cards survive, or all of them while
      the deck still holds cards. */
  lemma {:induction false} SurvivorsMembers(active: seq<PlayerId>, hands: map<PlayerId, seq<CardId>>, deckEmpty: bool)
    requires forall p | p in active :: p in hands
    ensures forall p :: p in Survivors(active, hands, deckEmpty) <==> p in active && (deckEmpty ==> |hands[p]| > 0)
  {
    if deckEmpty && active != [] {
      SurvivorsMembers(active[1..], hands, deckEmpty);
      assert forall p | p in active :: p == active[0] || p in active[1..];
    }
  }

  /** Leaving players out keeps the seats distinct. */
  lemma {:induction false} SurvivorsNoDup(active: seq<PlayerId>, hands: map<PlayerId, seq<CardId>>, deckEmpty: bool)
    requires forall p | p in active :: p in hands
    requires NoDup(active)
    ensures NoDup(Survivors(active, hands, deckEmpty))
  {
    if deckEmpty && active != [] {
      SurvivorsNoDup(active[1..], hands, deckEmpty);
      var rest := Survivors(active[1..], hands, deckEmpty);
      assert active[0] !in active[1..];
      assert active[0] !in rest;
    }
  }

  /** The seats after the previous attacker, wrapping round, the previous
      attacker itself last (the whole list when there is none). */
  function After(active: seq<PlayerId>, attacker: Option<PlayerId>): (order: seq<PlayerId>)
    ensures multiset(order) == multiset(active)
  {
    var i := AttackerIndex(active, attacker) + 1;
    var order := active[i..] + active[..i];
    assert active == active[..i] + active[i..];
    assert multiset(order) == multiset(active[i..]) + multiset(active[..i]);
    order
  }

  /** The position of the first element of `order` that is in `s`;
      `|order|` when there is none. */
  function FirstIn(order: seq<PlayerId>, s: seq<PlayerId>): (k: nat)
    ensures k <= |order|
    ensures k < |order| ==> order[k] in s
    ensures forall j | 0 <= j < k :: order[j] !in s
  {
    if order == [] || order[0] in s then 0
    else
      var k := FirstIn(order[1..], s);
      assert forall j | 1 <= j < |order| :: order[1..][j - 1] == order[j];
      k + 1
  }

  /** `findPlayerToGoNext` as its comments describe it: the game ends when
      fewer than two players are left; otherwise the first remaining player
      after the previous attacker attacks, the next remaining seat defends,
      and the one after helps when more than two are left. */
  function GoNext(active: seq<PlayerId>, hands: map<PlayerId, seq<CardId>>, deckEmpty: bool,
                  attacker: Option<PlayerId>): (r: NextTurn)
    requires forall p | p in active :: p in hands
    ensures r.active == Survivors(active, hands, deckEmpty)
    ensures r.GameEnds? <==> |r.active| < 2
    ensures !r.Unseated?
    ensures r.Continues? ==>
      var s := r.active;
      var k := IndexOf(s, r.roles.attacker);
      && r.roles.attacker == NextAttacker(active, attacker, s)
      && 0 <= k < |s|
      && r.roles.defender == s[NextSeat(k, |s|)]
      && (|s| > 2 ==> r.roles.ally == Some(s[NextSeat(NextSeat(k, |s|), |s|)]))
      && (|s| <= 2 ==> r.roles.ally == None)
  {
    var s := Survivors(active, hands, deckEmpty);
    if |s| < 2 then GameEnds(s)
    else
      var next := NextAttacker(active, attacker, s);
      Continues(s, SeatRoles(s, IndexOf(s, next), |s|, None))
  }

  /** The first player of `s` in the seats after `attacker`. */
  function NextAttacker(active: seq<PlayerId>, attacker: Option<PlayerId>, s: seq<PlayerId>): (next: PlayerId)
    requires s != [] && forall p | p in s :: p in active
    ensures next in s
  {
    var order := After(active, attacker);
    assert s[0] in s && s[0] in active;
    assert s[0] in multiset(order);
    order[FirstIn(order, s)]
  }

  /** The intended rule's roles are players still in the game sitting next
      to each other, pairwise different when the seating has no repeats, the
      ally present exactly when more than two remain. */
  lemma GoNextRoles(active: seq<PlayerId>, hands: map<PlayerId, seq<CardId>>, deckEmpty: bool, attacker: Option<PlayerId>)
    requires forall p | p in active :: p in hands
    requires NoDup(active)
    ensures
      var r := GoNext(active, hands, deckEmpty, attacker);
      r.Continues? ==>
        var s := r.active;
        var k := IndexOf(s, r.roles.attacker);
        && 0 <= k < |s|
        && r.roles.defender == s[NextSeat(k, |s|)] && r.roles.defender != r.roles.attacker
        && (r.roles.ally.Some? <==> |s| > 2)
        && (r.roles.ally.Some? ==>
              r.roles.ally.value == s[NextSeat(NextSeat(k, |s|), |s|)]
              && r.roles.ally.value != r.roles.attacker && r.roles.ally.value != r.roles.defender)
  {
    var s := Survivors(active, hands, deckEmpty);
    SurvivorsNoDup(active, hands, deckEmpty);
    if |s| >= 2 {
      var r := GoNext(active, hands, deckEmpty, attacker);
      var k := IndexOf(s, r.roles.attacker);
      var k1 := NextSeat(k, |s|);
      assert s[k1] != s[k];
      if |s| > 2 {
        var k2 := NextSeat(k1, |s|);
        assert k2 != k;
        assert s[k2] != s[k] && s[k2] != s[k1];
      }
    }
  }

  /** The turn passes on: when the previous attacker is still in the game
      and at least two players remain, somebody else attacks. */
  lemma GoNextMovesOn(active: seq<PlayerId>, hands: map<PlayerId, seq<CardId>>, deckEmpty: bool, a: PlayerId)
    requires forall p | p in active :: p in hands
    requires NoDup(active) && a in active
    ensures
      var r := GoNext(active, hands, deckEmpty, Some(a));
      r.Continues? ==> r.roles.attacker != a
  {
    var s := Survivors(active, hands, deckEmpty);
    SurvivorsNoDup(active, hands, deckEmpty);
    if |s| >= 2 {
      var other := if s[0] != a then s[0] else s[1];
      assert other != a && other in s;
      NextAttackerMovesOn(active, a, s, other);
    }
  }

  /** Somebody in `s` other than `a` comes before `a` in the seats after
      `a`. */
  lemma NextAttackerMovesOn(active: seq<PlayerId>, a: PlayerId, s: seq<PlayerId>, other: PlayerId)
    requires NoDup(active) && a in active
    requires s != [] && forall p | p in s :: p in active
    requires other in s && other != a
    ensures NextAttacker(active, Some(a), s) != a
  {
    var order := After(active, Some(a));
    assert order[|order| - 1] == a;
    assert other in multiset(order);
    var j :| 0 <= j < |order| && order[j] == other;
    assert FirstIn(order, s) <= j;
  }

  /** While nobody leaves the game, the code as written and the intended
      rule pick the same roles: the seat after the previous attacker
      attacks. */
  lemma GoNextAgreesWithoutEliminations(active: seq<PlayerId>, hands: map<PlayerId, seq<CardId>>, deckEmpty: bool,
                                        attacker: Option<PlayerId>)
    requires forall p | p in active :: p in hands
    requires NoDup(active) && |active| >= 2
    requires deckEmpty ==> forall p | p in active :: |hands[p]| > 0
    ensures GoNextAsWritten(active, hands, deckEmpty, attacker) == GoNext(active, hands, deckEmpty, attacker)
  {
    var ai := AttackerIndex(active, attacker);
    var k := if ai + 1 < |active| then ai + 1 else 0;
    AsWrittenKeepsSeats(active, hands, deckEmpty, attacker);
    IntendedKeepsSeats(active, hands, deckEmpty, attacker);
    PickAsWrittenIsNextSeat(active, ai);
  }

  /** While nobody leaves the game, the code as written keeps every active
      player and continues, and the intended rule makes the same choice. */
  lemma KeepsSeatsAgree(active: seq<PlayerId>, hands: map<PlayerId, seq<CardId>>, deckEmpty: bool,
                        attacker: Option<PlayerId>)
    requires forall p | p in active :: p in hands
    requires NoDup(active) && |active| >= 2
    requires deckEmpty ==> forall p | p in active :: |hands[p]| > 0
    ensures
      var code := GoNextAsWritten(active, hands, deckEmpty, attacker);
      code.Continues? && code.active == active && GoNext(active, hands, deckEmpty, attacker) == code
  {
    AsWrittenKeepsSeats(active, hands, deckEmpty, attacker);
    GoNextAgreesWithoutEliminations(active, hands, deckEmpty, attacker);
  }

  /** Without eliminations the code picks from the unchanged list. */
  lemma AsWrittenKeepsSeats(active: seq<PlayerId>, hands: map<PlayerId, seq<CardId>>, deckEmpty: bool,
                            attacker: Option<PlayerId>)
    requires forall p | p in active :: p in hands
    requires |active| >= 2
    requires deckEmpty ==> forall p | p in active :: |hands[p]| > 0
    ensures GoNextAsWritten(active, hands, deckEmpty, attacker)
         == Continues(active, PickAsWritten(active, AttackerIndex(active, attacker)))
  {
    if deckEmpty {
      NoEliminations(active, hands, attacker, AttackerIndex(active, attacker), |active|);
    }
  }

  /** Without eliminations the intended rule hands the attack to the seat
      after the previous attacker. */
  lemma IntendedKeepsSeats(active: seq<PlayerId>, hands: map<PlayerId, seq<CardId>>, deckEmpty: bool,
                           attacker: Option<PlayerId>)
    requires forall p | p in active :: p in hands
    requires NoDup(active) && |active| >= 2
    requires deckEmpty ==> forall p | p in active :: |hands[p]| > 0
    ensures
      var ai := AttackerIndex(active, attacker);
      GoNext(active, hands, deckEmpty, attacker)
        == Continues(active, SeatRoles(active, if ai + 1 < |active| then ai + 1 else 0, |active|, None))
  {
    SurvivorsAll(active, hands, deckEmpty);
    var ai := AttackerIndex(active, attacker);
    var k := if ai + 1 < |active| then ai + 1 else 0;
    NextAttackerOfAll(active, attacker);
    NoDupIndexOf(active, k);
    var next := NextAttacker(active, attacker, active);
    assert IndexOf(active, next) == k;
    assert GoNext(active, hands, deckEmpty, attacker) == Continues(active, SeatRoles(active, IndexOf(active, next), |active|, None));
  }

  /** With nobody left out, the seat after the previous attacker attacks. */
  lemma NextAttackerOfAll(active: seq<PlayerId>, attacker: Option<PlayerId>)
    requires active != []
    ensures
      var ai := AttackerIndex(active, attacker);
      NextAttacker(active, attacker, active) == active[if ai + 1 < |active| then ai + 1 else 0]
  {
    var i := AttackerIndex(active, attacker) + 1;
    AfterRotates(active, attacker);
    RotationHead(active, i);
    FirstInHead(After(active, attacker), active);
  }

  lemma AfterRotates(active: seq<PlayerId>, attacker: Option<PlayerId>)
    ensures
      var i := AttackerIndex(active, attacker) + 1;
      After(active, attacker) == active[i..] + active[..i]
  {
  }

  lemma FirstInHead(order: seq<PlayerId>, s: seq<PlayerId>)
    requires order != [] && order[0] in s
    ensures FirstIn(order, s) == 0
  {
  }

  /** The rotation starting at seat `i` begins with that seat, or with the
      first one when `i` is past the end. */
  lemma RotationHead(s: seq<PlayerId>, i: nat)
    requires s != [] && i <= |s|
    ensures (s[i..] + s[..i])[0] == s[if i < |s| then i else 0]
    ensures (s[i..] + s[..i])[0] in s
  {
    if i == |s| {
      assert s[i..] + s[..i] == s;
    }
  }

  /** The code's fallbacks to the front of the list are the wrap-around of
      `SeatRoles`. */
  lemma PickAsWrittenIsNextSeat(active: seq<PlayerId>, ai: int)
    requires |active| >= 2 && -1 <= ai < |active|
    ensures PickAsWritten(active, ai) == SeatRoles(active, if ai + 1 < |active| then ai + 1 else 0, |active|, None)
  {
  }

  lemma {:induction false} NoEliminations(active: seq<PlayerId>, hands: map<PlayerId, seq<CardId>>, attacker: Option<PlayerId>, ai: int, pi: nat)
    requires pi <= |active| && forall p | p in active :: p in hands && |hands[p]| > 0
    ensures EliminateAsWritten(active, hands, attacker, ai, pi) == (active, ai)
    decreases pi
  {
    if pi > 0 {
      NoEliminations(active, hands, attacker, ai, pi - 1);
    }
  }

  lemma SurvivorsAll(active: seq<PlayerId>, hands: map<PlayerId, seq<CardId>>, deckEmpty: bool)
    requires forall p | p in active :: p in hands
    requires deckEmpty ==> forall p | p in active :: |hands[p]| > 0
    ensures Survivors(active, hands, deckEmpty) == active
  {
    if deckEmpty && active != [] {
      SurvivorsAll(active[1..], hands, deckEmpty);
    }
  }

  lemma NoDupIndexOf(s: seq<PlayerId>, k: nat)
    requires NoDup(s) && k < |s|
    ensures IndexOf(s, s[k]) == k
  {
  }

  // ---- The discrepancy ----

  /** Three players, B attacked last; A has run out of cards with the deck
      empty. The code splices A out, finds B at index 0 and sets `ai = -1`,
      so B attacks again. */
  lemma GoNextRepeatsAttacker()
    ensures GoNextAsWritten([1, 2, 3], map[1 := [], 2 := [10], 3 := [11]], true, Some(2))
         == Continues([2, 3], Roles(2, 3, None))
  {
    RepeatsAttackerLoop();
  }

  /** In the same position the intended rule gives the attack to C. */
  lemma GoNextPassesAttack()
    ensures GoNext([1, 2, 3], map[1 := [], 2 := [10], 3 := [11]], true, Some(2))
         == Continues([2, 3], Roles(3, 2, None))
  {
    RepeatsAttackerSurvivors();
    RepeatsAttackerNext();
    assert IndexOf([2, 3], 3) == 1;
  }

  lemma RepeatsAttackerNext()
    ensures NextAttacker([1, 2, 3], Some(2), [2, 3]) == 3
  {
    var active := [1, 2, 3];
    assert IndexOf(active, 2) == 1 by {
      assert active[0] != 2 && active[1] == 2;
    }
    AfterRotates(active, Some(2));
    assert After(active, Some(2))[0] == 3;
    FirstInHead(After(active, Some(2)), [2, 3]);
  }

  lemma RepeatsAttackerLoop()
    ensures EliminateAsWritten([1, 2, 3], map[1 := [], 2 := [10], 3 := [11]], Some(2), 1, 3) == ([2, 3], -1)
  {
    var hands := map[1 := [], 2 := [10], 3 := [11]];
    assert [1, 2, 3][..0] + [1, 2, 3][1..] == [2, 3];
    assert IndexOf([2, 3], 2) == 0;
    assert EliminateAsWritten([1, 2, 3], hands, Some(2), 1, 1) == EliminateAsWritten([2, 3], hands, Some(2), -1, 0);
  }

  lemma RepeatsAttackerSurvivors()
    ensures Survivors([1, 2, 3], map[1 := [], 2 := [10], 3 := [11]], true) == [2, 3]
  {
    var hands := map[1 := [], 2 := [10], 3 := [11]];
    SurvivorsStep(3, [], hands);
    assert [3] + [] == [3];
    assert Survivors([3], hands, true) == [3];
    SurvivorsStep(2, [3], hands);
    assert [2] + [3] == [2, 3];
    assert Survivors([2, 3], hands, true) == [2, 3];
    SurvivorsStep(1, [2, 3], hands);
    assert [1] + [2, 3] == [1, 2, 3];
  }

  /** Four players, B attacked last and has itself run out of cards with the
      deck empty, from a seat that is not the last. `ai` is left pointing at
      C, so D attacks and the seat after B is passed over. */
  lemma GoNextSkipsSuccessor()
    ensures GoNextAsWritten([1, 2, 3, 4], map[1 := [10], 2 := [], 3 := [11], 4 := [12]], true, Some(2))
         == Continues([1, 3, 4], Roles(4, 1, Some(3)))
  {
    SkipsSuccessorLoop();
  }

  /** In the same position the intended rule gives the attack to C, the
      first remaining seat after B. */
  lemma GoNextKeepsSuccessor()
    ensures GoNext([1, 2, 3, 4], map[1 := [10], 2 := [], 3 := [11], 4 := [12]], true, Some(2))
         == Continues([1, 3, 4], Roles(3, 4, Some(1)))
  {
    SkipsSuccessorSurvivors();
    SkipsSuccessorNext();
    assert IndexOf([1, 3, 4], 3) == 1;
  }

  lemma SkipsSuccessorNext()
    ensures NextAttacker([1, 2, 3, 4], Some(2), [1, 3, 4]) == 3
  {
    assert IndexOf([1, 2, 3, 4], 2) == 1;
    assert After([1, 2, 3, 4], Some(2)) == [3, 4, 1, 2] by {
      assert [1, 2, 3, 4][2..] == [3, 4] && [1, 2, 3, 4][..2] == [1, 2];
    }
    assert FirstIn([3, 4, 1, 2], [1, 3, 4]) == 0;
  }

  lemma SkipsSuccessorLoop()
    ensures EliminateAsWritten([1, 2, 3, 4], map[1 := [10], 2 := [], 3 := [11], 4 := [12]], Some(2), 1, 4) == ([1, 3, 4], 1)
  {
    var hands := map[1 := [10], 2 := [], 3 := [11], 4 := [12]];
    assert [1, 2, 3, 4][..1] + [1, 2, 3, 4][2..] == [1, 3, 4];
    assert IndexOf([1, 3, 4], 2) == -1;
    assert EliminateAsWritten([1, 2, 3, 4], hands, Some(2), 1, 2) == EliminateAsWritten([1, 3, 4], hands, Some(2), 1, 1);
    assert EliminateAsWritten([1, 3, 4], hands, Some(2), 1, 1) == ([1, 3, 4], 1);
  }

  lemma SkipsSuccessorSurvivors()
    ensures Survivors([1, 2, 3, 4], map[1 := [10], 2 := [], 3 := [11], 4 := [12]], true) == [1, 3, 4]
  {
    var hands := map[1 := [10], 2 := [], 3 := [11], 4 := [12]];
    SurvivorsStep(4, [], hands);
    assert [4] + [] == [4];
    assert Survivors([4], hands, true) == [4];
    SurvivorsStep(3, [4], hands);
    assert [3] + [4] == [3, 4];
    assert Survivors([3, 4], hands, true) == [3, 4];
    SurvivorsStep(2, [3, 4], hands);
    assert [2] + [3, 4] == [2, 3, 4];
    assert Survivors([2, 3, 4], hands, true) == [3, 4];
    SurvivorsStep(1, [2, 3, 4], hands);
    assert [1] + [2, 3, 4] == [1, 2, 3, 4];
    assert [1] + [3, 4] == [1, 3, 4];
  }

  /** Four players, C attacked last; A and B, both seated before C, have run
      out of cards with the deck empty. The first splice leaves `ai` one seat
      before C, the second moves C onto `ai`, so the code as written agrees
      with the intended rule: D attacks and C defends. The attacker is
      re-elected only after an odd number of such drop-outs. */
  lemma GoNextTwoDropOutsAgree()
    ensures GoNextAsWritten([1, 2, 3, 4], map[1 := [], 2 := [], 3 := [10], 4 := [11]], true, Some(3))
         == Continues([3, 4], Roles(4, 3, None))
    ensures GoNext([1, 2, 3, 4], map[1 := [], 2 := [], 3 := [10], 4 := [11]], true, Some(3))
         == Continues([3, 4], Roles(4, 3, None))
  {
    TwoDropOutsLoop();
    TwoDropOutsSurvivors();
    TwoDropOutsNext();
    assert IndexOf([3, 4], 4) == 1;
  }

  lemma TwoDropOutsLoop()
    ensures EliminateAsWritten([1, 2, 3, 4], map[1 := [], 2 := [], 3 := [10], 4 := [11]], Some(3), 2, 4) == ([3, 4], 0)
  {
    TwoDropOutsKeeps();
    TwoDropOutsFirstSplice();
    TwoDropOutsSecondSplice();
  }

  /** Seats 3 and 2 hold cards and are kept. */
  lemma TwoDropOutsKeeps()
    ensures EliminateAsWritten([1, 2, 3, 4], map[1 := [], 2 := [], 3 := [10], 4 := [11]], Some(3), 2, 4)
         == EliminateAsWritten([1, 2, 3, 4], map[1 := [], 2 := [], 3 := [10], 4 := [11]], Some(3), 2, 2)
  {
  }

  /** B is spliced out; C moves to index 1, so `ai` becomes 0. */
  lemma TwoDropOutsFirstSplice()
    ensures EliminateAsWritten([1, 2, 3, 4], map[1 := [], 2 := [], 3 := [10], 4 := [11]], Some(3), 2, 2)
         == EliminateAsWritten([1, 3, 4], map[1 := [], 2 := [], 3 := [10], 4 := [11]], Some(3), 0, 1)
  {
    assert [1, 2, 3, 4][..1] + [1, 2, 3, 4][2..] == [1, 3, 4];
    assert IndexOf([1, 3, 4], 3) == 1 by {
      assert [1, 3, 4][1..] == [3, 4];
      assert IndexOf([3, 4], 3) == 0;
    }
  }

  /** A is spliced out; C moves onto `ai`, which is left alone. */
  lemma TwoDropOutsSecondSplice()
    ensures EliminateAsWritten([1, 3, 4], map[1 := [], 2 := [], 3 := [10], 4 := [11]], Some(3), 0, 1) == ([3, 4], 0)
  {
    assert [1, 3, 4][..0] + [1, 3, 4][1..] == [3, 4];
    assert IndexOf([3, 4], 3) == 0;
  }

  lemma TwoDropOutsNext()
    ensures NextAttacker([1, 2, 3, 4], Some(3), [3, 4]) == 4
  {
    var active := [1, 2, 3, 4];
    ThirdSeatIndex();
    AfterRotates(active, Some(3));
    assert After(active, Some(3))[0] == 4;
    FirstInHead(After(active, Some(3)), [3, 4]);
  }

  lemma SecondSeatIndex()
    ensures IndexOf([1, 2, 3, 4], 2) == 1
  {
    assert [1, 2, 3, 4][1..] == [2, 3, 4];
    assert IndexOf([2, 3, 4], 2) == 0;
  }

  lemma ThirdSeatIndex()
    ensures IndexOf([1, 2, 3, 4], 3) == 2
  {
    assert [1, 2, 3, 4][1..] == [2, 3, 4];
    assert [2, 3, 4][1..] == [3, 4];
    assert IndexOf([3, 4], 3) == 0;
    assert IndexOf([2, 3, 4], 3) == 1;
  }

  lemma TwoDropOutsSurvivors()
    ensures Survivors([1, 2, 3, 4], map[1 := [], 2 := [], 3 := [10], 4 := [11]], true) == [3, 4]
  {
    var hands := map[1 := [], 2 := [], 3 := [10], 4 := [11]];
    SurvivorsStep(4, [], hands);
    assert [4] + [] == [4];
    assert Survivors([4], hands, true) == [4];
    SurvivorsStep(3, [4], hands);
    assert [3] + [4] == [3, 4];
    assert Survivors([3, 4], hands, true) == [3, 4];
    SurvivorsStep(2, [3, 4], hands);
    assert [2] + [3, 4] == [2, 3, 4];
    assert Survivors([2, 3, 4], hands, true) == [3, 4];
    SurvivorsStep(1, [2, 3, 4], hands);
    assert [1] + [2, 3, 4] == [1, 2, 3, 4];
  }

  /** Four players, B attacked last; A and B have both run out of cards with
      the deck empty. B's splice leaves `ai` at 1, now C's seat; A's splice
      leaves it there, now D's seat and the last one, so the attacker pick
      wraps round to the front, C. C is not passed over: the code as written
      agrees with the intended rule. */
  lemma GoNextEarlierDropOutKeepsSuccessor()
    ensures GoNextAsWritten([1, 2, 3, 4], map[1 := [], 2 := [], 3 := [10], 4 := [11]], true, Some(2))
         == Continues([3, 4], Roles(3, 4, None))
    ensures GoNext([1, 2, 3, 4], map[1 := [], 2 := [], 3 := [10], 4 := [11]], true, Some(2))
         == Continues([3, 4], Roles(3, 4, None))
  {
    EarlierDropOutLoop();
    TwoDropOutsSurvivors();
    EarlierDropOutNext();
    assert IndexOf([3, 4], 3) == 0;
  }

  lemma EarlierDropOutLoop()
    ensures EliminateAsWritten([1, 2, 3, 4], map[1 := [], 2 := [], 3 := [10], 4 := [11]], Some(2), 1, 4) == ([3, 4], 1)
  {
    var hands := map[1 := [], 2 := [], 3 := [10], 4 := [11]];
    assert [1, 2, 3, 4][..1] + [1, 2, 3, 4][2..] == [1, 3, 4];
    assert IndexOf([1, 3, 4], 2) == -1;
    assert EliminateAsWritten([1, 2, 3, 4], hands, Some(2), 1, 4) == EliminateAsWritten([1, 3, 4], hands, Some(2), 1, 1);
    assert [1, 3, 4][..0] + [1, 3, 4][1..] == [3, 4];
    assert IndexOf([3, 4], 2) == -1;
    assert EliminateAsWritten([1, 3, 4], hands, Some(2), 1, 1) == EliminateAsWritten([3, 4], hands, Some(2), 1, 0);
  }

  lemma EarlierDropOutNext()
    ensures NextAttacker([1, 2, 3, 4], Some(2), [3, 4]) == 3
  {
    var active := [1, 2, 3, 4];
    SecondSeatIndex();
    AfterRotates(active, Some(2));
    assert After(active, Some(2))[0] == 3;
    FirstInHead(After(active, Some(2)), [3, 4]);
  }

  /** One step of `Survivors` with the deck exhausted. */
  lemma SurvivorsStep(p: PlayerId, rest: seq<PlayerId>, hands: map<PlayerId, seq<CardId>>)
    requires p in hands && forall q | q in rest :: q in hands
    ensures Survivors([p] + rest, hands, true) == (if |hands[p]| > 0 then [p] else []) + Survivors(rest, hands, true)
  {
    assert ([p] + rest)[1..] == rest;
  }
}

=== FILE: seats.dfy ===
/** Seat management of `GamePlayers` (serverjs/Game/GamePlayers.js): the
    ordered list of players of one game, their status maps, and how a
    player joins, reconnects, leaves between matches or concedes mid-match
    to a bot that takes over the same seat. Players are told apart by id;
    the list never holds an id twice. */
module Seats {
  import opened Util
  import opened Cards

  /** `p.type`: 'player' or 'bot'. */
  datatype Kind = Human | Bot

  /** A status value: `true`, `false` or `null`. */
  datatype Flag = Bool(b: bool) | Null

  type Statuses = map<string, Flag>

  datatype Score = Score(wins: nat, losses: nat)

  /** A player as the list sees it: id, type, statuses, score (`None` before
      it first joins a game), the `afk` mark, and whether `p.game` links it
      to this game. */
  datatype Member = Member(id: PlayerId, kind: Kind, statuses: Statuses, score: Option<Score>,
                           afk: bool, inGame: bool)

  const Working: string := "working"
  const Hover: string := "hover"
  const ActiveKey: string := "active"

  /** The ids of the seated players, in seat order. */
  function Ids(seats: seq<Member>): (ids: seq<PlayerId>)
    ensures |ids| == |seats|
    ensures forall i | 0 <= i < |seats| :: ids[i] == seats[i].id
  {
    seq(|seats|, i requires 0 <= i < |seats| => seats[i].id)
  }

  /** Whether status `key` of `m` holds `v`. */
  predicate HasStatus(m: Member, key: string, v: Flag) {
    key in m.statuses && m.statuses[key] == v
  }

  // ---- push ----

  /** The player as `push` appends it: the game-start statuses laid over
      its own, `working` false, `hover` null, score zero. */
  function Pushed(p: Member, defaults: Statuses): (q: Member)
    ensures q.id == p.id && q.kind == p.kind && q.afk == p.afk && q.inGame == p.inGame
    ensures q.score == Some(Score(0, 0))
    ensures HasStatus(q, Working, Bool(false)) && HasStatus(q, Hover, Null)
    ensures forall k | k in defaults && k != Working && k != Hover :: HasStatus(q, k, defaults[k])
    ensures forall k | k in p.statuses && k !in defaults && k != Working && k != Hover ::
      HasStatus(q, k, p.statuses[k])
    ensures forall k | k in q.statuses :: k in p.statuses || k in defaults || k == Working || k == Hover
  {
    p.(statuses := (p.statuses + defaults)[Working := Bool(false)][Hover := Null],
       score := Some(Score(0, 0)))
  }

  /** `push(p)`: the prepared player takes a new seat at the end. */
  function Push(seats: seq<Member>, p: Member, defaults: Statuses): (r: seq<Member>)
    ensures |r| == |seats| + 1 && r[..|seats|] == seats
    ensures r[|seats|] == Pushed(p, defaults)
    ensures Ids(r) == Ids(seats) + [p.id]
  {
    seats + [Pushed(p, defaults)]
  }

  // ---- statuses ----

  /** `set(key, value)`: every seated player gets `key` set to `v`. */
  function SetAll(seats: seq<Member>, key: string, v: Flag): (r: seq<Member>)
    ensures |r| == |seats|
    ensures forall i | 0 <= i < |seats| :: r[i] == seats[i].(statuses := seats[i].statuses[key := v])
  {
    seq(|seats|, i requires 0 <= i < |seats| => seats[i].(statuses := seats[i].statuses[key := v]))
  }

  /** `set(key, value, players)`: the listed players get `key` set to `v`,
      the others keep theirs. */
  function SetFor(seats: seq<Member>, key: string, v: Flag, players: seq<PlayerId>): (r: seq<Member>)
    ensures |r| == |seats|
    ensures forall i | 0 <= i < |seats| && seats[i].id in players ::
      r[i] == seats[i].(statuses := seats[i].statuses[key := v])
    ensures forall i | 0 <= i < |seats| && seats[i].id !in players :: r[i] == seats[i]
  {
    seq(|seats|, i requires 0 <= i < |seats| =>
      if seats[i].id in players then seats[i].(statuses := seats[i].statuses[key := v]) else seats[i])
  }

  /** The setters `active = players`, `inactive = players` and
      `working = players`: `key` goes to `off` for everybody, then, when the
      list is non-empty, to `on` for the listed players. Every seat ends with
      `on` exactly when it is listed; nothing else changes. */
  function Assign(seats: seq<Member>, key: string, on: Flag, off: Flag, players: seq<PlayerId>): (r: seq<Member>)
    ensures |r| == |seats| && Ids(r) == Ids(seats)
    ensures forall i | 0 <= i < |seats| ::
      r[i] == seats[i].(statuses := seats[i].statuses[key := if seats[i].id in players then on else off])
  {
    var cleared := SetAll(seats, key, off);
    if |players| > 0 then SetFor(cleared, key, on, players) else cleared
  }

  /** `set active(players)`. */
  function AssignActive(seats: seq<Member>, players: seq<PlayerId>): (r: seq<Member>)
    ensures r == Assign(seats, ActiveKey, Bool(true), Bool(false), players)
  {
    Assign(seats, ActiveKey, Bool(true), Bool(false), players)
  }

  /** `set inactive(players)`: the same status with the values swapped. */
  function AssignInactive(seats: seq<Member>, players: seq<PlayerId>): (r: seq<Member>)
    ensures r == Assign(seats, ActiveKey, Bool(false), Bool(true), players)
  {
    Assign(seats, ActiveKey, Bool(false), Bool(true), players)
  }

  /** `set working(players)`. */
  function AssignWorking(seats: seq<Member>, players: seq<PlayerId>): (r: seq<Member>)
    ensures r == Assign(seats, Working, Bool(true), Bool(false), players)
  {
    Assign(seats, Working, Bool(true), Bool(false), players)
  }

  /** `getWith(key, v)`: the ids of the players whose status `key` is `v`,
      in seat order. */
  function WithStatus(seats: seq<Member>, key: string, v: Flag): seq<PlayerId> {
    if seats == [] then []
    else (if HasStatus(seats[0], key, v) then [seats[0].id] else []) + WithStatus(seats[1..], key, v)
  }

  lemma {:induction false} WithStatusMember(seats: seq<Member>, key: string, v: Flag, id: PlayerId)
    ensures id in WithStatus(seats, key, v) <==>
      exists i | 0 <= i < |seats| :: seats[i].id == id && HasStatus(seats[i], key, v)
  {
    if seats != [] {
      WithStatusMember(seats[1..], key, v, id);
      if id in WithStatus(seats[1..], key, v) {
        var i :| 0 <= i < |seats[1..]| && seats[1..][i].id == id && HasStatus(seats[1..][i], key, v);
        assert seats[i + 1] == seats[1..][i];
      }
      if exists i | 0 <= i < |seats| :: seats[i].id == id && HasStatus(seats[i], key, v) {
        var i :| 0 <= i < |seats| && seats[i].id == id && HasStatus(seats[i], key, v);
        if i > 0 {
          assert seats[1..][i - 1] == seats[i];
        }
      }
    }
  }

  /** What the getters read back after a setter: in a list without repeated
      ids, the players with `key` at `on` are exactly the listed ones that
      are seated, and those at `off` exactly the seated ones not listed. So
      `active` returns what `active = players` was given, and `inactive`
      the rest. */
  lemma AssignThenGet(seats: seq<Member>, key: string, on: Flag, off: Flag, players: seq<PlayerId>, id: PlayerId)
    requires NoDup(Ids(seats)) && on != off
    ensures id in WithStatus(Assign(seats, key, on, off, players), key, on) <==>
      id in Ids(seats) && id in players
    ensures id in WithStatus(Assign(seats, key, on, off, players), key, off) <==>
      id in Ids(seats) && id !in players
  {
    var r := Assign(seats, key, on, off, players);
    WithStatusMember(r, key, on, id);
    WithStatusMember(r, key, off, id);
    if id in Ids(seats) {
      var i :| 0 <= i < |seats| && Ids(seats)[i] == id;
      assert r[i].id == id;
    }
  }

  /** `setActive`, `setInactive`, `setWorking`: `key` goes to `v` for the
      listed players only; nobody else's status changes. */
  function SetListed(seats: seq<Member>, key: string, v: Flag, players: seq<PlayerId>): (r: seq<Member>)
    ensures |r| == |seats| && Ids(r) == Ids(seats)
    ensures forall i | 0 <= i < |seats| ::
      && (seats[i].id in players ==> HasStatus(r[i], key, v))
      && (forall k | k in seats[i].statuses && k != key :: HasStatus(r[i], k, seats[i].statuses[k]))
      && (seats[i].id !in players ==> r[i] == seats[i])
  {
    SetFor(seats, key, v, players)
  }

  /** `setActive(players)` only adds: everybody active before still is, and
      the seated listed players have joined them. */
  lemma SetActiveAdds(seats: seq<Member>, players: seq<PlayerId>, id: PlayerId)
    requires NoDup(Ids(seats))
    ensures
      var r := SetListed(seats, ActiveKey, Bool(true), players);
      id in WithStatus(r, ActiveKey, Bool(true)) <==>
        id in WithStatus(seats, ActiveKey, Bool(true)) || (id in Ids(seats) && id in players)
  {
    var r := SetListed(seats, ActiveKey, Bool(true), players);
    WithStatusMember(r, ActiveKey, Bool(true), id);
    WithStatusMember(seats, ActiveKey, Bool(true), id);
    if id in Ids(seats) {
      var i :| 0 <= i < |seats| && Ids(seats)[i] == id;
      assert r[i].id == id;
    }
  }

  // ---- reconnect and disconnect ----

  /** `reconnect(player)`: a seated player is marked as back (`afk` false);
      for anyone else nothing changes. */
  function Reconnect(seats: seq<Member>, pid: PlayerId): (r: seq<Member>)
    ensures pid !in Ids(seats) ==> r == seats
    ensures |r| == |seats| && Ids(r) == Ids(seats)
    ensures forall i | 0 <= i < |seats| && seats[i].id == pid :: r[i] == seats[i].(afk := false)
    ensures forall i | 0 <= i < |seats| && seats[i].id != pid :: r[i] == seats[i]
  {
    if pid !in Ids(seats) then seats
    else seq(|seats|, i requires 0 <= i < |seats| => if seats[i].id == pid then seats[i].(afk := false) else seats[i])
  }

  /** Reconnecting twice is reconnecting once. */
  lemma ReconnectIdempotent(seats: seq<Member>, pid: PlayerId)
    ensures Reconnect(Reconnect(seats, pid), pid) == Reconnect(seats, pid)
  {
    var r := Reconnect(seats, pid);
    var rr := Reconnect(r, pid);
    assert forall i | 0 <= i < |seats| :: rr[i] == r[i];
  }

  /** The result of `disconnect` and `concede`: refused, or done. */
  datatype Leave = Refused | Left(seats: seq<Member>, gone: Member)

  /** `player.game = null; player.statuses = {}` for a player leaving. */
  function Detached(m: Member): (d: Member)
    ensures d.id == m.id && d.kind == m.kind && d.score == m.score && d.afk == m.afk
    ensures !d.inGame && d.statuses == map[]
  {
    m.(inGame := false, statuses := map[])
  }

  /** `disconnect(player)`: refused for a player who is not seated and while
      the match is running; otherwise the player's seat is removed and the
      player is detached from the game. */
  function Disconnect(seats: seq<Member>, pid: PlayerId, running: bool): (r: Leave)
    ensures r.Refused? <==> pid !in Ids(seats) || running
    ensures r.Left? ==>
      var i := IndexOf(Ids(seats), pid);
      && 0 <= i < |seats| && seats[i].id == pid
      && r.seats == seats[..i] + seats[i + 1..]
      && r.gone == Detached(seats[i])
  {
    if pid !in Ids(seats) || running then Refused
    else
      var i := IndexOf(Ids(seats), pid);
      Left(SpliceOne(seats, i), Detached(seats[i]))
  }

  /** `disconnect` removes exactly the leaving player: the others stay, in
      the same order, and the list still holds no id twice. */
  lemma DisconnectRemoves(seats: seq<Member>, pid: PlayerId)
    requires NoDup(Ids(seats)) && pid in Ids(seats)
    ensures Disconnect(seats, pid, false).Left?
    ensures
      var r := Disconnect(seats, pid, false).seats;
      && |r| == |seats| - 1
      && pid !in Ids(r) && NoDup(Ids(r))
      && forall id | id != pid :: id in Ids(r) <==> id in Ids(seats)
  {
    var i := IndexOf(Ids(seats), pid);
    var r := Disconnect(seats, pid, false).seats;
    var ids := Ids(seats);
    assert Ids(r) == SpliceOne(ids, i);
    NoDupSpliceExcludes(ids, i);
    assert ids == ids[..i] + [pid] + ids[i + 1..];
  }

  /** Joining and then disconnecting before the match leaves the seats as
      they were. */
  lemma DisconnectUndoesPush(seats: seq<Member>, p: Member, defaults: Statuses)
    requires p.id !in Ids(seats)
    ensures Disconnect(Push(seats, p, defaults), p.id, false) == Left(seats, Detached(Pushed(p, defaults)))
  {
    var pushed := Push(seats, p, defaults);
    assert Ids(pushed)[|seats|] == p.id;
    assert Ids(pushed)[..|seats|] == Ids(seats);
  }

  // ---- concede ----

  /** The bot that takes a conceding player's seat: prepared by `push`, then
      given the conceder's statuses and id. */
  function Stand(bot: Member, conceder: Member, defaults: Statuses): (s: Member)
    ensures s.id == conceder.id && s.statuses == conceder.statuses
    ensures s.kind == bot.kind && s.score == Some(Score(0, 0))
  {
    Pushed(bot, defaults).(statuses := conceder.statuses, id := conceder.id)
  }

  /** Some seated player is human (`humans.length`). */
  predicate AnyHuman(seats: seq<Member>) {
    exists i | 0 <= i < |seats| :: seats[i].kind == Human
  }

  /** The result of `concede`: the new seats, the detached player, and
      whether the bot is made to answer at once (`sendResponse`). */
  datatype Concession = NotConceded | Conceded(seats: seq<Member>, gone: Member, responds: bool)

  /** `concede(player)`: refused for a player who is not seated and when no
      match is running. Otherwise the player's seat is spliced out, the bot
      is pushed at the end and bubbled back, one swap at a time, to the
      vacated index. The bot ends in the conceder's seat with its id and
      statuses, every other seat is as it was, and the bot answers at once
      exactly when a human is still seated and its `working` status is
      true. */
  method Concede(seats: seq<Member>, pid: PlayerId, running: bool, bot: Member, defaults: Statuses)
    returns (r: Concession)
    ensures r.NotConceded? <==> pid !in Ids(seats) || !running
    ensures r.Conceded? ==>
      var pi := IndexOf(Ids(seats), pid);
      && 0 <= pi < |seats| && seats[pi].id == pid
      && r.seats == seats[pi := Stand(bot, seats[pi], defaults)]
      && Ids(r.seats) == Ids(seats)
      && r.gone == Detached(seats[pi])
      && (r.responds <==> AnyHuman(r.seats) && HasStatus(r.seats[pi], Working, Bool(true)))
  {
    if pid !in Ids(seats) || !running {
      return NotConceded;
    }
    var pi := IndexOf(Ids(seats), pid);
    var player := seats[pi];
    var replacement := Stand(bot, player, defaults);
    var s := BubbleBack(SpliceOne(seats, pi) + [replacement], pi);
    BackInSeat(seats, pi, replacement, s);
    var responds := AnyHuman(s) && HasStatus(replacement, Working, Bool(true));
    return Conceded(s, Detached(player), responds);
  }

  /** The swap loop of `concede`: the last element moves, one swap at a
      time, back to index `pi`; the elements it passes move up by one. */
  method BubbleBack<T>(s: seq<T>, pi: nat) returns (r: seq<T>)
    requires pi < |s|
    ensures |r| == |s| && r[pi] == s[|s| - 1]
    ensures forall j | 0 <= j < pi :: r[j] == s[j]
    ensures forall j | pi < j < |s| :: r[j] == s[j - 1]
  {
    r := s;
    var i := |s| - 1;
    while i > pi
      invariant pi <= i < |r| == |s|
      invariant r[i] == s[|s| - 1]
      invariant forall j | 0 <= j < pi :: r[j] == s[j]
      invariant forall j | pi <= j < i :: r[j] == s[j]
      invariant forall j | i < j < |s| :: r[j] == s[j - 1]
      decreases i
    {
      var swap := r[i - 1];
      r := r[i - 1 := r[i]][i := swap];
      i := i - 1;
    }
  }

  /** Splicing seat `pi` out, appending `x` and bubbling it back puts `x`
      in seat `pi` and leaves every other seat alone. */
  lemma BackInSeat<T>(seats: seq<T>, pi: nat, x: T, r: seq<T>)
    requires pi < |seats|
    requires
      var t := SpliceOne(seats, pi) + [x];
      && |r| == |t| && r[pi] == t[|t| - 1]
      && (forall j | 0 <= j < pi :: r[j] == t[j])
      && (forall j | pi < j < |t| :: r[j] == t[j - 1])
    ensures r == seats[pi := x]
  {
    var t := SpliceOne(seats, pi) + [x];
    forall j | 0 <= j < |r| ensures r[j] == seats[pi := x][j] {
      if j < pi {
        assert t[j] == seats[j];
      } else if j > pi {
        assert t[j - 1] == seats[j];
      }
    }
  }

  // ---- applyNoResponseStatus ----

  /** `applyNoResponseStatus(action, player)`: while the match is being
      simulated, an action reported to a human is marked as needing no
      answer. An already set mark is never cleared. */
  function NoResponse(flag: bool, simulating: bool, kind: Kind): (r: bool)
    ensures flag ==> r
    ensures r && !flag ==> simulating && kind == Human
    ensures simulating && kind == Human ==> r
  {
    flag || (simulating && kind == Human)
  }

  /** Applying the mark a second time changes nothing. */
  lemma NoResponseIdempotent(flag: bool, simulating: bool, kind: Kind)
    ensures NoResponse(NoResponse(flag, simulating, kind), simulating, kind) == NoResponse(flag, simulating, kind)
  {
  }
}

=== FILE: setup.dfy ===
/** Starting a match: the `Game` constructor, `reset` and `make` of
    serverjs/gamelogic.js. The card table is built value by value and suit by
    suit, the deck is shuffled, the first non-ace is swapped to the bottom and
    its suit becomes the trump suit; then every player is asked to confirm
    the deck. */
module Setup {
  import opened Util
  import opened Cards
  import opened Field
  import opened Stages
  import opened GameState
  import opened Timer

  /** The record the constructor builds before calling `reset`. */
  function Blank(players: seq<PlayerId>, offline: set<PlayerId>): Game {
    Game(players, offline, [], 0, false, [], 0, [], [], EmptyField(), 0, ZeroDiscardFieldSize, 0,
         map[], [], [], 1, TurnStages(None, None), None, None, None, [], None)
  }

  /** The shuffled deck: the card ids in creation order, put through the
      Fisher-Yates loop of `shuffleDeck`. */
  function ShuffledDeck(n: nat, draws: seq<nat>): (deck: seq<CardId>)
    requires ValidDraws(draws, n)
    ensures |deck| == n && multiset(deck) == multiset(Range(n))
    ensures forall i | 0 <= i < n :: deck[i] < n
  {
    var deck := Shuffle(Range(n), draws);
    forall i | 0 <= i < n ensures deck[i] < n {
      assert deck[i] in multiset(Range(n));
    }
    deck
  }

  /** The cards, the deck and the trump suit `make` produces. */
  datatype Table = Table(cards: seq<Card>, deck: seq<CardId>, trumpSuit: int)

  /** The card part of `make`: the card table, the shuffled deck with a
      non-ace swapped to the bottom, that card marked BOTTOM, and its suit as
      the trump suit. */
  function MakeTable(numPlayers: nat, draws: seq<nat>): (t: Table)
    requires ValidDraws(draws, NumOfCards(numPlayers))
    ensures |t.cards| == NumOfCards(numPlayers) && |t.deck| == |t.cards|
    ensures forall c | 0 <= c < |t.cards| ::
      t.cards[c].value == MakeCards(numPlayers)[c].value && t.cards[c].suit == MakeCards(numPlayers)[c].suit
    ensures multiset(t.deck) == multiset(Range(|t.cards|))
    ensures forall i | 0 <= i < |t.deck| :: t.deck[i] < |t.cards|
    ensures t.cards[t.deck[|t.deck| - 1]].value != MaxCardValue
    ensures t.cards[t.deck[|t.deck| - 1]].position == Bottom
    ensures t.trumpSuit == t.cards[t.deck[|t.deck| - 1]].suit
    ensures forall c | 0 <= c < |t.cards| && c != t.deck[|t.deck| - 1] :: t.cards[c].position == Deck
  {
    var cards := MakeCards(numPlayers);
    var shuffled := ShuffledDeck(|cards|, draws);
    NonAceShuffled(cards, shuffled);
    TrumpTable(cards, shuffled)
  }

  /** A permutation of all card ids still holds card 0. */
  lemma NonAceShuffled(cards: seq<Card>, deck: seq<CardId>)
    requires cards != [] && cards[0].value != MaxCardValue
    requires multiset(deck) == multiset(Range(|cards|))
    requires forall i | 0 <= i < |deck| :: deck[i] < |cards|
    ensures exists i | 0 <= i < |deck| :: cards[deck[i]].value != MaxCardValue
  {
    assert Range(|cards|)[0] == 0;
    assert 0 in multiset(deck);
    var i :| 0 <= i < |deck| && deck[i] == 0;
  }

  /** The trump swap and the BOTTOM mark on a deck that holds a non-ace. */
  function TrumpTable(cards: seq<Card>, deck: seq<CardId>): (t: Table)
    requires forall i | 0 <= i < |deck| :: deck[i] < |cards|
    requires exists i | 0 <= i < |deck| :: cards[deck[i]].value != MaxCardValue
    ensures |t.cards| == |cards| && |t.deck| == |deck| && multiset(t.deck) == multiset(deck)
    ensures forall c | 0 <= c < |cards| ::
      t.cards[c].value == cards[c].value && t.cards[c].suit == cards[c].suit
    ensures forall i | 0 <= i < |t.deck| :: t.deck[i] < |t.cards|
    ensures t.cards[t.deck[|t.deck| - 1]].value != MaxCardValue
    ensures t.cards[t.deck[|t.deck| - 1]].position == Bottom
    ensures t.trumpSuit == t.cards[t.deck[|t.deck| - 1]].suit
    ensures forall c | 0 <= c < |cards| && c != t.deck[|t.deck| - 1] :: t.cards[c].position == cards[c].position
  {
    var swapped := SwapTrumpToBottom(cards, deck);
    var last := swapped[|swapped| - 1];
    Table(cards[last := cards[last].(position := Bottom)], swapped, cards[last].suit)
  }

  /** `make`: the table above, every player active, and a wait for every
      player to acknowledge the deck. */
  function Make(g: Game, draws: seq<nat>): (r: Game)
    requires ValidDraws(draws, NumOfCards(|g.players|))
    ensures
      var t := MakeTable(|g.players|, draws);
      r == g.(activePlayers := g.players, cards := t.cards, deck := t.deck, trumpSuit := t.trumpSuit,
              playersActing := r.playersActing, timer := r.timer,
              disconnectedPlayers := r.disconnectedPlayers)
    ensures r.playersActing == g.playersActing + g.players && r.timer.Some?
  {
    var t := MakeTable(|g.players|, draws);
    WaitForResponse(g.(activePlayers := g.players, cards := t.cards, deck := t.deck,
                       trumpSuit := t.trumpSuit), g.players)
  }

  /** `new Game(players)`: constructor, `reset`, `make`. */
  function NewGame(players: seq<PlayerId>, offline: set<PlayerId>, draws: seq<nat>): (g: Game)
    requires ValidDraws(draws, NumOfCards(|players|))
    ensures g.players == players && g.activePlayers == players && g.playersActing == players
    ensures !g.gameStarted && g.gameNumber == 1 && g.hands == map[] && g.validActions == [] && g.timer.Some?
  {
    Make(Reset(Blank(players, offline)), draws)
  }

  lemma {:induction false} NoHandCards(ps: seq<PlayerId>)
    ensures HandCards(ps, map[]) == []
  {
    if ps != [] {
      NoHandCards(ps[1..]);
    }
  }

  /** Some card of the table has value `v` and suit `s`. */
  ghost predicate HasCard(cards: seq<Card>, v: int, s: int) {
    exists c | 0 <= c < |cards| :: cards[c].value == v && cards[c].suit == s
  }

  /** The deck of a new match: 36 cards of values 6..14 for up to four
      players, 52 cards of values 2..14 otherwise, every (value, suit) pair
      exactly once, shuffled into a permutation of all card ids. */
  lemma MakeTableDeck(numPlayers: nat, draws: seq<nat>)
    requires ValidDraws(draws, NumOfCards(numPlayers))
    ensures
      var t := MakeTable(numPlayers, draws);
      var low := if numPlayers <= 4 then 6 else 2;
      && |t.cards| == (if numPlayers <= 4 then 36 else 52)
      && multiset(t.deck) == multiset(Range(|t.cards|))
      && (forall c | 0 <= c < |t.cards| ::
            low <= t.cards[c].value <= 14 && 0 <= t.cards[c].suit < 4)
      && (forall c, d {:trigger Face(t.cards[c]), Face(t.cards[d])} | 0 <= c < d < |t.cards| ::
            Face(t.cards[c]) != Face(t.cards[d]))
      && (forall v, s | low <= v <= 14 && 0 <= s < 4 :: HasCard(t.cards, v, s))
  {
    var t := MakeTable(numPlayers, draws);
    FacesKept(MakeCards(numPlayers), t.cards, LowestCardValue(numPlayers));
  }

  /** A table with the same faces, card by card, as one holding every
      (value, suit) pair from `low` up exactly once holds them too. */
  lemma FacesKept(cards: seq<Card>, cards': seq<Card>, low: int)
    requires |cards'| == |cards|
    requires forall c | 0 <= c < |cards| :: cards'[c].value == cards[c].value && cards'[c].suit == cards[c].suit
    requires forall c | 0 <= c < |cards| :: low <= cards[c].value <= MaxCardValue && 0 <= cards[c].suit < NumOfSuits
    requires forall c, d {:trigger Face(cards[c]), Face(cards[d])} | 0 <= c < d < |cards| :: Face(cards[c]) != Face(cards[d])
    requires forall v, s | low <= v <= MaxCardValue && 0 <= s < NumOfSuits :: Card(v, s, Deck) in cards
    ensures forall c | 0 <= c < |cards'| :: low <= cards'[c].value <= MaxCardValue && 0 <= cards'[c].suit < NumOfSuits
    ensures forall c, d {:trigger Face(cards'[c]), Face(cards'[d])} | 0 <= c < d < |cards'| :: Face(cards'[c]) != Face(cards'[d])
    ensures forall v, s | low <= v <= MaxCardValue && 0 <= s < NumOfSuits :: HasCard(cards', v, s)
  {
    forall v, s | low <= v <= MaxCardValue && 0 <= s < NumOfSuits
      ensures HasCard(cards', v, s)
    {
      assert Card(v, s, Deck) in cards;
      var c :| 0 <= c < |cards| && cards[c] == Card(v, s, Deck);
      assert cards'[c].value == v && cards'[c].suit == s;
    }
    forall c, d | 0 <= c < d < |cards'| ensures Face(cards'[c]) != Face(cards'[d]) {
      assert Face(cards'[c]) == Face(cards[c]) && Face(cards'[d]) == Face(cards[d]);
    }
  }

  /** A new match satisfies the invariant: all cards in the deck, each card
      where its position says, nothing on offer, every player owing the
      deck acknowledgement. */
  lemma NewGameInv(players: seq<PlayerId>, offline: set<PlayerId>, draws: seq<nat>)
    requires NoDup(players)
    requires ValidDraws(draws, NumOfCards(|players|))
    ensures
      var g := NewGame(players, offline, draws);
      && Inv(g) && !g.gameStarted && g.gameNumber == 1
      && g.playersActing == players && g.validActions == [] && g.timer.Some?
  {
    var g := NewGame(players, offline, draws);
    NewGameFacts(players, offline, draws);
    NewGameShaped(players, offline, draws);
    NewGameCardsConserved(players, offline, draws);
    EmptyTableInv(g);
  }

  lemma NewGameCardsConserved(players: seq<PlayerId>, offline: set<PlayerId>, draws: seq<nat>)
    requires ValidDraws(draws, NumOfCards(|players|))
    ensures Conserved(NewGame(players, offline, draws))
  {
    var g, t := NewGame(players, offline, draws), MakeTable(|players|, draws);
    NewGameFacts(players, offline, draws);
    TablePositions(|players|, draws);
    NewGameConserved(players, g, t);
  }

  /** Every card of a new table lies in the deck, one of them at the bottom. */
  lemma TablePositions(numPlayers: nat, draws: seq<nat>)
    requires ValidDraws(draws, NumOfCards(numPlayers))
    ensures var t := MakeTable(numPlayers, draws);
      forall c | 0 <= c < |t.cards| :: t.cards[c].position in {Deck, Bottom}
  {
    var t := MakeTable(numPlayers, draws);
    forall c | 0 <= c < |t.cards| ensures t.cards[c].position in {Deck, Bottom} {
      if c != t.deck[|t.deck| - 1] {
        assert t.cards[c].position == Deck;
      }
    }
  }

  /** A shaped, conserved game with an empty field and nothing on offer
      satisfies the invariant. */
  lemma EmptyTableInv(g: Game)
    requires Shaped(g) && Conserved(g)
    requires g.field == EmptyField() && g.fieldUsedSpots == 0 && g.validActions == []
    ensures Inv(g)
  {
  }

  lemma NewGameFacts(players: seq<PlayerId>, offline: set<PlayerId>, draws: seq<nat>)
    requires ValidDraws(draws, NumOfCards(|players|))
    ensures
      var g := NewGame(players, offline, draws);
      var t := MakeTable(|players|, draws);
      && g.cards == t.cards && g.deck == t.deck
      && g.hands == map[] && g.discardPile == [] && g.field == EmptyField() && g.validActions == []
      && g.players == players && g.activePlayers == players && g.playersActing == players
      && !g.gameStarted && g.gameNumber == 1 && g.timer.Some? && g.fieldUsedSpots == 0
      && g.fullField == ZeroDiscardFieldSize && g.attacker.None?
  {
  }

  lemma NewGameShaped(players: seq<PlayerId>, offline: set<PlayerId>, draws: seq<nat>)
    requires NoDup(players)
    requires ValidDraws(draws, NumOfCards(|players|))
    ensures Shaped(NewGame(players, offline, draws))
  {
    var g := NewGame(players, offline, draws);
    NewGameFacts(players, offline, draws);
    assert CardsInRange(g);
  }

  lemma NewGameConserved(players: seq<PlayerId>, g: Game, t: Table)
    requires g.players == players && g.cards == t.cards && g.deck == t.deck
    requires g.hands == map[] && g.discardPile == [] && g.field == EmptyField()
    requires multiset(t.deck) == multiset(Range(|t.cards|))
    requires forall c | 0 <= c < |t.cards| :: t.cards[c].position in {Deck, Bottom}
    ensures Conserved(g)
  {
    NoHandCards(players);
    EmptyFieldCards(g.field);
    assert AllCards(g) == g.deck;
    var n := |g.cards|;
    forall c | 0 <= c < n ensures LocatedAt(g, c) {
      assert Range(n)[c] == c;
      assert c in multiset(g.deck);
    }
  }
}

=== FILE: stages.dfy ===
/** The turn-stage machine of serverjs/gamelogic.js: the stage names, the
    `(turnStage, lastTurnStage)` pair that `setTurnStage` maintains, and the
    stage rewrites of `processAction` (ATTACK / SKIP / TAKE) and `letDefend`,
    tabulated as pure functions of the pair and the skip counter. */
module Stages {
  import opened Util

  datatype Stage =
    | InitialAttack | RepeatingAttack | Support | Attack | Followup
    | Defense | End | EndDeal | Ended

  /** `turnStage` and `lastTurnStage`; `null` is `None`. */
  datatype TurnStages = TurnStages(turnStage: Option<Stage>, lastTurnStage: Option<Stage>)

  /** `setTurnStage`: the current stage becomes the last one. */
  function SetTurnStage(t: TurnStages, stage: Stage): (r: TurnStages)
    ensures r.turnStage == Some(stage) && r.lastTurnStage == t.turnStage
  {
    TurnStages(Some(stage), t.turnStage)
  }

  /** What `processAction` does to the stages and `skipCounter` on a SKIP. */
  datatype SkipResult = SkipResult(stages: TurnStages, skipCounter: nat)

  /** The SKIP branch of `processAction`, including the missing `break` after
      the REPEATING_ATTACK case, which falls through into `default`. Without
      an ally nothing changes. */
  function SkipTransition(t: TurnStages, skipCounter: nat, hasAlly: bool): (r: SkipResult)
    ensures skipCounter <= r.skipCounter <= skipCounter + 2
    ensures r.skipCounter > skipCounter + 1 <==> hasAlly && t.lastTurnStage == Some(RepeatingAttack)
    ensures r.stages == t
         || (&& r.stages.lastTurnStage == t.turnStage
             && r.stages.turnStage in {Some(Followup), Some(Support), Some(Attack)})
  {
    if !hasAlly then SkipResult(t, skipCounter)
    else
      match t.lastTurnStage
      case Some(Followup) =>
        if skipCounter == 0 then SkipResult(SetTurnStage(t, Followup), skipCounter + 1)
        else SkipResult(t, skipCounter)
      case Some(RepeatingAttack) =>
        // case 'REPEATING_ATTACK': no break, so `default` runs on the new pair
        SkipDefault(SetTurnStage(t, Support), skipCounter + 1)
      case _ => SkipDefault(t, skipCounter)
  }

  /** The `default` case of the SKIP switch. */
  function SkipDefault(t: TurnStages, skipCounter: nat): (r: SkipResult)
    ensures r.skipCounter == skipCounter + 1
    ensures skipCounter >= 1 ==> r.stages == t
    ensures r.stages == t
         || (&& r.stages.lastTurnStage == t.turnStage
             && r.stages.turnStage in {Some(Support), Some(Attack)}
             && r.stages.turnStage != t.lastTurnStage)
  {
    var counter := skipCounter + 1;
    if counter < 2 then
      if t.lastTurnStage == Some(Support) then SkipResult(SetTurnStage(t, Attack), counter)
      else if t.lastTurnStage == Some(Attack) then SkipResult(SetTurnStage(t, Support), counter)
      else SkipResult(t, counter)
    else SkipResult(t, counter)
  }

  /** The ATTACK branch: a follow-up throw keeps the follow-up going, any other
      attack resets the skip counter. */
  function AttackTransition(t: TurnStages, skipCounter: nat): (r: SkipResult)
    ensures r.skipCounter == 0 || (r.skipCounter == skipCounter && t.lastTurnStage == Some(Followup))
    ensures r.stages == t || r.stages == TurnStages(Some(Followup), t.turnStage)
    ensures r.stages.turnStage == Some(Followup) <==> t.lastTurnStage == Some(Followup) || t.turnStage == Some(Followup)
    ensures t.lastTurnStage == Some(Followup) ==> r == SkipResult(SetTurnStage(t, Followup), skipCounter)
    ensures t.lastTurnStage != Some(Followup) ==> r == SkipResult(t, 0)
  {
    if t.lastTurnStage == Some(Followup) then SkipResult(SetTurnStage(t, Followup), skipCounter)
    else SkipResult(t, 0)
  }

  /** The TAKE branch: the defender gives up and the others may throw in. */
  function TakeTransition(t: TurnStages): (r: SkipResult)
    ensures r.skipCounter == 0
    ensures r.stages.turnStage == Some(Followup) && r.stages.lastTurnStage == t.turnStage
  {
    SkipResult(SetTurnStage(t, Followup), 0)
  }

  /** `letDefend`'s rewrite once the defender has been offered its options. */
  function DefenseRewrite(t: TurnStages): (r: TurnStages)
    ensures r == t || r.lastTurnStage == t.turnStage
    ensures r != t ==> r.turnStage.Some? && r.turnStage.value in {RepeatingAttack, Support, Attack}
    ensures t.lastTurnStage == Some(Attack) ==> r.turnStage == Some(Support)
    ensures t.lastTurnStage == Some(Support) ==> r.turnStage == Some(Attack)
    ensures t.lastTurnStage == Some(InitialAttack) || t.lastTurnStage == Some(RepeatingAttack) ==>
      r == SetTurnStage(t, RepeatingAttack)
    ensures t.lastTurnStage !in {Some(InitialAttack), Some(RepeatingAttack), Some(Support), Some(Attack)} ==> r == t
  {
    match t.lastTurnStage
    case Some(InitialAttack) => SetTurnStage(t, RepeatingAttack)
    case Some(RepeatingAttack) => SetTurnStage(t, RepeatingAttack)
    case Some(Support) => SetTurnStage(t, Attack)
    case Some(Attack) => SetTurnStage(t, Support)
    case _ => t
  }

  /** The stages `continueTurn` hands to `letAttack`. */
  predicate IsAttackStage(s: Stage) {
    s == InitialAttack || s == RepeatingAttack || s == Support || s == Attack || s == Followup
  }

  // ---- Properties of the tables ----

  /** The missing `break`: with an ally, a skip after REPEATING_ATTACK passes
      the turn to the ally (SUPPORT) and counts twice. */
  lemma SkipAfterRepeatingAttackCountsTwice(t: TurnStages, skipCounter: nat)
    requires t.lastTurnStage == Some(RepeatingAttack)
    ensures SkipTransition(t, skipCounter, true).skipCounter == skipCounter + 2
    ensures SkipTransition(t, skipCounter, true).stages == TurnStages(Some(Support), t.turnStage)
  {
  }

  /** Because of that double count, the ally's own skip that follows (letAttack
      has moved the pair to (DEFENSE, SUPPORT)) never hands the turn back to the
      attacker: the field is then considered fully attacked and the stage
      stays DEFENSE. With a `break` the outcome would be the same, so the
      missing `break` is harmless to the stage sequence. */
  lemma AllySkipAfterRepeatingSkipEndsAttacks(t: TurnStages, skipCounter: nat)
    requires t.lastTurnStage == Some(RepeatingAttack)
    ensures
      var first := SkipTransition(t, skipCounter, true);
      var offered := SetTurnStage(first.stages, Defense);
      var second := SkipTransition(offered, first.skipCounter, true);
      && second.stages == offered
      && second.stages.turnStage == Some(Defense)
      // the same second skip after a REPEATING_ATTACK case that did break
      && SkipDefault(offered, skipCounter + 1).stages == offered
  {
  }

  /** Attacker and ally alternate once each: a first skip under ATTACK or
      SUPPORT passes to the other one, a second skip in a row does not. */
  lemma SkipAlternatesOnce(t: TurnStages, last: Stage)
    requires last == Attack || last == Support
    requires t.lastTurnStage == Some(last)
    ensures SkipTransition(t, 0, true).skipCounter == 1
    ensures SkipTransition(t, 0, true).stages.turnStage == Some(if last == Attack then Support else Attack)
    ensures SkipTransition(t, 1, true).stages == t
  {
  }

  /** Without an ally a skip changes neither the stages nor the counter. */
  lemma SkipWithoutAllyChangesNothing(t: TurnStages, skipCounter: nat)
    ensures SkipTransition(t, skipCounter, false) == SkipResult(t, skipCounter)
  {
  }

  /** After `letDefend` the next stage is again an attacking stage, or it is
      left unchanged when the previous stage was not an attack stage. */
  lemma DefenseRewriteLeadsToAttack(t: TurnStages)
    requires t.lastTurnStage.Some? && t.lastTurnStage.value in {InitialAttack, RepeatingAttack, Support, Attack}
    ensures DefenseRewrite(t).turnStage.Some?
    ensures DefenseRewrite(t).turnStage.value in {RepeatingAttack, Support, Attack}
    ensures DefenseRewrite(t).lastTurnStage == t.turnStage
  {
  }
}

=== FILE: timer.dfy ===
/** `waitForResponse` and the arming half of `setResponseTimer`
    (serverjs/gamelogic.js): the players owed a response are queued and a
    single timer is armed, with the window stretched to thirty seconds when a
    player is seen disconnected for the first time. What the timer does when
    it fires is the `Timeout` event of module Responses. */
module Timer {
  import opened Util
  import opened Cards
  import opened GameState

  /** The players of `players` that are offline and not yet recorded in
      `known`, in seat order. */
  function NewlyDisconnected(players: seq<PlayerId>, offline: set<PlayerId>, known: seq<PlayerId>): (r: seq<PlayerId>)
    ensures forall p :: p in r <==> p in players && p in offline && p !in known
    ensures NoDup(players) ==> NoDup(r)
  {
    if players == [] then []
    else
      var rest := NewlyDisconnected(players[1..], offline, known);
      if players[0] in offline && players[0] !in known then [players[0]] + rest else rest
  }

  /** `setResponseTimer(time)`: re-arms the one timer (the previous one is
      cancelled by the overwrite) and records every newly disconnected player.
      The window is `time`, or thirty seconds as soon as one player is seen
      offline for the first time. */
  function SetResponseTimer(g: Game, time: nat): (r: Game)
    ensures r == g.(timer := r.timer, disconnectedPlayers := r.disconnectedPlayers)
    ensures r.disconnectedPlayers ==
      g.disconnectedPlayers + NewlyDisconnected(g.players, g.offline, g.disconnectedPlayers)
    ensures r.timer.Some?
    ensures r.timer.value == ReconnectSeconds <==>
      time == ReconnectSeconds || exists p :: p in g.players && p in g.offline && p !in g.disconnectedPlayers
    ensures r.timer.value != ReconnectSeconds ==> r.timer.value == time
  {
    var newcomers := NewlyDisconnected(g.players, g.offline, g.disconnectedPlayers);
    var window := if newcomers != [] then ReconnectSeconds else time;
    assert newcomers != [] ==> newcomers[0] in newcomers;
    g.(timer := Some(window), disconnectedPlayers := g.disconnectedPlayers + newcomers)
  }

  /** `waitForResponse(time, players)`: the given players now owe a response. */
  function WaitForResponse(g: Game, ps: seq<PlayerId>): (r: Game)
    ensures r == g.(playersActing := r.playersActing, timer := r.timer,
                    disconnectedPlayers := r.disconnectedPlayers)
    ensures r.playersActing == g.playersActing + ps
    ensures r.timer.Some?
    ensures forall p | p in g.disconnectedPlayers :: p in r.disconnectedPlayers
  {
    SetResponseTimer(g.(playersActing := g.playersActing + ps), ResponseSeconds)
  }

  /** A player is escalated at most once: after one arming has recorded it, a
      later arming with nobody else newly offline uses the plain window. */
  lemma EscalatesOnce(g: Game, time: nat, time': nat)
    requires time != ReconnectSeconds && time' != ReconnectSeconds
    ensures
      var r := SetResponseTimer(g, time);
      var r' := SetResponseTimer(r, time');
      r'.timer == Some(time')
  {
    var r := SetResponseTimer(g, time);
    var newcomers := NewlyDisconnected(g.players, g.offline, g.disconnectedPlayers);
    forall p | p in g.players && p in g.offline
      ensures p in r.disconnectedPlayers
    {
      if p !in g.disconnectedPlayers {
        assert p in newcomers;
      }
    }
  }
}

=== FILE: turns.dfy ===
/** `continueTurn` of serverjs/gamelogic.js and everything it dispatches to:
    the opening deal, the choice of the first attacker, the start of every
    turn, `letAttack`, `letDefend`, `discardAndNotify`, `dealTillFullHand`
    and the tail of `deal`. One call of `ContinueTurn` is one pass through
    `continueTurn`; where the code calls `continueTurn` again the pass ends
    in `Resume`, and `Advance` runs the passes one after another. `Handle`
    puts a response or a time-out together with the passes it triggers. */
module Turns {
  import opened Util
  import opened Cards
  import opened Field
  import opened Stages
  import opened GameState
  import opened Timer
  import opened Moves
  import opened Dealing
  import opened Options
  import opened Roles
  import opened Responses

  /** Where one pass of `continueTurn` leaves the game. */
  datatype Step =
    | Rest(g: Game)      // the engine waits for the next response or time-out
    | Resume(g: Game)    // `continueTurn` runs again straight away
    | GameOver(g: Game)  // `findPlayerToGoNext` returned false

  // ---- Dealing ----

  /** The tail of `deal`: every player acknowledges the cards dealt, or the
      turn goes on at once when the deck had nothing to give. */
  function DealStep(g: Game, requests: seq<DealRequest>): (s: Step)
    requires DeckInRange(g) && forall i | 0 <= i < |requests| :: requests[i].pid in g.hands
    ensures !s.GameOver?
    ensures s.g == g.(deck := s.g.deck, hands := s.g.hands, cards := s.g.cards, playersActing := s.g.playersActing,
                      timer := s.g.timer, disconnectedPlayers := s.g.disconnectedPlayers)
    ensures s.g.playersActing == g.playersActing + (if s.Rest? then g.players else [])
  {
    var (r, outs) := Deal(g, requests);
    if outs != [] then Rest(WaitForResponse(r, g.players)) else Resume(r)
  }

  /** The seat `dealTillFullHand` starts from: the attacker's, or seat 0 when
      the attacker is not seated. */
  function StartSeat(g: Game): (i: nat)
    ensures g.attacker.Some? && g.attacker.value in g.players ==> i < |g.players| && g.players[i] == g.attacker.value
    ensures g.attacker.None? || g.attacker.value !in g.players ==> i == 0
  {
    var i := if g.attacker.Some? then IndexOf(g.players, g.attacker.value) else -1;
    if i == -1 then 0 else i
  }

  /** `dealTillFullHand`: seat by seat from the attacker, every hand below
      six cards asks for the missing ones; with no such hand the turn goes on. */
  function DealTillFullHand(g: Game): (s: Step)
    requires DeckInRange(g) && forall p | p in g.players :: p in g.hands
    ensures !s.GameOver?
    ensures s.g == g.(deck := s.g.deck, hands := s.g.hands, cards := s.g.cards, playersActing := s.g.playersActing,
                      timer := s.g.timer, disconnectedPlayers := s.g.disconnectedPlayers)
    ensures s.g.playersActing == g.playersActing + (if s.Rest? then g.players else [])
  {
    var requests := FullHandRequests(g.players, g.hands, StartSeat(g));
    if requests == [] then Resume(g) else DealStep(g, requests)
  }

  /** Every opening request is for a seated player. */
  lemma OpeningRequestsSeated(players: seq<PlayerId>)
    ensures forall i | 0 <= i < |OpeningRequests(players)| :: OpeningRequests(players)[i].pid in players
  {
    forall i | 0 <= i < |OpeningRequests(players)| ensures OpeningRequests(players)[i].pid in players {
      RoundsPids(players, NormalHandSize, i);
    }
  }

  // ---- The first passes ----

  /** The first pass of `continueTurn`: the game starts, every player gets
      an empty hand, and six rounds of one card each are dealt. */
  function Start(g: Game): (s: Step)
    requires Shaped(g) && !g.gameStarted
    ensures !s.GameOver?
  {
    var started := g.(gameStarted := true, hands := map p | p in g.players :: []);
    OpeningRequestsSeated(g.players);
    DealStep(started, OpeningRequests(g.players))
  }

  /** The roles of a new turn recorded on the game. */
  function WithRoles(g: Game, roles: Roles): (r: Game)
    ensures r.attacker == Some(roles.attacker) && r.defender == Some(roles.defender) && r.ally == roles.ally
  {
    g.(attacker := Some(roles.attacker), defender := Some(roles.defender), ally := roles.ally)
  }

  /** A game's seated players: at least as many as the active ones, and each
      with a hand of card ids once the game has started. */
  lemma Seating(g: Game)
    requires Shaped(g)
    ensures |g.activePlayers| <= |g.players|
    ensures g.gameStarted ==> HandsInRange(g.players, g.hands, g.cards)
    ensures g.gameStarted ==> forall p | p in g.activePlayers :: p in g.hands
  {
    NoDupSubsetLength(g.activePlayers, g.players);
  }

  /** `findPlayerToGoFirst`, with the intended default seats of a two-player
      game that has no trump dealt, where the code throws: the holder of the
      lowest trump attacks and every player is told so, or seats 0 and 1
      (and 2) play at once. */
  function FirstTurn(g: Game): (s: Step)
    requires Shaped(g) && g.gameStarted && |g.players| >= 2
    ensures !s.GameOver?
  {
    Seating(g);
    var first := GoFirstFixed(g.players, |g.activePlayers|, g.hands, g.cards, g.trumpSuit, g.ally);
    if first.ByTrump? then Rest(WaitForResponse(WithRoles(g, first.roles), g.players))
    else Resume(WithRoles(g, first.roles))
  }

  /** `turnNumber++` and `setTurnStage('INITIAL_ATTACK')`. */
  function Begin(g: Game): (r: Game)
    ensures r.turnNumber == g.turnNumber + 1 && r.stages == TurnStages(Some(InitialAttack), g.stages.turnStage)
  {
    SetStage(g.(turnNumber := g.turnNumber + 1), InitialAttack)
  }

  /** The start of a turn: after an ENDED turn the players left are counted
      and the roles rotate, or the game ends. The rotation is the intended
      one of `findPlayerToGoNext`, `GoNext`; `NewTurnFollowsCode` shows it
      agrees with the code as written while nobody drops out. */
  function NewTurn(g: Game): (s: Step)
    requires Shaped(g) && g.gameStarted
    requires g.stages.turnStage.None? || g.stages.turnStage == Some(Ended)
    ensures !s.Rest?
  {
    if g.stages.turnStage == Some(Ended) then
      Seating(g);
      var next := GoNext(g.activePlayers, g.hands, g.deck == [], g.attacker);
      if next.GameEnds? then GameOver(g.(activePlayers := next.active))
      else Resume(Begin(WithRoles(g.(activePlayers := next.active), next.roles)))
    else Resume(Begin(g))
  }

  // ---- Attack and defense ----

  /** Who `continueTurn` lets attack in an attacking stage: the ally under
      SUPPORT, and under FOLLOWUP once a skip has been counted; otherwise,
      and whenever there is no ally, the attacker. */
  function Thrower(g: Game): (pid: PlayerId)
    requires g.attacker.Some?
    ensures pid == g.attacker.value || g.ally == Some(pid)
    ensures g.ally.None? ==> pid == g.attacker.value
  {
    var attacker := g.attacker.value;
    match g.stages.turnStage
    case Some(Support) => g.ally.GetOr(attacker)
    case Some(Followup) => if g.skipCounter == 0 then attacker else g.ally.GetOr(attacker)
    case _ => attacker
  }

  /** A follow-up throw keeps the follow-up going with the same thrower:
      the stage returns to FOLLOWUP with the skip count untouched, so
      `continueTurn` lets the attacker throw again before any skip, and the
      ally after one. */
  lemma FollowupThrowKeepsThrower(g: Game, p: PlayerId, a: Action)
    requires p in g.hands && ActionInRange(g, a) && a.AttackWith?
    requires g.attacker.Some? && g.stages.lastTurnStage == Some(Followup)
    ensures
      var r := Perform(g, p, a);
      && r.stages.turnStage == Some(Followup) && r.skipCounter == g.skipCounter
      && Thrower(r) == (if g.skipCounter == 0 then g.attacker.value else g.ally.GetOr(g.attacker.value))
  {
  }

  /** Who throws after a defense has been offered: the attacker after the
      opening or a repeated attack and after the ally's support, the ally
      (when there is one) after the attacker's ATTACK; attacker and ally
      take turns. */
  lemma DefenseRewriteNextThrower(g: Game)
    requires g.attacker.Some?
    requires g.stages.lastTurnStage in {Some(InitialAttack), Some(RepeatingAttack), Some(Support), Some(Attack)}
    ensures
      var h := g.(stages := DefenseRewrite(g.stages));
      Thrower(h) == (if g.stages.lastTurnStage == Some(Attack) then g.ally.GetOr(g.attacker.value) else g.attacker.value)
  {
  }

  /** The guard of `letAttack`: the field is full, or the defender has no
      card left to answer with outside a follow-up. */
  predicate AttacksOver(g: Game)
    requires g.defender.Some? && g.defender.value in g.hands
  {
    g.fieldUsedSpots >= g.fullField
    || (g.stages.turnStage != Some(Followup) && g.hands[g.defender.value] == [])
  }

  /** `letAttack(pid)`: when no more attacks are possible the stage becomes
      DEFENSE and the turn goes on; otherwise the throwable cards (and SKIP
      after the opening attack) are offered to `pid`, the stage becomes
      DEFENSE and `pid` owes a response. */
  function LetAttack(g: Game, pid: PlayerId): (s: Step)
    requires CardsInRange(g) && pid in g.hands && g.defender.Some? && g.defender.value in g.hands
    ensures !s.GameOver?
  {
    if AttacksOver(g) then Resume(SetStage(g, Defense))
    else
      FieldCardsInRange(g.field, |g.cards|);
      Rest(WaitForResponse(SetStage(g, Defense).(validActions := AttackOptions(g, pid)), [pid]))
  }

  /** `letDefend(pid)`. After a follow-up the defender takes every card on
      the field, becomes the attacker of record and the turn ends; otherwise
      the defender is offered the answers to the first unanswered attack
      card, or the turn ends when every attack is answered. */
  function LetDefend(g: Game, pid: PlayerId): (s: Step)
    requires CardsInRange(g) && pid in g.hands
    ensures !s.GameOver?
  {
    if g.stages.lastTurnStage == Some(Followup) then
      Rest(WaitForResponse(SetStage(TakeField(g, pid).(attacker := Some(pid)), End), g.players))
    else
      match FirstUnanswered(g.field)
      case None => Resume(SetStage(g, End))
      case Some(slot) =>
        assert g.field[slot].attack.value in SpotCards(g.field[slot]);
        Rest(WaitForResponse(g.(validActions := DefenseOptions(g, pid, slot),
                                stages := DefenseRewrite(g.stages)), [pid]))
  }

  // ---- End of a turn ----

  /** `fullField` after a discard: one more usable slot after the first
      discard of the game, never more than `fieldSize`. */
  function Grown(fullField: nat): (r: nat)
    ensures fullField <= FieldSize ==> r <= FieldSize
    ensures ZeroDiscardFieldSize <= fullField ==> r == FieldSize || r == fullField
    ensures fullField <= r <= fullField + 1
  {
    if fullField <= ZeroDiscardFieldSize then fullField + 1 else fullField
  }

  /** `discardAndNotify`: the field goes to the discard pile and the turn
      counters are cleared. When cards were discarded the usable field may
      grow, the stage becomes END_DEAL and every player acknowledges the
      discard; otherwise the stage becomes ENDED and the hands are filled up. */
  function DiscardAndNotify(g: Game): (s: Step)
    requires Shaped(g) && g.gameStarted
    ensures !s.GameOver?
  {
    var cleared := DiscardField(g).(stages := g.stages.(lastTurnStage := None), fieldUsedSpots := 0, skipCounter := 0);
    if FieldCards(g.field) != [] then
      Rest(WaitForResponse(cleared.(fullField := Grown(g.fullField),
                                    stages := cleared.stages.(turnStage := Some(EndDeal))), g.players))
    else
      DealTillFullHand(cleared.(stages := cleared.stages.(turnStage := Some(Ended))))
  }

  // ---- continueTurn ----

  /** One pass of `continueTurn`. */
  function ContinueTurn(g: Game): (s: Step)
    requires Shaped(g) && |g.players| >= 2
    ensures !g.gameStarted ==> s.g.gameStarted && !s.GameOver?
    ensures g.gameStarted && g.attacker.None? ==> s.g.attacker.Some? && s.g.defender.Some?
    ensures s.GameOver? ==> g.gameStarted && g.attacker.Some? && g.stages.turnStage == Some(Ended)
  {
    if !g.gameStarted then Start(g)
    else if g.attacker.None? then FirstTurn(g)
    else if g.stages.turnStage == Some(EndDeal) then
      DealTillFullHand(g.(stages := g.stages.(turnStage := Some(Ended))))
    else if g.stages.turnStage.None? || g.stages.turnStage == Some(Ended) then NewTurn(g)
    else if g.stages.turnStage == Some(Defense) then LetDefend(g, g.defender.value)
    else if g.stages.turnStage == Some(End) then DiscardAndNotify(g)
    else LetAttack(g, Thrower(g))
  }

  /** Up to `fuel` passes of `continueTurn`, as long as each calls the next;
      every state reached keeps the invariant. */
  function Advance(g: Game, fuel: nat): (s: Step)
    requires Inv(g) && Idle(g) && |g.players| >= 2
    ensures Inv(s.g) && s.g.players == g.players
    ensures s.Resume? ==> Idle(s.g)
    decreases fuel
  {
    if fuel == 0 then Resume(g)
    else
      ContinueTurnInv(g);
      var s := ContinueTurn(g);
      if s.Resume? then Advance(s.g, fuel - 1) else s
  }

  /** What reaches the engine from outside: a player's response, naming an
      action by its index in `validActions` or none, or the response timer
      running out. */
  datatype Event = Answer(p: PlayerId, action: Option<nat>) | Expire

  /** What an event does before `continueTurn` runs: a response goes
      through `recieveResponse`, an expiry through the timer's callback. */
  function Receive(g: Game, e: Event): (o: Outcome)
    requires Inv(g)
    ensures e.Expire? ==> !o.Ignored?
    ensures e.Answer? && e.p !in g.playersActing ==> o.Ignored?
    ensures e.Answer? && e.action.Some? && e.action.value >= |g.validActions| ==> o.Ignored?
  {
    match e
    case Answer(p, action) => Respond(g, p, action)
    case Expire => Timeout(g)
  }

  /** Every event the engine does not ignore keeps the invariant and the
      seating, and hands over to `continueTurn` only with nothing on offer
      and nobody owing a response. */
  lemma ReceiveInv(g: Game, e: Event)
    requires Inv(g)
    ensures
      var o := Receive(g, e);
      && (!o.Ignored? ==> Inv(o.g) && o.g.players == g.players)
      && (o.Proceed? ==> Idle(o.g))
  {
    match e
    case Answer(p, action) =>
      RespondInv(g, p, action);
      RespondSpec(g, p, action);
    case Expire =>
      TimeoutSpec(g);
  }

  /** An event and the passes of `continueTurn` it sets off. A response the
      engine ignores leaves the game as it was. */
  function Handle(g: Game, e: Event, fuel: nat): (s: Step)
    requires Inv(g) && |g.players| >= 2
    ensures Inv(s.g) && s.g.players == g.players
  {
    ReceiveInv(g, e);
    var o := Receive(g, e);
    if o.Ignored? then Rest(g)
    else if o.Awaiting? then Rest(o.g)
    else Advance(o.g, fuel)
  }

  // ---- The invariant across continueTurn ----

  /** Every pass of `continueTurn` from a state at rest keeps the invariant
      and the seating; a pass that calls `continueTurn` again leaves nothing
      on offer and nobody owing a response, and one that stops has somebody
      to wait for and the timer armed. */
  lemma ContinueTurnInv(g: Game)
    requires Inv(g) && Idle(g) && |g.players| >= 2
    ensures
      var s := ContinueTurn(g);
      && Inv(s.g) && s.g.players == g.players
      && (s.Resume? ==> Idle(s.g))
      && (s.Rest? ==> s.g.playersActing != [] && s.g.timer.Some?)
  {
    if !g.gameStarted {
      StartInv(g);
    } else if g.attacker.None? {
      FirstTurnInv(g);
    } else if g.stages.turnStage == Some(EndDeal) {
      var h := g.(stages := g.stages.(turnStage := Some(Ended)));
      ConservedFrame(g, h);
      DealTillFullHandInv(h);
    } else if g.stages.turnStage.None? || g.stages.turnStage == Some(Ended) {
      NewTurnInv(g);
    } else if g.stages.turnStage == Some(Defense) {
      LetDefendInv(g, g.defender.value);
    } else if g.stages.turnStage == Some(End) {
      DiscardInv(g);
    } else {
      LetAttackInv(g, Thrower(g));
    }
  }

  /** A state at rest with its cards conserved: the conditions under which
      a pass of `continueTurn` keeps the invariant. */
  ghost predicate Steady(g: Game) {
    Inv(g) && Idle(g)
  }

  /** What a pass promises about the state it leaves. */
  ghost predicate Lands(g: Game, s: Step) {
    && Inv(s.g) && s.g.players == g.players
    && (s.Resume? ==> Idle(s.g))
    && (s.Rest? ==> s.g.playersActing != [] && s.g.timer.Some?)
  }

  /** Changing roles, stages and the turn counters keeps a state at rest
      steady when the roles are seated and the field discipline holds. */
  lemma Rearranged(g: Game, r: Game)
    requires Steady(g)
    requires r == g.(stages := r.stages, turnNumber := r.turnNumber, attacker := r.attacker,
                     defender := r.defender, ally := r.ally, activePlayers := r.activePlayers,
                     fieldUsedSpots := r.fieldUsedSpots, skipCounter := r.skipCounter, fullField := r.fullField)
    requires RolesShaped(r) && NoDup(r.activePlayers) && (forall p | p in r.activePlayers :: p in g.players)
    requires r.fullField <= FieldSize && FieldOk(r)
    ensures Steady(r)
  {
    ConservedFrame(g, r);
    assert CardsInRange(r);
  }

  lemma DealStepInv(g: Game, requests: seq<DealRequest>)
    requires Steady(g) && |g.players| >= 1
    requires forall i | 0 <= i < |requests| :: requests[i].pid in g.hands
    ensures DeckInRange(g)
    ensures Lands(g, DealStep(g, requests))
  {
    DealtSteady(g, requests);
    var (r, outs) := Deal(g, requests);
    if outs != [] {
      WaitKeepsInv(r, g.players);
    }
  }

  /** Dealing alone keeps a state at rest steady. */
  lemma DealtSteady(g: Game, requests: seq<DealRequest>)
    requires Steady(g)
    requires forall i | 0 <= i < |requests| :: requests[i].pid in g.hands
    ensures DeckInRange(g)
    ensures Steady(Deal(g, requests).0)
  {
    DealConserves(g, requests);
    var r := Deal(g, requests).0;
    assert FieldOk(r) && Protocol(r);
  }

  lemma DealTillFullHandInv(g: Game)
    requires Steady(g) && g.gameStarted && |g.players| >= 1
    ensures DeckInRange(g)
    ensures Lands(g, DealTillFullHand(g))
  {
    var requests := FullHandRequests(g.players, g.hands, StartSeat(g));
    if requests != [] {
      DealStepInv(g, requests);
    }
  }

  lemma StartInv(g: Game)
    requires Steady(g) && !g.gameStarted && |g.players| >= 1
    ensures Lands(g, Start(g))
  {
    var started := Started(g);
    OpeningRequestsSeated(g.players);
    DealStepInv(started, OpeningRequests(g.players));
  }

  /** The game marked started, every player with an empty hand. */
  lemma Started(g: Game) returns (started: Game)
    requires Steady(g) && !g.gameStarted
    ensures started == g.(gameStarted := true, hands := map p | p in g.players :: [])
    ensures Steady(started)
  {
    started := g.(gameStarted := true, hands := map p | p in g.players :: []);
    StartedConserved(g, started);
    StartedShaped(g, started);
    assert FieldOk(started) by {
      assert started.field == g.field && started.fieldUsedSpots == g.fieldUsedSpots;
    }
    assert Idle(started) && Protocol(started);
  }

  /** Empty hands for everyone hold no cards, so the cards stay conserved. */
  lemma StartedConserved(g: Game, r: Game)
    requires Conserved(g) && g.hands == map[]
    requires r == g.(gameStarted := true, hands := r.hands)
    requires forall p | p in r.hands :: r.hands[p] == []
    ensures Conserved(r)
  {
    NoHandsHoldCards(g.players, r.hands);
    NoHandsHoldCards(g.players, g.hands);
    assert AllCards(r) == AllCards(g);
    forall c | 0 <= c < |g.cards| ensures LocatedAt(r, c) {
      assert LocatedAt(g, c);
    }
  }

  /** Starting the game seats an empty hand for every player. */
  lemma StartedShaped(g: Game, r: Game)
    requires Shaped(g)
    requires r == g.(gameStarted := true, hands := map p | p in g.players :: [])
    ensures Shaped(r)
  {
    assert CardsInRange(r);
  }

  /** Hands without cards contribute no cards. */
  lemma {:induction false} NoHandsHoldCards(ps: seq<PlayerId>, hands: map<PlayerId, seq<CardId>>)
    requires forall p | p in hands :: hands[p] == []
    ensures HandCards(ps, hands) == []
  {
    if ps != [] {
      NoHandsHoldCards(ps[1..], hands);
    }
  }

  lemma FirstTurnInv(g: Game)
    requires Steady(g) && g.gameStarted && g.attacker.None? && |g.players| >= 2
    ensures Lands(g, FirstTurn(g))
  {
    Seating(g);
    var first := GoFirstFixed(g.players, |g.activePlayers|, g.hands, g.cards, g.trumpSuit, g.ally);
    var h := WithRoles(g, first.roles);
    Rearranged(g, h);
    if first.ByTrump? {
      WaitKeepsInv(h, g.players);
    }
  }

  lemma NewTurnInv(g: Game)
    requires Steady(g) && g.gameStarted && g.attacker.Some?
    requires g.stages.turnStage.None? || g.stages.turnStage == Some(Ended)
    ensures Lands(g, NewTurn(g))
  {
    Seating(g);
    if g.stages.turnStage == Some(Ended) {
      var next := GoNext(g.activePlayers, g.hands, g.deck == [], g.attacker);
      SurvivorsNoDup(g.activePlayers, g.hands, g.deck == []);
      var h := g.(activePlayers := next.active);
      if next.GameEnds? {
        Rearranged(g, h);
      } else {
        var s := next.active;
        var k := IndexOf(s, next.roles.attacker);
        assert next.roles.defender in s;
        assert next.roles.ally.Some? ==> next.roles.ally.value in s by {
          if next.roles.ally.Some? {
            assert next.roles.ally.value == s[NextSeat(NextSeat(k, |s|), |s|)];
          }
        }
        Rearranged(g, Begin(WithRoles(h, next.roles)));
      }
    } else {
      Rearranged(g, Begin(g));
    }
  }

  /** Publishing actions that are all applicable for one seated player, who
      then owes the only response, keeps the invariant. */
  lemma PublishInv(g: Game, h: Game, pid: PlayerId)
    requires Steady(g) && pid in g.players && pid in g.hands
    requires h == g.(validActions := h.validActions, stages := h.stages)
    requires forall i | 0 <= i < |h.validActions| :: ActionInRange(g, h.validActions[i]) && Applicable(g, pid, h.validActions[i])
    ensures Lands(g, Rest(WaitForResponse(h, [pid])))
  {
    var r := WaitForResponse(h, [pid]);
    ConservedFrame(g, r);
    OffersShaped(g, r);
    OffersProtocol(g, r, pid);
  }

  /** Publishing in-range actions to seated players keeps the shape. */
  lemma OffersShaped(g: Game, r: Game)
    requires Shaped(g)
    requires r == g.(validActions := r.validActions, stages := r.stages, playersActing := r.playersActing,
                     timer := r.timer, disconnectedPlayers := r.disconnectedPlayers)
    requires forall p | p in r.playersActing :: p in g.players
    requires forall i | 0 <= i < |r.validActions| :: ActionInRange(g, r.validActions[i])
    ensures Shaped(r)
  {
    assert CardsInRange(r);
  }

  /** Actions applicable for the one player who owes the response satisfy
      the response protocol. */
  lemma OffersProtocol(g: Game, r: Game, pid: PlayerId)
    requires r.hands == g.hands && r.field == g.field && r.fieldUsedSpots == g.fieldUsedSpots
    requires r.playersActing == [pid] && pid in g.hands
    requires forall i | 0 <= i < |r.validActions| :: Applicable(g, pid, r.validActions[i])
    ensures Protocol(r)
  {
    forall i | 0 <= i < |r.validActions| ensures Applicable(r, pid, r.validActions[i]) {
      assert Applicable(g, pid, r.validActions[i]);
    }
  }

  lemma LetAttackInv(g: Game, pid: PlayerId)
    requires Steady(g) && g.gameStarted && pid in g.players
    requires g.defender.Some? && g.defender.value in g.players
    ensures pid in g.hands && g.defender.value in g.hands
    ensures Lands(g, LetAttack(g, pid))
  {
    if AttacksOver(g) {
      Rearranged(g, SetStage(g, Defense));
    } else {
      FieldCardsInRange(g.field, |g.cards|);
      var acts := AttackOptions(g, pid);
      AttackOptionsSpec(g, pid);
      var h := SetStage(g, Defense).(validActions := acts);
      forall i | 0 <= i < |acts| ensures ActionInRange(g, acts[i]) && Applicable(g, pid, acts[i]) {
        assert acts[i] in acts;
        if acts[i].AttackWith? {
          assert g.fieldUsedSpots < |g.field|;
        }
      }
      PublishInv(g, h, pid);
    }
  }

  lemma LetDefendInv(g: Game, pid: PlayerId)
    requires Steady(g) && g.gameStarted && g.attacker.Some? && pid in g.players
    ensures pid in g.hands
    ensures Lands(g, LetDefend(g, pid))
  {
    if g.stages.lastTurnStage == Some(Followup) {
      TakeInv(g, pid);
    } else {
      match FirstUnanswered(g.field)
      case None =>
        Rearranged(g, SetStage(g, End));
      case Some(slot) =>
        assert g.field[slot].attack.value in SpotCards(g.field[slot]);
        var acts := DefenseOptions(g, pid, slot);
        DefenseOptionsSpec(g, pid, slot);
        var h := g.(validActions := acts, stages := DefenseRewrite(g.stages));
        forall i | 0 <= i < |acts| ensures ActionInRange(g, acts[i]) && Applicable(g, pid, acts[i]) {
          assert acts[i] in acts;
        }
        PublishInv(g, h, pid);
    }
  }

  lemma TakeInv(g: Game, pid: PlayerId)
    requires Steady(g) && g.gameStarted && g.attacker.Some? && pid in g.players
    ensures pid in g.hands
    ensures Lands(g, Rest(WaitForResponse(SetStage(TakeField(g, pid).(attacker := Some(pid)), End), g.players)))
  {
    TakeFieldConserves(g, pid);
    var took := TakeField(g, pid);
    assert FieldOk(took);
    var h := SetStage(took.(attacker := Some(pid)), End);
    assert RolesShaped(h);
    Rearranged(took, h);
    WaitKeepsInv(h, g.players);
  }

  lemma DiscardInv(g: Game)
    requires Steady(g) && g.gameStarted && |g.players| >= 1
    ensures Lands(g, DiscardAndNotify(g))
  {
    var cleared := Cleared(g);
    if FieldCards(g.field) != [] {
      var h := cleared.(fullField := Grown(g.fullField), stages := cleared.stages.(turnStage := Some(EndDeal)));
      Rearranged(cleared, h);
      WaitKeepsInv(h, g.players);
    } else {
      var h := cleared.(stages := cleared.stages.(turnStage := Some(Ended)));
      Rearranged(cleared, h);
      DealTillFullHandInv(h);
    }
  }

  /** The discard with the turn counters cleared, before the stage is set. */
  lemma Cleared(g: Game) returns (cleared: Game)
    requires Steady(g)
    ensures cleared == DiscardField(g).(stages := g.stages.(lastTurnStage := None), fieldUsedSpots := 0, skipCounter := 0)
    ensures Steady(cleared)
  {
    DiscardFieldConserves(g);
    var d := DiscardField(g);
    cleared := d.(stages := g.stages.(lastTurnStage := None), fieldUsedSpots := 0, skipCounter := 0);
    ShapedFrame(d, cleared);
    ConservedFrame(d, cleared);
    assert FieldOk(cleared);
  }

  // ---- What each pass does ----

  /** `letAttack`: when the field is full or the defender (outside a
      follow-up) has no cards, nothing is offered and the stage moves to
      DEFENSE with nothing else changed. Otherwise `pid` alone is awaited and
      offered exactly the hand cards that may be thrown in, all aimed at the
      first free slot, SKIP exactly when this is not the opening attack, and
      neither TAKE nor a defense; the stage moves to DEFENSE and no card
      moves. */
  lemma LetAttackSpec(g: Game, pid: PlayerId)
    requires CardsInRange(g) && pid in g.hands && g.defender.Some? && g.defender.value in g.hands
    ensures IdsInRange(g.cards, FieldCards(g.field))
    ensures
      var s := LetAttack(g, pid);
      && s.g.stages == TurnStages(Some(Defense), g.stages.turnStage)
      && (s.Resume? <==> AttacksOver(g))
      && (s.Resume? ==> s.g == g.(stages := s.g.stages))
      && (s.Rest? ==>
            var acts := s.g.validActions;
            && s.g.playersActing == g.playersActing + [pid]
            && s.g.cards == g.cards && s.g.hands == g.hands && s.g.field == g.field && s.g.deck == g.deck
            && (forall cid | cid in g.hands[pid] :: AttackWith(cid, g.fieldUsedSpots) in acts <==> MayThrow(g, cid))
            && (forall a | a in acts && a.AttackWith? :: a.slot == g.fieldUsedSpots && a.cid in g.hands[pid])
            && (Skip in acts <==> g.stages.turnStage != Some(InitialAttack))
            && (forall a | a in acts :: !a.DefendWith? && a != Take))
  {
    FieldCardsInRange(g.field, |g.cards|);
    if !AttacksOver(g) {
      AttackOptionsSpec(g, pid);
    }
  }

  /** `letDefend`. After a follow-up the defender takes every field card
      into its hand, the slots are emptied, the defender becomes the
      attacker of record, the stage becomes END and every player is
      awaited. Otherwise, with every attack answered, the stage becomes END
      and the turn goes on; with an unanswered attack the defender alone is
      awaited and offered exactly the hand cards that beat the first
      unanswered attack card, aimed at its slot, with TAKE last. */
  lemma LetDefendSpec(g: Game, pid: PlayerId)
    requires CardsInRange(g) && pid in g.hands
    ensures
      var s := LetDefend(g, pid);
      && (g.stages.lastTurnStage == Some(Followup) ==>
            && s.Rest?
            && s.g.hands == g.hands[pid := g.hands[pid] + FieldCards(g.field)]
            && FieldCards(s.g.field) == [] && (forall i | 0 <= i < |s.g.field| :: s.g.field[i] == EmptySpot)
            && (forall c | c in FieldCards(g.field) :: c < |s.g.cards| && s.g.cards[c].position == Held(pid))
            && s.g.attacker == Some(pid)
            && s.g.stages == TurnStages(Some(End), g.stages.turnStage)
            && s.g.playersActing == g.playersActing + g.players
            && s.g.deck == g.deck && s.g.discardPile == g.discardPile)
      && (s.Resume? <==>
            g.stages.lastTurnStage != Some(Followup)
            && forall i | 0 <= i < |g.field| :: !(g.field[i].attack.Some? && g.field[i].defense.None?))
      && (s.Resume? ==> s.g == g.(stages := TurnStages(Some(End), g.stages.turnStage)))
  {
    if g.stages.lastTurnStage == Some(Followup) {
      FieldCardsInRange(g.field, |g.cards|);
    }
  }

  /** The defense options of `letDefend`, when there is an unanswered
      attack: they answer the first unanswered slot, the defender alone owes
      a response, the stage follows the `letDefend` rewrite, and no card
      moves. */
  lemma LetDefendOffers(g: Game, pid: PlayerId, slot: nat)
    requires CardsInRange(g) && pid in g.hands
    requires g.stages.lastTurnStage != Some(Followup) && FirstUnanswered(g.field) == Some(slot)
    ensures g.field[slot].attack.Some? && g.field[slot].attack.value < |g.cards|
    ensures
      var s := LetDefend(g, pid);
      var acts := s.g.validActions;
      var attack := g.cards[g.field[slot].attack.value];
      && s.Rest?
      && g.field[slot].defense.None?
      && (forall i | 0 <= i < slot :: !(g.field[i].attack.Some? && g.field[i].defense.None?))
      && s.g.playersActing == g.playersActing + [pid]
      && s.g.stages == DefenseRewrite(g.stages)
      && s.g.cards == g.cards && s.g.hands == g.hands && s.g.field == g.field
      && |acts| >= 1 && acts[|acts| - 1] == Take
      && (forall cid | cid in g.hands[pid] :: DefendWith(cid, slot) in acts <==> Beats(g.cards[cid], attack, g.trumpSuit))
      && (forall a | a in acts && a.DefendWith? :: a.slot == slot && a.cid in g.hands[pid])
      && Skip !in acts && (forall a | a in acts :: !a.AttackWith?)
  {
    assert g.field[slot].attack.value in SpotCards(g.field[slot]);
    DefenseOptionsSpec(g, pid, slot);
  }

  /** `discardAndNotify`: every field card goes to the end of the discard
      pile and is marked as discarded, the slots are emptied, and the turn
      counters are cleared. With cards discarded the stage becomes END_DEAL,
      `fullField` grows by one up to `fieldSize` and every player is
      awaited; with none the stage becomes ENDED and `fullField` stays. From
      `zeroDiscardFieldSize` or `fieldSize`, `fullField` ends in one of the
      two. */
  lemma DiscardSpec(g: Game)
    requires Shaped(g) && g.gameStarted
    ensures
      var s := DiscardAndNotify(g);
      && s.g.discardPile == g.discardPile + FieldCards(g.field)
      && (forall c | c in FieldCards(g.field) :: c < |s.g.cards| && s.g.cards[c].position == DiscardPile)
      && FieldCards(s.g.field) == [] && (forall i | 0 <= i < |s.g.field| :: s.g.field[i] == EmptySpot)
      && s.g.fieldUsedSpots == 0 && s.g.skipCounter == 0 && s.g.stages.lastTurnStage.None?
      && (FieldCards(g.field) != [] ==>
            && s.Rest? && s.g.stages.turnStage == Some(EndDeal)
            && s.g.fullField == (if g.fullField < FieldSize then g.fullField + 1 else g.fullField)
            && s.g.hands == g.hands && s.g.deck == g.deck
            && s.g.playersActing == g.playersActing + g.players)
      && (FieldCards(g.field) == [] ==> s.g.stages.turnStage == Some(Ended) && s.g.fullField == g.fullField)
      && (ZeroDiscardFieldSize <= g.fullField <= FieldSize ==> ZeroDiscardFieldSize <= s.g.fullField <= FieldSize)
  {
    FieldCardsInRange(g.field, |g.cards|);
    var d := DiscardField(g);
    forall c | c in FieldCards(g.field) ensures d.cards[c].position == DiscardPile {
    }
  }

  /** `dealTillFullHand` goes on at once exactly when no seated hand is
      short of six cards or the deck is empty; otherwise the cards are dealt
      and every player is awaited. */
  lemma DealTillFullHandSpec(g: Game)
    requires DeckInRange(g) && forall p | p in g.players :: p in g.hands
    ensures
      var s := DealTillFullHand(g);
      s.Resume? <==> g.deck == [] || forall p | p in g.players :: |g.hands[p]| >= NormalHandSize
  {
    var requests := FullHandRequests(g.players, g.hands, StartSeat(g));
    if requests != [] {
      assert requests[0].numOfCards > 0;
      assert |Units(requests)| >= requests[0].numOfCards;
      DealSpec(g, requests);
    }
  }

  /** With enough cards in the deck, `dealTillFullHand` fills every short
      hand to exactly six cards and changes no other hand. */
  lemma DealTillFullHandFills(g: Game)
    requires DeckInRange(g) && NoDup(g.players) && forall p | p in g.players :: p in g.hands
    requires |g.deck| >= |Units(FullHandRequests(g.players, g.hands, StartSeat(g)))|
    ensures
      var s := DealTillFullHand(g);
      forall p | p in g.players ::
        |s.g.hands[p]| == if |g.hands[p]| < NormalHandSize then NormalHandSize else |g.hands[p]|
  {
    FullHandDeal(g, StartSeat(g));
  }

  /** The first pass: the game is marked started and, when the deck holds
      enough cards, every player ends up with exactly six cards, the deck is
      six cards per player shorter, and every player is awaited. */
  lemma StartSpec(g: Game)
    requires Shaped(g) && !g.gameStarted && g.players != []
    requires |g.deck| >= NormalHandSize * |g.players|
    ensures
      var s := Start(g);
      && s.Rest? && s.g.gameStarted
      && s.g.playersActing == g.playersActing + g.players
      && |s.g.deck| == |g.deck| - NormalHandSize * |g.players|
      && forall p | p in g.players :: |s.g.hands[p]| == NormalHandSize
  {
    var started := g.(gameStarted := true, hands := map p | p in g.players :: []);
    assert DeckInRange(started);
    OpeningDeal(started);
    OpeningRequestsSeated(g.players);
    DealSpec(started, OpeningRequests(g.players));
    var (r, outs) := Deal(started, OpeningRequests(g.players));
    assert |outs| > 0 by {
      assert |r.deck| < |started.deck|;
    }
  }

  /** The opening attacker: the game waits for every player exactly when a
      trump was dealt, and then the attacker holds a trump no higher than
      anyone's lowest trump; with no trump dealt seat 0 attacks seat 1. */
  lemma FirstTurnSpec(g: Game)
    requires Shaped(g) && g.gameStarted && |g.players| >= 2
    requires forall c | 0 <= c < |g.cards| :: g.cards[c].value <= MaxCardValue
    ensures HandsInRange(g.players, g.hands, g.cards)
    ensures
      var s := FirstTurn(g);
      && (s.Rest? <==> TrumpDealt(g.players, g.hands, g.cards, g.trumpSuit))
      && s.g.attacker.Some? && s.g.defender.Some?
      && (s.Rest? ==>
            var a := s.g.attacker.value;
            && a in g.players && HoldsTrump(g.cards, g.hands[a], g.trumpSuit)
            && s.g.playersActing == g.playersActing + g.players
            && forall p | p in g.players && HoldsTrump(g.cards, g.hands[p], g.trumpSuit) ::
                 Low(g.cards, g.hands[a], g.trumpSuit) <= Low(g.cards, g.hands[p], g.trumpSuit))
      && (s.Resume? ==> s.g.attacker == Some(g.players[0]) && s.g.defender == Some(g.players[1]))
  {
    Seating(g);
    GoFirstSpec(g.players, |g.activePlayers|, g.hands, g.cards, g.trumpSuit, g.ally);
  }

  /** The start of the turn after an ENDED one: the active players shrink
      to those with cards (once the deck is empty); the game is over exactly
      when fewer than two are left. Otherwise the turn number goes up, the
      stage becomes INITIAL_ATTACK, attacker and defender are two different
      remaining players, the ally is present exactly when more than two
      remain, and (by the intended rotation) a previous attacker still in
      the game does not attack again. */
  lemma NewTurnSpec(g: Game)
    requires Shaped(g) && g.gameStarted && g.stages.turnStage == Some(Ended) && g.attacker.Some?
    ensures forall p | p in g.activePlayers :: p in g.hands
    ensures
      var s := NewTurn(g);
      var left := Survivors(g.activePlayers, g.hands, g.deck == []);
      && s.g.activePlayers == left
      && (s.GameOver? <==> |left| < 2)
      && (s.Resume? ==>
            && s.g.turnNumber == g.turnNumber + 1
            && s.g.stages == TurnStages(Some(InitialAttack), Some(Ended))
            && s.g.attacker.Some? && s.g.defender.Some?
            && s.g.attacker.value in left && s.g.defender.value in left
            && s.g.attacker != s.g.defender
            && (s.g.ally.Some? <==> |left| > 2)
            && (g.attacker.value in g.activePlayers ==> s.g.attacker != g.attacker))
  {
    Seating(g);
    GoNextRoles(g.activePlayers, g.hands, g.deck == [], g.attacker);
    if g.attacker.value in g.activePlayers {
      GoNextMovesOn(g.activePlayers, g.hands, g.deck == [], g.attacker.value);
    }
  }

  /** Wherever `findPlayerToGoFirst` as written does not fail, the first
      turn takes the roles it picks and waits for every player exactly when
      it does; the only departure is two seats with no trump dealt, where
      the code reads a missing third seat. */
  lemma FirstTurnFollowsCode(g: Game)
    requires Shaped(g) && g.gameStarted && |g.players| >= 2
    ensures HandsInRange(g.players, g.hands, g.cards) && (|g.activePlayers| > 2 ==> |g.players| > 2)
    ensures
      var code := GoFirst(g.players, |g.activePlayers|, g.hands, g.cards, g.trumpSuit, g.ally);
      var s := FirstTurn(g);
      !code.NoThirdSeat? ==>
        && (s.Rest? <==> code.ByTrump?)
        && s.g.attacker == Some(code.roles.attacker) && s.g.defender == Some(code.roles.defender)
        && s.g.ally == code.roles.ally
  {
    Seating(g);
  }

  /** While nobody leaves the game, the next turn keeps the active players
      and takes the roles `findPlayerToGoNext` as written picks; the engine
      departs from the code only in the turn after a player goes out. */
  lemma NewTurnFollowsCode(g: Game)
    requires Shaped(g) && g.gameStarted && g.stages.turnStage == Some(Ended)
    requires |g.activePlayers| >= 2
    requires g.deck == [] ==> forall p | p in g.activePlayers :: p in g.hands && |g.hands[p]| > 0
    ensures forall p | p in g.activePlayers :: p in g.hands
    ensures
      var code := GoNextAsWritten(g.activePlayers, g.hands, g.deck == [], g.attacker);
      var s := NewTurn(g);
      && code.Continues? && s.Resume?
      && s.g.activePlayers == code.active == g.activePlayers
      && s.g.attacker == Some(code.roles.attacker) && s.g.defender == Some(code.roles.defender)
      && s.g.ally == code.roles.ally
  {
    Seating(g);
    KeepsSeatsAgree(g.activePlayers, g.hands, g.deck == [], g.attacker);
  }
}

=== FILE: util.dfy ===
/** Small sequence helpers shared by the game model: an Option type, duplicate
    freedom, the JavaScript `indexOf` / `splice(i, 1)` pair, and the multiset
    facts the card-conservation proofs are built from. */
module Util {

  /** JavaScript's `null`-or-value, as in the game's `attacker`, `turnStage`, ... */
  datatype Option<+T> = None | Some(value: T) {
    /** `this.x || fallback` */
    function GetOr(default: T): T {
      match this
      case Some(v) => v
      case None => default
    }
  }

  /** No element occurs twice. */
  ghost predicate NoDup<T>(s: seq<T>) {
    forall i, j | 0 <= i < j < |s| :: s[i] != s[j]
  }

  ghost predicate Disjoint<T>(a: seq<T>, b: seq<T>) {
    forall x | x in a :: x !in b
  }

  /** The identifiers 0 .. n-1 in order. */
  function Range(n: nat): (r: seq<nat>)
    ensures |r| == n
    ensures forall i | 0 <= i < n :: r[i] == i
  {
    seq(n, i => i)
  }

  /** `Array.prototype.indexOf`: the first index holding `x`, or -1. */
  function IndexOf<T(==)>(s: seq<T>, x: T): (i: int)
    ensures -1 <= i < |s|
    ensures i == -1 <==> x !in s
    ensures 0 <= i ==> s[i] == x && x !in s[..i]
  {
    if |s| == 0 then -1
    else if s[0] == x then 0
    else
      var k := IndexOf(s[1..], x);
      assert k >= 0 ==> s[..k + 1] == [s[0]] + s[1..][..k];
      if k == -1 then -1 else k + 1
  }

  /** `Array.prototype.splice(i, 1)` for an index found by `indexOf`: -1
      counts from the end, so it drops the last element. */
  function SpliceOne<T>(s: seq<T>, i: int): (r: seq<T>)
    requires -1 <= i < |s|
    ensures 0 <= i ==> r == s[..i] + s[i + 1..]
    ensures i == -1 && |s| > 0 ==> r == s[..|s| - 1]
    ensures i == -1 && |s| == 0 ==> r == []
  {
    if i == -1 then (if |s| == 0 then s else s[..|s| - 1])
    else s[..i] + s[i + 1..]
  }

  /** Removing one occurrence takes exactly that element out of the multiset. */
  lemma SpliceOneMultiset<T>(s: seq<T>, i: nat)
    requires i < |s|
    ensures multiset(SpliceOne(s, i)) == multiset(s) - multiset{s[i]}
  {
    assert s == s[..i] + [s[i]] + s[i + 1..];
  }

  /** Swapping two positions permutes the sequence. */
  function Swap<T>(s: seq<T>, i: nat, j: nat): (r: seq<T>)
    requires i < |s| && j < |s|
    ensures |r| == |s|
    ensures r[i] == s[j] && r[j] == s[i]
    ensures forall k | 0 <= k < |s| && k != i && k != j :: r[k] == s[k]
    ensures multiset(r) == multiset(s)
  {
    var r := s[i := s[j]][j := s[i]];
    SwapMultiset(s, i, j);
    r
  }

  lemma SwapMultiset<T>(s: seq<T>, i: nat, j: nat)
    requires i < |s| && j < |s|
    ensures multiset(s[i := s[j]][j := s[i]]) == multiset(s)
  {
    if i != j {
      var t := s[i := s[j]];
      assert multiset(t) == multiset(s) - multiset{s[i]} + multiset{s[j]};
      assert multiset(t[j := s[i]]) == multiset(t) - multiset{t[j]} + multiset{s[i]};
    }
  }

  /** A sequence with no repeats has every multiplicity at most one. */
  lemma NoDupMultiplicity<T>(s: seq<T>, x: T)
    requires NoDup(s)
    ensures multiset(s)[x] <= 1
  {
    if |s| > 0 {
      assert s == [s[0]] + s[1..];
      assert NoDup(s[1..]);
      NoDupMultiplicity(s[1..], x);
      if x == s[0] {
        assert x !in s[1..];
      }
    }
  }

  /** Having the same multiset as a repeat-free sequence rules out repeats. */
  lemma PermutationKeepsNoDup<T>(a: seq<T>, b: seq<T>)
    requires multiset(a) == multiset(b)
    requires NoDup(b)
    ensures NoDup(a)
  {
    forall i, j | 0 <= i < j < |a|
      ensures a[i] != a[j]
    {
      if a[i] == a[j] {
        var x := a[i];
        assert a == a[..i] + [x] + a[i + 1..];
        assert a[i + 1..] == a[i + 1..j] + [x] + a[j + 1..];
        assert multiset(a)[x] >= 2;
        NoDupMultiplicity(b, x);
        assert false;
      }
    }
  }

  lemma RangeNoDup(n: nat)
    ensures NoDup(Range(n))
  {
  }

  /** Splitting a repeat-free concatenation. */
  lemma NoDupConcat<T>(a: seq<T>, b: seq<T>)
    ensures NoDup(a + b) <==> NoDup(a) && NoDup(b) && Disjoint(a, b)
  {
    if NoDup(a + b) {
      forall i, j | 0 <= i < j < |a| ensures a[i] != a[j] {
        assert (a + b)[i] == a[i] && (a + b)[j] == a[j];
      }
      forall i, j | 0 <= i < j < |b| ensures b[i] != b[j] {
        assert (a + b)[|a| + i] == b[i] && (a + b)[|a| + j] == b[j];
      }
      forall i, j | 0 <= i < |a| && 0 <= j < |b| ensures a[i] != b[j] {
        assert (a + b)[i] == a[i] && (a + b)[|a| + j] == b[j];
      }
    }
    if NoDup(a) && NoDup(b) && Disjoint(a, b) {
      forall i, j | 0 <= i < j < |a + b| ensures (a + b)[i] != (a + b)[j] {
        if j < |a| {
        } else if i >= |a| {
          assert (a + b)[i] == b[i - |a|] && (a + b)[j] == b[j - |a|];
        } else {
          assert (a + b)[i] == a[i] && a[i] in a;
          assert (a + b)[j] == b[j - |a|];
        }
      }
    }
  }

  /** Multiset sums cancel. */
  lemma MultisetCancel<T>(a: multiset<T>, b: multiset<T>, m: multiset<T>)
    requires a + m == b + m
    ensures a == b
  {
    forall x ensures a[x] == b[x] {
      assert (a + m)[x] == (b + m)[x];
    }
  }

  /** Swapping `s` for `s` less `x` on one side puts `x` back on the other. */
  lemma TakeOut<T>(rest': multiset<T>, rest: multiset<T>, s: multiset<T>, x: T)
    requires x in s && rest' + s == rest + (s - multiset{x})
    ensures rest' + multiset{x} == rest
  {
    forall y ensures (rest' + multiset{x})[y] == rest[y] {
      assert (rest' + s)[y] == (rest + (s - multiset{x}))[y];
    }
  }

  /** A balance between two multisets survives adding the same part to both. */
  lemma Extend<T>(m: multiset<T>, rest': multiset<T>, rest: multiset<T>, a: multiset<T>, b: multiset<T>)
    requires rest' + a == rest + b
    ensures (m + rest') + a == (m + rest) + b
  {
    forall y ensures ((m + rest') + a)[y] == ((m + rest) + b)[y] {
      assert (rest' + a)[y] == (rest + b)[y];
    }
  }

  /** Cancelling `s` from both sides of a balance. */
  lemma Absorb<T>(a': multiset<T>, a: multiset<T>, s: multiset<T>, x: multiset<T>)
    requires a' + s == a + (s + x)
    ensures a' == a + x
  {
    forall y ensures a'[y] == (a + x)[y] {
      assert (a' + s)[y] == (a + (s + x))[y];
    }
  }

  lemma Rebalance<T>(a: multiset<T>, b: multiset<T>, h: multiset<T>, h': multiset<T>, m: multiset<T>)
    requires h' + m == h + (m + a)
    ensures b + h' == (a + b) + h
  {
    forall x ensures (b + h')[x] == ((a + b) + h)[x] {
      assert (h' + m)[x] == (h + (m + a))[x];
    }
  }

  /** An element of a repeat-free sequence occurs in no other position. */
  lemma NoDupSpliceExcludes<T>(s: seq<T>, i: nat)
    requires NoDup(s) && i < |s|
    ensures s[i] !in SpliceOne(s, i)
    ensures NoDup(SpliceOne(s, i))
  {
    var r := SpliceOne(s, i);
    forall k | 0 <= k < |r| ensures r[k] != s[i] {
      if k < i { assert r[k] == s[k]; } else { assert r[k] == s[k + 1]; }
    }
    forall a, b | 0 <= a < b < |r| ensures r[a] != r[b] {
      var a' := if a < i then a else a + 1;
      var b' := if b < i then b else b + 1;
      assert r[a] == s[a'] && r[b] == s[b'] && a' < b';
    }
  }

  /** A repeat-free sequence drawn from `b` is no longer than `b`. */
  lemma {:induction false} NoDupSubsetLength<T>(a: seq<T>, b: seq<T>)
    requires NoDup(a) && forall x | x in a :: x in b
    ensures |a| <= |b|
  {
    if a != [] {
      var i := IndexOf(b, a[0]);
      var b' := SpliceOne(b, i);
      forall x | x in a[1..] ensures x in b' {
        assert x in a;
        var j := IndexOf(b, x);
        assert x != a[0] by { assert a[0] !in a[1..]; }
        if j < i { assert b'[j] == x; } else { assert b'[j - 1] == x; }
      }
      assert NoDup(a[1..]);
      NoDupSubsetLength(a[1..], b');
    }
  }
}

=== FILE: views.dfy ===
/** What the players are told about the cards: the payloads of `dealNotify`,
    `deckNotify` and `gameStateNotify` (serverjs/gamelogic.js) as pure
    functions of the game. A face (value and suit) is sent only for the
    recipient's own cards, the BOTTOM card and the cards on the field; every
    other entry goes out with its value and suit nulled. */
module Views {
  import opened Util
  import opened Cards
  import opened Field
  import opened GameState
  import opened Moves
  import opened Dealing
  import opened Setup

  /** A card as a client receives it: the id, the face when the recipient
      may know it (`None` for the nulled value and suit), and the recorded
      position. */
  datatype SeenCard = SeenCard(cid: CardId, face: Option<(int, int)>, position: Position)

  /** One entry of the `dealNotify` payload: who got which card, and the
      face for the recipient's own cards only. */
  datatype SeenDeal = SeenDeal(pid: PlayerId, cid: CardId, face: Option<(int, int)>)

  /** The `gameStateNotify` payload: the listed cards and the trump suit. */
  datatype StateNote = StateNote(cards: seq<SeenCard>, trumpSuit: int)

  /** A copy of card `cid`, its value and suit nulled unless `visible`. */
  function Show(cards: seq<Card>, cid: CardId, visible: bool): (s: SeenCard)
    requires cid < |cards|
    ensures s.cid == cid && s.position == cards[cid].position
    ensures s.face.Some? <==> visible
    ensures visible ==> s.face == Some(Face(cards[cid]))
  {
    SeenCard(cid, if visible then Some(Face(cards[cid])) else None, cards[cid].position)
  }

  // ---- dealNotify ----

  /** `dealNotify(deals)` for the recipient `viewer`: every deal in order,
      with the face of the card only when it went to `viewer`. */
  function DealView(cards: seq<Card>, deals: seq<Dealt>, viewer: PlayerId): (v: seq<SeenDeal>)
    requires forall i | 0 <= i < |deals| :: deals[i].cid < |cards|
    ensures |v| == |deals|
    ensures forall i | 0 <= i < |deals| :: v[i].pid == deals[i].pid && v[i].cid == deals[i].cid
    ensures forall i | 0 <= i < |deals| :: v[i].face.Some? <==> deals[i].pid == viewer
    ensures forall i | 0 <= i < |deals| && v[i].face.Some? :: v[i].face.value == Face(cards[deals[i].cid])
  {
    seq(|deals|, i requires 0 <= i < |deals| =>
      SeenDeal(deals[i].pid, deals[i].cid,
               if deals[i].pid == viewer then Some(Face(cards[deals[i].cid])) else None))
  }

  /** The cards whose faces a deal payload reveals, in order. */
  function RevealedDeals(v: seq<SeenDeal>): seq<CardId> {
    if v == [] then []
    else (if v[0].face.Some? then [v[0].cid] else []) + RevealedDeals(v[1..])
  }

  /** A deal payload with every face nulled: what all recipients share. */
  function PublicDeals(v: seq<SeenDeal>): (r: seq<SeenDeal>)
    ensures |r| == |v|
    ensures forall i | 0 <= i < |v| :: r[i] == v[i].(face := None)
  {
    seq(|v|, i requires 0 <= i < |v| => v[i].(face := None))
  }

  /** A player learns the faces of exactly the cards dealt to it, in the
      order they were dealt. */
  lemma {:induction false} DealViewReveals(cards: seq<Card>, deals: seq<Dealt>, viewer: PlayerId)
    requires forall i | 0 <= i < |deals| :: deals[i].cid < |cards|
    ensures RevealedDeals(DealView(cards, deals, viewer)) == DealtTo(deals, viewer)
    decreases |deals|
  {
    if deals != [] {
      var v := DealView(cards, deals, viewer);
      var rest := DealView(cards, deals[1..], viewer);
      assert v[1..] == rest;
      DealViewReveals(cards, deals[1..], viewer);
    }
  }

  /** Apart from the faces, every player receives the same payload. */
  lemma DealViewsAgree(cards: seq<Card>, deals: seq<Dealt>, viewer: PlayerId, other: PlayerId)
    requires forall i | 0 <= i < |deals| :: deals[i].cid < |cards|
    ensures PublicDeals(DealView(cards, deals, viewer)) == PublicDeals(DealView(cards, deals, other))
  {
    var v, w := DealView(cards, deals, viewer), DealView(cards, deals, other);
    assert forall i | 0 <= i < |deals| :: PublicDeals(v)[i] == PublicDeals(w)[i];
  }

  /** After `deal`, the faces each player is sent are exactly the cards its
      hand gained. */
  lemma DealNotifyShowsNewCards(g: Game, requests: seq<DealRequest>, q: PlayerId)
    requires DeckInRange(g) && forall i | 0 <= i < |requests| :: requests[i].pid in g.hands
    requires q in g.hands
    ensures
      var (r, outs) := Deal(g, requests);
      && (forall i | 0 <= i < |outs| :: outs[i].cid < |r.cards|)
      && r.hands[q] == g.hands[q] + RevealedDeals(DealView(r.cards, outs, q))
  {
    var (r, outs) := Deal(g, requests);
    ServeOrder(g.deck, g.hands, requests);
    ServeHands(g.deck, g.hands, requests);
    DealViewReveals(r.cards, outs, q);
  }

  // ---- deckNotify ----

  /** `deckNotify`: the deck in order, each card's face nulled unless its
      position is BOTTOM. Every player receives the same payload. */
  function DeckView(cards: seq<Card>, deck: seq<CardId>): (v: seq<SeenCard>)
    requires IdsInRange(cards, deck)
    ensures |v| == |deck|
    ensures forall i | 0 <= i < |deck| :: v[i].cid == deck[i] && v[i].position == cards[deck[i]].position
    ensures forall i | 0 <= i < |deck| :: v[i].face.Some? <==> cards[deck[i]].position == Bottom
    ensures forall i | 0 <= i < |deck| && v[i].face.Some? :: v[i].face.value == Face(cards[deck[i]])
  {
    seq(|deck|, i requires 0 <= i < |deck| => Show(cards, deck[i], cards[deck[i]].position == Bottom))
  }

  /** The `deckNotify` at the end of `make` shows exactly one face, that of
      the last card of the deck: a non-ace whose suit is the trump suit. */
  lemma NewGameDeckView(players: seq<PlayerId>, offline: set<PlayerId>, draws: seq<nat>)
    requires ValidDraws(draws, NumOfCards(|players|))
    ensures
      var g := NewGame(players, offline, draws);
      && IdsInRange(g.cards, g.deck) && |g.deck| > 0
      && var v := DeckView(g.cards, g.deck);
      && (forall i | 0 <= i < |v| - 1 :: v[i].face.None?)
      && v[|v| - 1].face.Some?
      && v[|v| - 1].face.value.0 != MaxCardValue
      && v[|v| - 1].face.value.1 == g.trumpSuit
  {
    var t := MakeTable(|players|, draws);
    var b := Reset(Blank(players, offline));
    assert NewGame(players, offline, draws) == Make(b, draws);
    TableDeckView(t);
  }

  /** The deck view of a table `make` builds: only the last card, the
      BOTTOM one, shows its face. */
  lemma TableDeckView(t: Table)
    requires |t.deck| > 0 && IdsInRange(t.cards, t.deck)
    requires multiset(t.deck) == multiset(Range(|t.cards|))
    requires t.cards[t.deck[|t.deck| - 1]].position == Bottom
    requires forall c | 0 <= c < |t.cards| && c != t.deck[|t.deck| - 1] :: t.cards[c].position == Deck
    ensures
      var v := DeckView(t.cards, t.deck);
      && (forall i | 0 <= i < |v| - 1 :: v[i].face.None?)
      && v[|v| - 1].face == Some(Face(t.cards[t.deck[|t.deck| - 1]]))
  {
    RangeNoDup(|t.cards|);
    PermutationKeepsNoDup(t.deck, Range(|t.cards|));
    forall i | 0 <= i < |t.deck| - 1 ensures t.cards[t.deck[i]].position == Deck {
      assert t.deck[i] != t.deck[|t.deck| - 1];
    }
  }

  // ---- gameStateNotify ----

  /** The hand part of `gameStateNotify`: each card's face is nulled unless
      its position names the recipient. */
  function HandsView(cards: seq<Card>, ids: seq<CardId>, viewer: PlayerId): (v: seq<SeenCard>)
    requires IdsInRange(cards, ids)
    ensures |v| == |ids|
    ensures forall i | 0 <= i < |ids| :: v[i].cid == ids[i] && v[i].position == cards[ids[i]].position
    ensures forall i | 0 <= i < |ids| :: v[i].face.Some? <==> cards[ids[i]].position == Held(viewer)
    ensures forall i | 0 <= i < |ids| && v[i].face.Some? :: v[i].face.value == Face(cards[ids[i]])
  {
    seq(|ids|, i requires 0 <= i < |ids| => Show(cards, ids[i], cards[ids[i]].position == Held(viewer)))
  }

  /** The field part of `gameStateNotify`: every card with its face. */
  function FieldView(cards: seq<Card>, ids: seq<CardId>): (v: seq<SeenCard>)
    requires IdsInRange(cards, ids)
    ensures |v| == |ids|
    ensures forall i | 0 <= i < |ids| :: v[i] == SeenCard(ids[i], Some(Face(cards[ids[i]])), cards[ids[i]].position)
  {
    seq(|ids|, i requires 0 <= i < |ids| => Show(cards, ids[i], true))
  }

  /** Every card id in the deck, the hands and on the field indexes the card
      table. */
  ghost predicate Listable(g: Game) {
    && IdsInRange(g.cards, g.deck)
    && IdsInRange(g.cards, HandCards(g.players, g.hands))
    && IdsInRange(g.cards, FieldCards(g.field))
  }

  /** `gameStateNotify(player)`: the deck, then every seat's hand in seat
      order, then the field slot by slot, attack before defense; and the
      trump suit. */
  function StateView(g: Game, viewer: PlayerId): (n: StateNote)
    requires Listable(g)
  {
    StateNote(DeckView(g.cards, g.deck)
              + HandsView(g.cards, HandCards(g.players, g.hands), viewer)
              + FieldView(g.cards, FieldCards(g.field)),
              g.trumpSuit)
  }

  /** The cards a player may know: the BOTTOM card of the deck, the cards
      of its own hand, the cards on the field. */
  ghost predicate Knows(g: Game, viewer: PlayerId, c: CardId)
    requires c < |g.cards|
  {
    || (c in g.deck && g.cards[c].position == Bottom)
    || (viewer in g.hands && c in g.hands[viewer])
    || c in FieldCards(g.field)
  }

  /** The cards of a state have ids in range. */
  lemma ShapedListable(g: Game)
    requires CardsInRange(g)
    ensures Listable(g)
  {
    FieldCardsInRange(g.field, |g.cards|);
    var h := HandCards(g.players, g.hands);
    forall i | 0 <= i < |h| ensures h[i] < |g.cards| {
      var p := HandCardsSource(g.players, g.hands, h[i]);
      var j :| 0 <= j < |g.hands[p]| && g.hands[p][j] == h[i];
    }
  }

  /** The ids `gameStateNotify` lists: the deck, the hands, the field. */
  lemma StateViewIds(g: Game, viewer: PlayerId)
    requires Listable(g)
    ensures
      var v := StateView(g, viewer).cards;
      var ids := g.deck + HandCards(g.players, g.hands) + FieldCards(g.field);
      && |v| == |ids|
      && forall i | 0 <= i < |v| :: v[i].cid == ids[i]
  {
    var d, h, f := g.deck, HandCards(g.players, g.hands), FieldCards(g.field);
    var v := StateView(g, viewer).cards;
    var dv, hv, fv := DeckView(g.cards, d), HandsView(g.cards, h, viewer), FieldView(g.cards, f);
    forall i | 0 <= i < |v| ensures v[i].cid == (d + h + f)[i] {
      if i < |d| {
        assert v[i] == dv[i];
      } else if i < |d| + |h| {
        assert v[i] == hv[i - |d|];
      } else {
        assert v[i] == fv[i - |d| - |h|];
      }
    }
  }

  /** `gameStateNotify` lists every card outside the discard pile exactly
      once: the deck, the hands and the field in that order. */
  lemma StateViewLists(g: Game, viewer: PlayerId)
    requires Shaped(g) && Conserved(g)
    ensures Listable(g)
    ensures
      var v := StateView(g, viewer).cards;
      var ids := g.deck + HandCards(g.players, g.hands) + FieldCards(g.field);
      && |v| == |ids|
      && (forall i | 0 <= i < |v| :: v[i].cid == ids[i])
      && multiset(ids) + multiset(g.discardPile) == multiset(Range(|g.cards|))
  {
    ShapedListable(g);
    StateViewIds(g, viewer);
    assert AllCards(g) == g.deck + HandCards(g.players, g.hands) + FieldCards(g.field) + g.discardPile;
  }

  /** The faces `gameStateNotify` sends are exactly those of the cards the
      recipient may know, and they are the true faces. */
  lemma StateViewReveals(g: Game, viewer: PlayerId)
    requires Shaped(g) && Conserved(g)
    ensures Listable(g)
    ensures
      var v := StateView(g, viewer).cards;
      forall i | 0 <= i < |v| ::
        && v[i].cid < |g.cards|
        && (v[i].face.Some? <==> Knows(g, viewer, v[i].cid))
        && (v[i].face.Some? ==> v[i].face.value == Face(g.cards[v[i].cid]))
  {
    ShapedListable(g);
    EntriesKnown(g, viewer);
    ViewShowsKnown(g, viewer);
  }

  /** The per-entry step of `StateViewReveals`, from what each container
      lets the player know. */
  lemma ViewShowsKnown(g: Game, viewer: PlayerId)
    requires Listable(g)
    requires forall c | c in g.deck ::
      c < |g.cards| && (Knows(g, viewer, c) <==> g.cards[c].position == Bottom)
    requires forall c | c in HandCards(g.players, g.hands) ::
      c < |g.cards| && (Knows(g, viewer, c) <==> g.cards[c].position == Held(viewer))
    requires forall c | c in FieldCards(g.field) :: c < |g.cards| && Knows(g, viewer, c)
    ensures
      var v := StateView(g, viewer).cards;
      forall i | 0 <= i < |v| ::
        && v[i].cid < |g.cards|
        && (v[i].face.Some? <==> Knows(g, viewer, v[i].cid))
        && (v[i].face.Some? ==> v[i].face.value == Face(g.cards[v[i].cid]))
  {
    var d, h, f := g.deck, HandCards(g.players, g.hands), FieldCards(g.field);
    var v := StateView(g, viewer).cards;
    var dv, hv, fv := DeckView(g.cards, d), HandsView(g.cards, h, viewer), FieldView(g.cards, f);
    forall i | 0 <= i < |v|
      ensures v[i].cid < |g.cards|
      ensures v[i].face.Some? <==> Knows(g, viewer, v[i].cid)
      ensures v[i].face.Some? ==> v[i].face.value == Face(g.cards[v[i].cid])
    {
      if i < |d| {
        assert v[i] == dv[i] && d[i] in d;
      } else if i < |d| + |h| {
        assert v[i] == hv[i - |d|] && h[i - |d|] in h;
      } else {
        assert v[i] == fv[i - |d| - |h|] && f[i - |d| - |h|] in f;
      }
    }
  }

  /** Which cards of each container a player may know. */
  lemma EntriesKnown(g: Game, viewer: PlayerId)
    requires Shaped(g) && Conserved(g)
    ensures forall c | c in g.deck ::
      c < |g.cards| && (Knows(g, viewer, c) <==> g.cards[c].position == Bottom)
    ensures forall c | c in HandCards(g.players, g.hands) ::
      c < |g.cards| && (Knows(g, viewer, c) <==> g.cards[c].position == Held(viewer))
    ensures forall c | c in FieldCards(g.field) :: c < |g.cards| && Knows(g, viewer, c)
  {
    forall c | c in g.deck
      ensures c < |g.cards| && (Knows(g, viewer, c) <==> g.cards[c].position == Bottom)
    {
      DeckEntryKnown(g, viewer, c);
    }
    forall c | c in HandCards(g.players, g.hands)
      ensures c < |g.cards| && (Knows(g, viewer, c) <==> g.cards[c].position == Held(viewer))
    {
      HandEntryKnown(g, viewer, c);
    }
    forall c | c in FieldCards(g.field) ensures c < |g.cards| && Knows(g, viewer, c) {
      var s := FieldCardsSource(g.field, c);
      FieldCardPosition(g, s, c);
    }
  }

  /** A deck card is known exactly when it is the BOTTOM card. */
  lemma DeckEntryKnown(g: Game, viewer: PlayerId, c: CardId)
    requires Shaped(g) && Conserved(g) && c in g.deck
    ensures c < |g.cards| && (Knows(g, viewer, c) <==> g.cards[c].position == Bottom)
  {
    ContainersSeparate(g);
    DeckCardPosition(g, c);
    if viewer in g.hands && c in g.hands[viewer] {
      HandCardsMember(g.players, g.hands, viewer, c);
    }
  }

  /** A card in some hand is known exactly when its position names the
      recipient, which is when it is in the recipient's hand. */
  lemma HandEntryKnown(g: Game, viewer: PlayerId, c: CardId)
    requires Shaped(g) && Conserved(g) && c in HandCards(g.players, g.hands)
    ensures c < |g.cards| && (Knows(g, viewer, c) <==> g.cards[c].position == Held(viewer))
  {
    ContainersSeparate(g);
    var p := HandCardsSource(g.players, g.hands, c);
    assert p in g.hands;
    HeldCardPosition(g, p, c);
    if viewer in g.hands && c in g.hands[viewer] {
      HandCardsSeparate(g.players, g.hands, p, viewer, c);
    }
  }
}
